=== FILE: README.md ===
# VerbAI Studio data core, modelled in Dafny

This project models the data-handling core of the VerbAI Studio website builder.

- **The tenant store** (`src/services/store.service.ts`):
  - per-tenant persistence in browser storage, under `verbai_data_v1_<tenant>_<segment>` keys;
  - bootstrap defaults for a tenant seen for the first time;
  - the content, lead and term lists and the landing-page sections;
  - brand and SEO settings, and the site configuration;
  - slug normalisation with unique suffixes and the sitemap;
  - the fixed-credential login and the session.
- **The JSON file service** (`server.js`): one document `{siteConfig, contents, terms, leads}` and the route handlers over it.
- **Three editor screens**:
  - the blog editor: tags, categories, the save path and formatting;
  - the lead form and its CSV export;
  - the page editor: header and footer links, the SEO context and audit, and AI copy for a section field.

The model is functional. Each entity is an immutable datatype. Browser storage is a `map<string, Blob>` and the service's file is a `FileState`. Every operation is a function from state to state. Clocks, generated ids, random numbers, the date parser used for sorting, `JSON.stringify` of section content and every AI answer are parameters, so a property proved for all values of a parameter holds whatever the clock or the AI returns.

Modules, one per file:
- Shared helpers:
  - `Wrappers`: `Option`, `Result`.
  - `Strings`: JavaScript string operations — lower-casing, `trim`, `split`, `join`, decimal text.
  - `Json`: JSON values, object spread, `===`, truthiness.
  - `Seqs`: `findIndex`, `filter`.
  - `Keyed`: lookups and edits by id.
  - `Sorting`: the stable newest-first sort.
  - `Csv`: RFC 4180 quoting.
- The store:
  - `Model`: the entities.
  - `Slug`: slugs and unique slugs.
  - `Sitemap`: the sitemap XML.
  - `Store`: storage layout, load and save, tenants, session.
  - `Actions`: store mutations, and `Dispatch`, which writes them through to storage.
- The service: `Server`.
- The screens: `Blog`, `Leads`, `PageEditor`.

The model follows the code in these respects:
- The local `saveContent` replaces a stored item with the caller's object and does not merge. It keeps the caller's `createdAt` on update. A new item gets no id.
- The local `addTerm` always appends and never merges or deduplicates.
- Only `DELETE /api/contents/:id` reports a missing id (404). The term and lead deletes always answer 200.
- A tenant bootstrapped from defaults does not start with empty collections (see Findings). `Store.UpdateTenant` switches tenants with the loader as written; `Store.UpdateTenantCorrected` uses the corrected one.

## Model

| member | source | states |
|---|---|---|
| Slug.NormalizeShape | src/services/store.service.ts:410 | a normalised slug consists only of lower-case letters, digits, `_` and hyphens, and never has two hyphens in a row |
| Slug.NormalizeKeepsWordChars | src/services/store.service.ts:410 | normalising keeps every letter, digit and `_` of the lower-cased title, in order; it adds only hyphens and removes only punctuation, white space and surplus hyphens |
| Slug.NormalizeIdempotent | src/services/store.service.ts:410 | normalising an already-normalised slug returns it unchanged |
| Slug.NormalizedIsFixpoint | src/services/store.service.ts:410 | any text of slug characters with no double hyphen is left unchanged by normalisation |
| Slug.CollapseRunsSplice | src/services/store.service.ts:410 | a replace of `/P+/g` by `-` turns a maximal run of matching characters into a single hyphen in the run's place, leaving the text on both sides as each side collapses alone |
| Slug.CollapseRunsAppend | src/services/store.service.ts:410 | a run never spans a seam with a non-matching character on one side, so the replace works on each side separately |
| Slug.CollapsedIs | src/services/store.service.ts:410 | the run replace agrees with a reading one character at a time: a run character followed by another is dropped, the last one of a run becomes the hyphen, any other character is kept |
| Slug.NormalizeHyphenates | src/services/store.service.ts:410 | between two lower-case words, a separator of white space and hyphens becomes exactly one hyphen (`"my  - post"` gives `"my-post"`) |
| Slug.NormalizeDropsPunctuation | src/services/store.service.ts:410 | punctuation between two lower-case words is deleted without a hyphen (`"don't"` gives `"dont"`) |
| Slug.FirstFree | src/services/store.service.ts:413-418 | the suffix search ends at a candidate no other item of the same type uses, and that candidate is the k-th or a later one |
| Slug.UniqueSlug | src/services/store.service.ts:409-419 | the slug returned is not used by any other item of the same type, except the excluded id; it is the normalised title or the normalised title followed by `-n` with n ≥ 1 |
| Slug.FirstFreeDeterminedByTaken | src/services/store.service.ts:413-418 | the slug found depends only on which candidates are taken |
| Slug.UniqueSlugIgnores | src/services/store.service.ts:415 | items of the other content type, and the item being saved itself, never change the slug chosen |
| Slug.CandidateIndexOf | src/services/store.service.ts:416 | the candidate slugs `base`, `base-1`, `base-2`, … are pairwise distinct: each one says which try it was |
| Sitemap.CurrentTenant | src/services/store.service.ts:177 | the current tenant is the first registered tenant with the selected id, and there is none exactly when no tenant has that id |
| Sitemap.Lastmod | src/services/store.service.ts:402 | `lastmod` is the longest prefix of `updatedAt` before the first `T` (all of it when there is no `T`) |
| Sitemap.GenerateSitemap | src/services/store.service.ts:396-407 | the sitemap starts with the XML declaration and the sitemaps.org 0.9 `urlset` opening, and ends with `</urlset>` |
| Sitemap.SitemapStructure | src/services/store.service.ts:396-407 | the sitemap is the header, the root entry, one entry for each published post in store order, and the closing tag; drafts, scheduled posts and pages add nothing |
| Sitemap.PostsXmlIsPublishedBlocks | src/services/store.service.ts:400-404 | skipping unpublished posts inside the loop gives the same text as filtering the published posts first |
| Sitemap.SitemapAppend | src/services/store.service.ts:400-404 | adding one content item adds exactly one `<url>` entry, just before `</urlset>`, if it is a published post, and nothing otherwise |
| Store.KeyInjective | src/services/store.service.ts:214 | two (tenant, segment) pairs never share a storage key, so tenants cannot overwrite each other |
| Store.FourKeysDistinct | src/services/store.service.ts:297-309 | the four segment keys of one tenant are pairwise distinct |
| Store.KeyIsNotGlobal | src/services/store.service.ts:131-132 | tenant keys never collide with the session key or the tenant-list key |
| Store.SaveCurrentTenantData | src/services/store.service.ts:296-310 | the settings, contents, leads and terms of the selected tenant are written under its four keys; no other key changes; the in-memory state is untouched |
| Store.SaveIsolatesTenants | src/services/store.service.ts:296-310 | saving leaves every other tenant's segments, the session and the tenant list as they were |
| Store.SaveIdempotent | src/services/store.service.ts:296-310 | saving twice has the same effect as saving once |
| Store.ApplySettings | src/services/store.service.ts:215-294 | stored settings replace the brand kit, SEO and sections, and the site config unless it is missing, when the current one is kept; with none, the brand kit, site config and sections of the tenant's kind (agency or client, as `initializeVerbAiDefaults` and `initializeNewClientDefaults` set them) are applied, the page SEO in memory is kept, and the tenant's state is persisted; unparsable settings throw with the settings key |
| Store.LoadContents | src/services/store.service.ts:231-232 | the contents become the stored list, or `[]` when the key is absent; nothing else changes; unparsable text throws with the contents key |
| Store.LoadLeads | src/services/store.service.ts:234-235 | the leads become the stored list, or `[]` when the key is absent; unparsable text throws with the leads key |
| Store.LoadTerms | src/services/store.service.ts:237-238 | the terms become the stored list, or `[]` when the key is absent; unparsable text throws with the terms key |
| Store.LoadTenantData | src/services/store.service.ts:213-239 | loading never changes the session or the tenant list; a throw names one of that tenant's keys, holding a present value; with stored settings, storage is not written (what is shown is stated by Store.LoadedDataIsStored) |
| Store.SaveLoadRoundTrip | src/services/store.service.ts:213-239 | loading the tenant just saved restores exactly the saved state, storage included |
| Store.CommitIsDurable | src/services/store.service.ts:313-332 | after any mutation followed by a save, reloading the tenant yields the mutated data |
| Store.LoadIdempotent | src/services/store.service.ts:213-294 | once a load of the selected tenant completes, loading it again changes nothing, including after the defaults of either kind have been applied and persisted by the first load |
| Store.LoadIdempotentStored | src/services/store.service.ts:213-239 | when the tenant's settings are stored, the storage is untouched by the load, so a second load reads back exactly what the first loaded |
| Store.LoadedDataIsStored | src/services/store.service.ts:213-239 | with stored settings, a completed load leaves storage alone and shows exactly what is stored: the brand kit, SEO and sections, the site config or the previous one when missing, and each collection, or none when absent |
| Store.BootstrapInheritsPreviousTenant | src/services/store.service.ts:224-238 | as written, a tenant with no stored settings ends up with the previously shown tenant's contents, leads and terms |
| Store.BootstrapLeakExample | src/services/store.service.ts:224-238 | concretely: a post shown before switching to tenant "acme" with nothing stored appears as acme's contents |
| Store.LoadTenantDataCorrected | src/services/store.service.ts:213-239 | the corrected loader agrees with the original whenever settings are stored |
| Store.CorrectedBootstrapIsEmpty | src/services/store.service.ts:241-294 | with the correction, a new tenant gets empty contents, leads and terms and the default sections of its kind, and these defaults are what is stored; the page SEO is the one shown before |
| Store.CorrectedLoadRoundTrip | src/services/store.service.ts:213-239 | the corrected loader also restores exactly what was saved |
| Store.UpdateTenant | src/services/store.service.ts:195-198 | switching tenant selects the id and keeps the tenant list; with stored settings a completed load leaves storage alone and shows exactly the tenant's stored settings and collections; without, the collections shown before are kept |
| Store.UpdateTenantCorrected | src/services/store.service.ts:195-198 | with the corrected loader a first-time tenant starts with empty contents, leads and terms; with stored settings it switches exactly as the original does |
| Store.AddTenant | src/services/store.service.ts:375-394 | the tenant is appended and the list persisted; its settings are seeded with its name, and its contents and leads with `[]`; no other key and no in-memory data changes |
| Store.AddedTenantLoads | src/services/store.service.ts:375-394 | switching to a freshly added tenant shows empty contents, leads and terms, and its name as SEO title, logo text and hero headline |
| Store.SeededTenantLoads | src/services/store.service.ts:213-239 | a tenant whose settings are stored, whose contents and leads are stored empty and whose terms are absent loads exactly those settings and empty collections |
| Store.LoadTenantsList | src/services/store.service.ts:200-207 | the stored tenant list is restored; with none, the current list is stored; any other value throws |
| Store.AddedTenantSurvivesReload | src/services/store.service.ts:375-377 | a fresh store that loads the tenant list gets back the list `addTenant` wrote, whatever list it started with |
| Store.AttemptLogin | src/services/store.service.ts:423-430 | login succeeds exactly for the two fixed credential pairs; success sets the user of that pair ("Hianto Super"/"HS" as super admin, "Admin User"/"AU" as admin, the given email, no avatar), writes it under the session key and changes nothing else; failure changes nothing |
| Store.LoadSession | src/services/store.service.ts:460-463 | a stored user becomes the current user; with no stored session, or one that is not a user, nothing changes; nothing but the current user can change |
| Store.LoginSurvivesReload | src/services/store.service.ts:458-463 | after a successful login, a reload restores the same user |
| Store.Logout | src/services/store.service.ts:439-443 | logout clears the user and deletes the session key; every other key keeps its value, and the data, tenants and selection are untouched |
| Store.LogoutSurvivesReload | src/services/store.service.ts:439-463 | after logout, a reload finds nobody signed in |
| Store.UpdateUser | src/services/store.service.ts:445-448 | with nobody signed in nothing changes; otherwise each of the five user fields takes the supplied value or keeps its own, only the user and the session key change, and a reload restores the updated user |
| Actions.UpsertContent | src/services/store.service.ts:334-342 | an existing id is replaced in place by the caller's item, with `updatedAt` now; a new id is appended, with both timestamps now |
| Actions.FindAfterUpsertContent | src/services/store.service.ts:334-342 | after a save, the id finds the saved item and every other id finds what it found before |
| Actions.UpsertContentTwice | src/services/store.service.ts:334-342 | saving the same item twice equals saving it once when the id exists; for a new id the second save keeps the caller's `createdAt` |
| Actions.DeleteUndoesCreate | src/services/store.service.ts:344-347 | deleting a just-created item restores the list |
| Actions.UpsertLead | src/services/store.service.ts:349-356 | an existing id is replaced in place; a new lead goes to the head of the list |
| Actions.FindAfterUpsertLead | src/services/store.service.ts:349-356 | the saved lead is what its id finds, other ids are unaffected, and a new lead is first |
| Actions.DeleteUndoesNewLead | src/services/store.service.ts:361-364 | deleting a just-inserted lead restores the list |
| Actions.SetLeadStatus | src/services/store.service.ts:357-360 | every lead with the id gets the new status; all other leads are unchanged |
| Actions.SetLeadStatusLastWins | src/services/store.service.ts:357-360 | two status updates of the same id equal the last one alone |
| Actions.FindAfterSetLeadStatus | src/services/store.service.ts:357-360 | after a status update, the id finds its old lead with the new status, and other ids are unaffected |
| Actions.AddTerm | src/services/store.service.ts:366-369 | the term is appended, even when its id or name already exists |
| Actions.DeleteAfterAddTerm | src/services/store.service.ts:370-373 | deleting a term's id after adding it removes every term with that id and keeps the others in order |
| Actions.UpdateSection | src/services/store.service.ts:321-324 | every section with the id gets the patch's keys over its content, keeping its other keys; other sections are unchanged |
| Actions.UpdateSectionIdempotent | src/services/store.service.ts:321-324 | merging a patch twice equals merging it once, and an empty patch changes nothing |
| Actions.ToggleSection | src/services/store.service.ts:325-328 | exactly the sections with the id flip `isEnabled` |
| Actions.ToggleTwice | src/services/store.service.ts:325-328 | toggling twice is the identity |
| Actions.MergeBrand | src/services/store.service.ts:313-316 | a supplied brand field wins; an omitted field keeps its value |
| Actions.MergeBrandLaws | src/services/store.service.ts:313-316 | the empty patch is the identity, and applying a patch twice equals applying it once |
| Actions.MergeSeo | src/services/store.service.ts:317-320 | a supplied SEO field wins; an omitted field keeps its value |
| Actions.MergeSeoLaws | src/services/store.service.ts:317-320 | the empty patch is the identity, and applying a patch twice equals applying it once |
| Actions.Apply | src/services/store.service.ts:313-373 | each action changes only its own slice of the tenant data; a delete leaves no item with that id; a saved lead is found by its id; adding a term adds exactly one |
| Actions.Dispatch | src/services/store.service.ts:313-373 | each action ends with its settings, contents, leads and terms written under the selected tenant's keys; no other key changes; session and tenants are untouched |
| Actions.DispatchIsDurable | src/services/store.service.ts:313-373 | reloading the selected tenant after any action gives back exactly the state the action produced |
| Strings.Lower | src/components/blog/blog.component.ts:205 | lower-casing keeps the length and lower-cases each character on its own |
| Strings.Trim | src/components/blog/blog.component.ts:182 | the trimmed text is a contiguous slice of the input that neither starts nor ends with white space |
| Strings.TrimEmptyIff | src/components/blog/blog.component.ts:182-183 | trimming leaves nothing exactly when the input is all white space |
| Strings.Split | src/components/blog/blog.component.ts:187 | splitting yields at least one part, and no part holds the separator |
| Strings.JoinSplit | src/components/blog/blog.component.ts:187 | joining the parts of a split with the separator rebuilds the input |
| Strings.SplitJoin | src/components/leads/leads.component.ts:93 | splitting a join of separator-free parts gives back those parts |
| Json.Spread | src/services/store.service.ts:322 | in `{...a, ...b}` every key of `b` takes `b`'s value, keys only in `a` keep `a`'s value, and there are no other keys |
| Seqs.FindIndex | server.js:107 | `findIndex` returns the first position satisfying the test, or the length when none does (standing for -1) |
| Seqs.FilterIsSubsequence | server.js:93 | `filter` keeps the passing elements in their original order: the result is a subsequence of the input |
| Seqs.FilterCounts | server.js:93 | each passing element is kept as often as it occurs and no failing element is kept |
| Keyed.RemoveId | src/services/store.service.ts:345 | removing by id keeps exactly the elements with another id, and shrinks the list exactly when the id is present |
| Keyed.MapWhere | src/services/store.service.ts:358 | mapping by id changes the elements with that id and leaves every other element where it was |
| Sorting.Insert | server.js:96 | inserting into a newest-first list keeps it newest-first and adds exactly one element |
| Sorting.SortDesc | server.js:96 | the listing is a permutation of its input, sorted newest first |
| Sorting.SortDescOfSorted | server.js:96 | an already newest-first list comes back unchanged, ties in their original order |
| Server.ReadDb | server.js:17-35 | a missing file is seeded and written; an unparsable file reads as empty collections and is not written; a stored document has missing collections filled with `[]` |
| Server.ReadWriteRoundTrip | server.js:17-43 | what is written is what the next read returns, and that read writes nothing |
| Server.SeedIsStable | server.js:17-21 | a seeded file reads back as the seed without another write |
| Server.RemoveById | server.js:130 | the items kept are exactly those with another id, in order; the list shrinks exactly when the id is present |
| Server.ListContents | server.js:87-100 | the listing holds the items of the requested type (all when no type is given), sorted newest first |
| Server.NewContent | server.js:114-119 | a created item keeps the body's fields, takes the body's id when truthy or else the timestamp id, and stamps `createdAt` and `updatedAt` with the same time |
| Server.Restamp | server.js:109 | an update keeps stored fields the body omits, takes the body's fields, sets `updatedAt` to now, and keeps the stored `createdAt` unless the body brings one |
| Server.SaveContent | server.js:102-124 | the first item with the body's id is merged and restamped in place; otherwise the new item is appended |
| Server.DeleteAfterCreate | server.js:126-137 | deleting the id a create just assigned restores the collection |
| Server.SaveTerm | server.js:145-157 | the first term with the body's id is replaced; otherwise the term is appended |
| Server.SaveLead | server.js:172-185 | the first lead with the body's id is replaced; otherwise the lead is inserted at the head |
| Server.SavedIsFirstMatch | server.js:145-185 | a saved term or lead is what the first lookup of its id finds |
| Server.Handle | server.js:73-192 | every route answers 200, except a content delete of an absent id, which answers 404 and writes nothing; reads never write; a config POST answers the merged config; the three content routes answer as Server.ContentRoute states, and the term and lead routes as Server.TermLeadRoute states |
| Server.TermLeadRoute | server.js:140-192 | GET answers the stored terms or leads; POST stores the saved collection and answers "Term Saved" or "Lead Saved" with the body's id; DELETE stores the collection without the id and answers "Term Deleted" or "Lead Deleted"; every one answers 200 |
| Server.ContentRoute | server.js:87-137 | GET lists the filtered, newest-first contents; POST stores the saved collection and answers "Updated" with the body's id or "Created" with the new item's id; DELETE of a present id stores the collection without it |
| Server.WritesTouchOneCollection | server.js:102-192 | each write route stores exactly its own update of its collection (save or remove by id) and leaves the other collections and the config as read |
| Server.ContentWritesTouchContents | server.js:102-137 | after a content write the document reads back with the saved collection, or the collection without the deleted id, and configuration, terms and leads as before |
| Server.TermWritesTouchTerms | server.js:145-165 | after a term write the document reads back with the saved terms, or the terms without the deleted id, and the rest as before |
| Server.LeadWritesTouchLeads | server.js:172-192 | after a lead write the document reads back with the saved leads, or the leads without the deleted id, and the rest as before |
| Server.PostConfigThenGet | server.js:73-84 | a posted configuration is merged, and the next GET returns the merged configuration |
| Server.PostContentThenGet | server.js:87-124 | after a content POST, the next GET lists the saved collection |
| Server.CreatedIsListed | server.js:87-124 | a newly created item is in the listing of every query its type matches, and of the unfiltered query |
| Server.NewItemListed | server.js:87-99 | an appended item is listed whenever the query is falsy or matches its type |
| Server.WriteOverUnparsable | server.js:29-32 | a lead posted over an unparsable file replaces it with a document holding only that lead |
| Blog.TermSlug | src/components/blog/blog.component.ts:157 | a term slug consists only of lower-case letters, digits and single hyphens, and keeps every letter and digit of the lower-cased name in order |
| Blog.TermSlugIdempotent | src/components/blog/blog.component.ts:157 | a term slug is its own slug |
| Blog.TermSlugHyphenates | src/components/blog/blog.component.ts:157 | a run of other characters between two lower-case words becomes one hyphen in its place (`"web & design"` gives `"web-design"`) |
| Blog.AddSingleTag | src/components/blog/blog.component.ts:203-220 | an empty name does nothing; when a tag matches case-insensitively, the first match's id is added unless already present and the store is unchanged; otherwise a new tag is stored and assigned; the post's tag ids stay duplicate-free |
| Blog.ReuseTag | src/components/blog/blog.component.ts:205-209 | when a tag with the name exists, the first such tag's id is appended unless the post already has it, the store is untouched, and the tag ids stay duplicate-free |
| Blog.CreateNamedTag | src/components/blog/blog.component.ts:210-219 | otherwise exactly one new tag is appended to the store and its id to the post, and the name then resolves to an assigned tag |
| Blog.AddSingleTagIdempotent | src/components/blog/blog.component.ts:203-220 | adding the same tag name twice is adding it once |
| Blog.ResolvedPersists | src/components/blog/blog.component.ts:203-220 | a tag already assigned stays assigned while later tag edits only extend terms and tag ids |
| Blog.AddTags | src/components/blog/blog.component.ts:187 | after the comma-split loop every non-blank trimmed part names a stored tag assigned to the post; only terms and tag ids grow |
| Blog.AddTagFromInput | src/components/blog/blog.component.ts:181-194 | blank input does nothing; otherwise every non-blank trimmed comma-separated part ends up as an assigned tag, and only terms and tag ids grow |
| Blog.AddWholeInput | src/components/blog/blog.component.ts:188-190 | input without a comma is added as a single tag, which covers the one part a comma split would give |
| Blog.NoCommaIsOnePart | src/components/blog/blog.component.ts:186-190 | input without a comma is handled exactly like a one-part split |
| Blog.SelectTag | src/components/blog/blog.component.ts:196-201 | selecting assigns the tag once and changes nothing else in the post |
| Blog.RemoveTag | src/components/blog/blog.component.ts:222-224 | removing drops every occurrence of the id and keeps all other ids |
| Blog.RemoveUndoesSelect | src/components/blog/blog.component.ts:196-224 | removing a tag just selected restores the post |
| Blog.ToggleCategory | src/components/blog/blog.component.ts:145-151 | the category becomes assigned exactly when it was not; other categories are unaffected |
| Blog.ToggleCategoryTwice | src/components/blog/blog.component.ts:145-151 | toggling an unassigned category twice restores the post |
| Blog.AddNewCategory | src/components/blog/blog.component.ts:153-168 | blank input does nothing; otherwise a category `cat_<time>` with the trimmed name and its term slug is appended to the terms and assigned to the post |
| Blog.AddedCategoryIsNamed | src/components/blog/blog.component.ts:137-168 | a new category, whose generated id no stored category has, is found under its trimmed name and listed among the post's category names |
| Blog.CategoryName | src/components/blog/blog.component.ts:139 | a name is found exactly when some category has the id, and it is the name of the first category with that id |
| Blog.CategoryNames | src/components/blog/blog.component.ts:138-141 | each name listed is the non-empty name of one of the post's categories, and every non-empty category name of the post is listed |
| Blog.CategoryNamesIsMapFilter | src/components/blog/blog.component.ts:138-140 | the names are the post's category ids looked up in order, with unknown ids and empty names dropped, so they follow the post's order |
| Blog.GetCategoryNames | src/components/blog/blog.component.ts:137-143 | "Uncategorized" exactly when no category resolves to a non-empty name; otherwise the names joined by ", " |
| Blog.SavePost | src/components/blog/blog.component.ts:109-117 | a post without a title is not saved; otherwise it is saved with the unique slug of its slug, or of "untitled" |
| Blog.SavedSlugIsUnique | src/components/blog/blog.component.ts:109-117 | after saving, no other post has the saved slug, and the post's id finds the saved post |
| Blog.UpsertFreeSlug | src/components/blog/blog.component.ts:109-117 | saving a post under a slug no other post holds keeps the slug unique, and the post's id finds it |
| Blog.UpdateSlugIfNew | src/components/blog/blog.component.ts:378-386 | a stored post keeps its slug; a new post gets its title's normalised slug, which is well-formed and keeps every letter, digit and `_` of the title |
| Blog.InsertFormatting | src/components/blog/blog.component.ts:228-248 | the text before the selection is kept, the formatted replacement follows it, and the text after the selection resumes right after the replacement |
| Blog.PlainIsIdentity | src/components/blog/blog.component.ts:247-250 | an unknown format leaves the body exactly as it was |
| Blog.SelectionRecoverable | src/components/blog/blog.component.ts:237-250 | a non-empty selection can be read back from the result, right after the opening markup |
| Csv.EscapeQuotes | src/components/leads/leads.component.ts:91 | escaping adds one character per double quote and keeps every other character |
| Csv.UnescapeEscape | src/components/leads/leads.component.ts:91 | reading back an escaped message under rule 7 of section 2 of RFC 4180 gives the original message |
| Csv.EscapeUnescape | src/components/leads/leads.component.ts:91 | an escaped field body has exactly one reading: escaping that reading gives the field body back |
| Csv.EscapedFieldRoundTrip | src/components/leads/leads.component.ts:91 | a quoted, escaped message cell unquotes to the message |
| Csv.WrappedFieldRoundTripIff | src/components/leads/leads.component.ts:84 | a cell wrapped in quotes without escaping reads back correctly exactly when the text has no double quote |
| Leads.EmptyLeadIsRefused | src/components/leads/leads.component.ts:20-52 | the empty lead the form opens with has a blank name and email, and saving it as it is is refused and changes nothing |
| Leads.GeneratedLeadId | src/components/leads/leads.component.ts:55 | a generated id is `lead_` followed by the decimal timestamp, which reads back as that timestamp |
| Leads.SaveLead | src/components/leads/leads.component.ts:48-60 | a lead without a name or an email is refused and nothing changes; otherwise it keeps its id or gets the generated one, is found under that id in the store, other ids are unaffected, and the modal closes |
| Leads.SavedLeadIsDurable | src/components/leads/leads.component.ts:58 | a saved lead survives a reload of the tenant |
| Leads.Lines | src/components/leads/leads.component.ts:80-93 | the export lines are the header and then one row per lead, in store order |
| Leads.ExportCsv | src/components/leads/leads.component.ts:72-93 | there is no export exactly when there are no leads; otherwise it is the header line, a newline, and one row per lead in store order joined by newlines, whatever the fields hold |
| Leads.ExportLines | src/components/leads/leads.component.ts:80-93 | when no field holds a line break, the export splits into exactly the header line and one row per lead, in store order |
| Leads.RowIsOneLine | src/components/leads/leads.component.ts:82-92 | a lead without line breaks in its fields gives a single-line row |
| Leads.MessageCellReadsBack | src/components/leads/leads.component.ts:91 | the message cell reads back under RFC 4180 quoting as the message |
| Leads.NameAndCompanyCellsReadBackIff | src/components/leads/leads.component.ts:84-87 | the name and company cells read back correctly exactly when the text has no double quote, because they are wrapped without escaping |
| Leads.StatusColor | src/components/leads/leads.component.ts:105-115 | the grey badge is returned exactly for strings that are not one of the six stored statuses |
| Leads.StatusColorsDistinct | src/components/leads/leads.component.ts:106-112 | the six statuses get pairwise distinct badge classes |
| PageEditor.SpliceOne | src/components/page-editor/page-editor.component.ts:75 | `splice(index, 1)` removes exactly the element at the clamped start (negative indexes count from the end), keeps the rest in order, and changes nothing past the end |
| PageEditor.SpliceUndoesPush | src/components/page-editor/page-editor.component.ts:69-75 | removing the element just pushed, by its index or by -1, restores the list |
| PageEditor.AddHeaderLink | src/components/page-editor/page-editor.component.ts:67-71 | exactly one link "New Link" → `#` is appended to the header links; nothing else in the tenant data changes |
| PageEditor.RemoveHeaderLink | src/components/page-editor/page-editor.component.ts:73-77 | for an index in range, exactly that header link is removed and the others keep their order; past the end nothing changes |
| PageEditor.AddFooterLink | src/components/page-editor/page-editor.component.ts:79-83 | exactly one link "Legal" → `#` is appended to the footer links; nothing else changes |
| PageEditor.RemoveFooterLink | src/components/page-editor/page-editor.component.ts:85-89 | for an index in range, exactly that footer link is removed and the others keep their order; past the end nothing changes |
| PageEditor.RemoveUndoesAddLink | src/components/page-editor/page-editor.component.ts:67-89 | removing a link just added, by index or by -1, restores the tenant data, and an added link survives a reload |
| PageEditor.EntriesAreEnabledSections | src/components/page-editor/page-editor.component.ts:128-131 | the SEO context entries are exactly the enabled sections, in store order, one entry each |
| PageEditor.DisabledSectionIgnored | src/components/page-editor/page-editor.component.ts:150-153 | a disabled section, wherever it sits, leaves the SEO context unchanged |
| PageEditor.RunSeoAudit | src/components/page-editor/page-editor.component.ts:123-143 | while busy nothing happens; otherwise the report on the current context, title and description replaces the last one and the busy flag is cleared |
| PageEditor.AutoFixSeoAsWritten | src/components/page-editor/page-editor.component.ts:145-167 | as written, an AI title that is empty changes nothing; a non-empty one updates the page SEO and leaves no audit report |
| PageEditor.AutoFixLeavesNoReport | src/components/page-editor/page-editor.component.ts:162-164 | whatever the AI answers, a successful auto-fix as written leaves no report, while the corrected one leaves one |
| PageEditor.AutoFixSeo | src/components/page-editor/page-editor.component.ts:145-167 | corrected auto-fix: a non-empty AI title sets the title, description and keywords, and the report describes the fixed page |
| PageEditor.GenerateContentAsWritten | src/components/page-editor/page-editor.component.ts:98-121 | while busy nothing happens; with no active section the busy flag stays set; otherwise a non-empty result sets only that field of the active section, and the flag is cleared |
| PageEditor.FillField | src/components/page-editor/page-editor.component.ts:113-117 | the active section's content gets the field set to the result and nothing else; sections with other ids are unaffected |
| PageEditor.FindAfterUpdateSection | src/services/store.service.ts:321-324 | after a section update the id finds its old section with the patch merged in, and other ids are unaffected |
| PageEditor.StuckAfterMissingSection | src/components/page-editor/page-editor.component.ts:99-105 | after a request with no active section, every later AI request of the editor is refused |
| PageEditor.GenerateContent | src/components/page-editor/page-editor.component.ts:98-121 | corrected generation: the busy flag is always cleared; only a non-empty result for an active section changes the store |
| PageEditor.GenerateContentNeverSticks | src/components/page-editor/page-editor.component.ts:98-121 | the corrected version never stays busy, and agrees with the original whenever a section is active |

## Left out

- Real storage and transport are not modelled: `localStorage`, the file system, Express routing, CORS and body-size limits. Storage is a map, the file is a `FileState`, and each route is a function of the file.
- JSON text is not modelled. Serialising and parsing are an identity on values. `Unparsable` (and a value of the wrong shape under a key) stands for text `JSON.parse` rejects. A wrong-shaped value that JavaScript would accept with missing fields is treated as a throw.
- Clocks, `Date.now()`, `Math.random()` and the sort's `new Date(...)` parsing are parameters. The sort compares integers, so an unparsable date (`NaN`) is not modelled.
- Lower-casing covers ASCII letters only. `toLowerCase` is full Unicode, so case-insensitive tag matching and slugs are modelled for ASCII text.
- Regular expressions are modelled for what they match on ASCII input: `\w`, `\s` and `[^a-z0-9]`.
- The AI service is a parameter whose answers are arbitrary strings (see PageEditor.AutoFixSeoAsWritten for the SEO answer's shape). So is `JSON.stringify` of section content in the SEO context. The prompt text, the language choice and `generateImage` are not modelled.
- The translation table, the language switch, `quickLogin`, team members, `checkBackend` and `initStore`'s call sequence are not modelled; none carries data logic beyond what is modelled.
- Presentational and browser glue is not modelled: modal and sidebar flags other than the ones the modelled operations set, `alert`, `confirm`, the CSV download, focus and cursor handling. A `confirm` a modelled operation depends on is left to the caller.
- Async interleaving is not modelled. Each `await` is taken to complete before the next user action, and lost updates between concurrent writes are out of scope.
- Blog.InsertFormatting: requires `start <= end <= |text|`, which the browser guarantees for a textarea selection.
- Store.LoadTenantDataCorrected: empties only the collections. Neither `initializeVerbAiDefaults` nor `initializeNewClientDefaults` sets the page SEO, so a first-time tenant still takes over and persists the previous tenant's page SEO (Store.CorrectedBootstrapIsEmpty states this); which value it should be reset to (the store's initial page SEO, or the one `addTenant` seeds from the tenant's name) is not evident from the code.
- Actions.UpsertContent: one clock value stands for the two `new Date().toISOString()` reads of `saveContent`, so a new item's `createdAt` and `updatedAt` are equal in the model, while the two reads may differ by a tick.
- PageEditor.AutoFixSeoAsWritten: the AI answer is taken to hold a title, description and keywords as strings. `generateSeoTags` returns unvalidated JSON, and an answer missing a field would overwrite that SEO value with `undefined`; that case is not modelled.
- PageEditor.AutoFixSeo: the corrected version makes the same assumption about the AI answer as PageEditor.AutoFixSeoAsWritten.
- Server.Handle: the service keeps schemaless objects. Only the fields the handlers read (`id`, `type`, `createdAt`) are interpreted.

## Findings

| source | as written | input that shows it | evidently intended | confidence | as-written member | corrected member |
|---|---|---|---|---|---|---|
| src/services/store.service.ts:224-238 | a tenant with no stored settings is bootstrapped by `initialize*Defaults`, which calls `saveCurrentTenantData` before contents, leads and terms are read, so the previous tenant's collections are written under the new tenant's keys and then loaded | switch from a tenant showing one post to tenant "acme" with empty storage: acme now shows and stores that post | a first-time tenant starts with empty contents, leads and terms; the page SEO is carried over the same way, and the correction leaves that as it is | not executed | Store.BootstrapInheritsPreviousTenant | Store.LoadTenantDataCorrected |
| src/components/page-editor/page-editor.component.ts:162-166 | `autoFixSeo` re-runs the audit while `isGenerating` is still true, so `runSeoAudit` returns at once; the report was just cleared and stays empty | any AI answer with a non-empty title, from an idle editor | the audit runs on the fixed page and its report is shown | not executed | PageEditor.AutoFixLeavesNoReport | PageEditor.AutoFixSeo |
| src/components/page-editor/page-editor.component.ts:101-105 | `generateContent` sets `isGenerating` and then returns when there is no active section, without clearing it | a request while the page-SEO panel is open (no section has the id `PAGE_SEO`): every later AI action is refused | the busy flag is cleared on every return path | not executed | PageEditor.StuckAfterMissingSection | PageEditor.GenerateContent |

=== FILE: actions.dfy ===
/** The store's actions (src/services/store.service.ts): each mutates one slice of
    the active tenant's data and then writes the tenant through. The slice
    updates are pure functions on sequences and records; `Dispatch` pairs them
    with the write-through. */
module Actions {
  import opened Wrappers
  import opened Json
  import opened Model
  import opened Keyed
  import opened Store

  function ContentId(c: Content): string { c.id }
  function LeadId(l: Lead): string { l.id }
  function TermId(t: Term): string { t.id }
  function SectionId(s: Section): string { s.id }

  // --- contents ---

  /** `saveContent`: replace the first item with the caller's id by the caller's
      item stamped `updatedAt`, keeping the caller's `createdAt`; otherwise append
      it with both timestamps set to now. */
  function UpsertContent(items: seq<Content>, c: Content, now: string): (r: seq<Content>)
    ensures var i := IndexOf(items, ContentId, c.id);
            i < |items| ==> && |r| == |items| && r[i] == c.(updatedAt := now)
                            && forall j :: 0 <= j < |items| && j != i ==> r[j] == items[j]
    ensures !HasId(items, ContentId, c.id) ==> r == items + [c.(updatedAt := now, createdAt := now)]
  {
    var i := IndexOf(items, ContentId, c.id);
    var updated := c.(updatedAt := now);
    if i < |items| then items[i := updated] else items + [updated.(createdAt := now)]
  }

  /** After a save, looking the id up yields the saved item (with the caller's
      `createdAt` on update and `now` on insert); every other id is unaffected. */
  lemma FindAfterUpsertContent(items: seq<Content>, c: Content, now: string, other: string)
    ensures var r := UpsertContent(items, c, now);
            && Find(r, ContentId, c.id)
               == Some(c.(updatedAt := now, createdAt := if HasId(items, ContentId, c.id) then c.createdAt else now))
            && (other != c.id ==> Find(r, ContentId, other) == Find(items, ContentId, other))
  {
    var updated := c.(updatedAt := now);
    IndexOfFound(items, ContentId, c.id);
    if HasId(items, ContentId, c.id) {
      FindAfterReplace(items, ContentId, updated, other);
    } else {
      FindAfterAppend(items, ContentId, updated.(createdAt := now), other);
      FindAfterAppend(items, ContentId, updated.(createdAt := now), c.id);
    }
  }

  /** Saving the same item twice at the same instant: for an existing id this
      is the same as saving once; for a new id the second save takes the
      caller's `createdAt` again, undoing the creation stamp. */
  lemma UpsertContentTwice(items: seq<Content>, c: Content, now: string)
    ensures HasId(items, ContentId, c.id) ==>
              UpsertContent(UpsertContent(items, c, now), c, now) == UpsertContent(items, c, now)
    ensures !HasId(items, ContentId, c.id) ==>
              UpsertContent(UpsertContent(items, c, now), c, now) == items + [c.(updatedAt := now)]
  {
    var r := UpsertContent(items, c, now);
    IndexOfFound(items, ContentId, c.id);
    if HasId(items, ContentId, c.id) {
      var i := IndexOf(items, ContentId, c.id);
      IndexOfIsFirst(r, ContentId, c.id, i);
    } else {
      IndexOfIsFirst(r, ContentId, c.id, |items|);
    }
  }

  /** Deleting a freshly created item restores the list it was added to. */
  lemma DeleteUndoesCreate(items: seq<Content>, c: Content, now: string)
    requires !HasId(items, ContentId, c.id)
    ensures RemoveId(UpsertContent(items, c, now), ContentId, c.id) == items
  {
    RemoveFreshAppend(items, ContentId, c.(updatedAt := now, createdAt := now));
  }

  // --- leads ---

  /** `saveLead`: replace the first lead with this id in place, or put the new
      lead at the head. */
  function UpsertLead(items: seq<Lead>, l: Lead): (r: seq<Lead>)
    ensures var i := IndexOf(items, LeadId, l.id);
            i < |items| ==> && |r| == |items| && r[i] == l
                            && forall j :: 0 <= j < |items| && j != i ==> r[j] == items[j]
    ensures !HasId(items, LeadId, l.id) ==> r == [l] + items
  {
    var i := IndexOf(items, LeadId, l.id);
    if i < |items| then items[i := l] else [l] + items
  }

  /** After saving, the lead is what its id finds; other ids are unaffected; and
      a new lead sits at index 0. */
  lemma FindAfterUpsertLead(items: seq<Lead>, l: Lead, other: string)
    ensures var r := UpsertLead(items, l);
            && Find(r, LeadId, l.id) == Some(l)
            && (other != l.id ==> Find(r, LeadId, other) == Find(items, LeadId, other))
            && (!HasId(items, LeadId, l.id) ==> r[0] == l)
  {
    IndexOfFound(items, LeadId, l.id);
    if HasId(items, LeadId, l.id) {
      FindAfterReplace(items, LeadId, l, other);
    } else {
      FindAfterPrepend(items, LeadId, l, other);
      FindAfterPrepend(items, LeadId, l, l.id);
    }
  }

  /** Deleting a freshly inserted lead restores the list. */
  lemma DeleteUndoesNewLead(items: seq<Lead>, l: Lead)
    requires !HasId(items, LeadId, l.id)
    ensures RemoveId(UpsertLead(items, l), LeadId, l.id) == items
  {
    assert ([l] + items)[1..] == items;
  }

  /** `updateLeadStatus`: every lead with this id gets the status; nothing else changes. */
  function SetLeadStatus(items: seq<Lead>, id: string, st: LeadStatus): (r: seq<Lead>)
    ensures |r| == |items|
    ensures forall j :: 0 <= j < |items| ==> r[j].id == items[j].id
    ensures forall j :: 0 <= j < |items| && items[j].id == id ==> r[j] == items[j].(status := st)
    ensures forall j :: 0 <= j < |items| && items[j].id != id ==> r[j] == items[j]
  {
    MapWhere(items, LeadId, id, (l: Lead) => l.(status := st))
  }

  /** Two status updates of the same lead: the last one wins. */
  lemma SetLeadStatusLastWins(items: seq<Lead>, id: string, a: LeadStatus, b: LeadStatus)
    ensures SetLeadStatus(SetLeadStatus(items, id, a), id, b) == SetLeadStatus(items, id, b)
  {
  }

  /** After a status update the lead found under the id has that status and its
      other fields; lookups of other ids are unaffected. */
  lemma FindAfterSetLeadStatus(items: seq<Lead>, id: string, st: LeadStatus, other: string)
    ensures var r := SetLeadStatus(items, id, st);
            && (HasId(items, LeadId, id) ==> Find(r, LeadId, id) == Some(Find(items, LeadId, id).value.(status := st)))
            && (!HasId(items, LeadId, id) ==> r == items)
            && (other != id ==> Find(r, LeadId, other) == Find(items, LeadId, other))
  {
    var f := (l: Lead) => l.(status := st);
    FindAfterMapWhere(items, LeadId, id, f, id);
    FindAfterMapWhere(items, LeadId, id, f, other);
    if !HasId(items, LeadId, id) { MapWhereAbsent(items, LeadId, id, f); }
  }

  // --- terms ---

  /** `addTerm`: always appends, even when the id or the name is already present. */
  function AddTerm(items: seq<Term>, t: Term): (r: seq<Term>)
    ensures |r| == |items| + 1 && r[..|items|] == items && r[|items|] == t
  {
    items + [t]
  }

  /** Deleting a term's id after adding it leaves exactly what deleting that id
      before would have left; duplicates included. */
  lemma DeleteAfterAddTerm(items: seq<Term>, t: Term)
    ensures RemoveId(AddTerm(items, t), TermId, t.id) == RemoveId(items, TermId, t.id)
  {
    RemoveIdAppend(items, [t], TermId, t.id);
    assert RemoveId([t], TermId, t.id) == RemoveId([t][1..], TermId, t.id);
  }

  // --- sections ---

  /** `updateSection`: shallow-merge `patch` into the content of every section
      with this id. */
  function UpdateSection(sections: seq<Section>, id: string, patch: Object): (r: seq<Section>)
    ensures |r| == |sections|
    ensures forall j :: 0 <= j < |sections| && sections[j].id == id ==>
              && r[j] == sections[j].(content := r[j].content)
              && r[j].content.Keys == sections[j].content.Keys + patch.Keys
              && (forall k :: k in patch ==> r[j].content[k] == patch[k])
              && (forall k :: k in sections[j].content && k !in patch ==> r[j].content[k] == sections[j].content[k])
    ensures forall j :: 0 <= j < |sections| && sections[j].id != id ==> r[j] == sections[j]
  {
    MapWhere(sections, SectionId, id, (x: Section) => x.(content := Spread(x.content, patch)))
  }

  /** Merging the same patch twice is merging it once, and an empty patch changes nothing. */
  lemma UpdateSectionIdempotent(sections: seq<Section>, id: string, patch: Object)
    ensures UpdateSection(UpdateSection(sections, id, patch), id, patch) == UpdateSection(sections, id, patch)
    ensures UpdateSection(sections, id, map[]) == sections
  {
    var r := UpdateSection(sections, id, patch);
    var rr := UpdateSection(r, id, patch);
    forall j | 0 <= j < |sections| ensures rr[j] == r[j] {
      if sections[j].id == id {
        assert rr[j].content == r[j].content;
      }
    }
    var e := UpdateSection(sections, id, map[]);
    forall j | 0 <= j < |sections| ensures e[j] == sections[j] {
      if sections[j].id == id {
        assert e[j].content == sections[j].content;
      }
    }
  }

  /** `toggleSection`: flip `isEnabled` of every section with this id. */
  function ToggleSection(sections: seq<Section>, id: string): (r: seq<Section>)
    ensures |r| == |sections|
    ensures forall j :: 0 <= j < |sections| ==>
              r[j] == (if sections[j].id == id then sections[j].(isEnabled := !sections[j].isEnabled) else sections[j])
  {
    MapWhere(sections, SectionId, id, (x: Section) => x.(isEnabled := !x.isEnabled))
  }

  /** Toggling twice is the identity. */
  lemma ToggleTwice(sections: seq<Section>, id: string)
    ensures ToggleSection(ToggleSection(sections, id), id) == sections
  {
  }

  // --- brand and SEO settings ---

  /** `Partial<BrandConfig>`: the fields the caller supplies. */
  datatype BrandPatch = BrandPatch(
    primaryColor: Option<string>, secondaryColor: Option<string>, fontHeadings: Option<string>,
    fontBody: Option<string>, toneOfVoice: Option<string>, logoUrl: Option<string>, faviconUrl: Option<string>)

  const NoBrandChange := BrandPatch(None, None, None, None, None, None, None)

  /** `{...c, ...config}` on a brand kit. */
  function MergeBrand(c: BrandConfig, p: BrandPatch): (r: BrandConfig)
    ensures p.primaryColor.Some? ==> r.primaryColor == p.primaryColor.value
    ensures p.primaryColor.None? ==> r.primaryColor == c.primaryColor
    ensures p.secondaryColor.Some? ==> r.secondaryColor == p.secondaryColor.value
    ensures p.secondaryColor.None? ==> r.secondaryColor == c.secondaryColor
    ensures p.fontHeadings.Some? ==> r.fontHeadings == p.fontHeadings.value
    ensures p.fontHeadings.None? ==> r.fontHeadings == c.fontHeadings
    ensures p.fontBody.Some? ==> r.fontBody == p.fontBody.value
    ensures p.fontBody.None? ==> r.fontBody == c.fontBody
    ensures p.toneOfVoice.Some? ==> r.toneOfVoice == p.toneOfVoice.value
    ensures p.toneOfVoice.None? ==> r.toneOfVoice == c.toneOfVoice
    ensures p.logoUrl.Some? ==> r.logoUrl == p.logoUrl
    ensures p.logoUrl.None? ==> r.logoUrl == c.logoUrl
    ensures p.faviconUrl.Some? ==> r.faviconUrl == p.faviconUrl
    ensures p.faviconUrl.None? ==> r.faviconUrl == c.faviconUrl
  {
    BrandConfig(p.primaryColor.GetOr(c.primaryColor), p.secondaryColor.GetOr(c.secondaryColor),
                p.fontHeadings.GetOr(c.fontHeadings), p.fontBody.GetOr(c.fontBody),
                p.toneOfVoice.GetOr(c.toneOfVoice),
                if p.logoUrl.Some? then p.logoUrl else c.logoUrl,
                if p.faviconUrl.Some? then p.faviconUrl else c.faviconUrl)
  }

  /** Shallow merge laws: the empty patch is the identity and a patch applied
      twice is applied once. */
  lemma MergeBrandLaws(c: BrandConfig, p: BrandPatch)
    ensures MergeBrand(c, NoBrandChange) == c
    ensures MergeBrand(MergeBrand(c, p), p) == MergeBrand(c, p)
  {
  }

  /** `Partial<PageSeoConfig>` */
  datatype SeoPatch = SeoPatch(title: Option<string>, description: Option<string>, keywords: Option<string>,
                               ogImage: Option<string>)

  const NoSeoChange := SeoPatch(None, None, None, None)

  /** `{...c, ...config}` on the page SEO settings. */
  function MergeSeo(c: PageSeo, p: SeoPatch): (r: PageSeo)
    ensures p.title.Some? ==> r.title == p.title.value
    ensures p.title.None? ==> r.title == c.title
    ensures p.description.Some? ==> r.description == p.description.value
    ensures p.description.None? ==> r.description == c.description
    ensures p.keywords.Some? ==> r.keywords == p.keywords.value
    ensures p.keywords.None? ==> r.keywords == c.keywords
    ensures p.ogImage.Some? ==> r.ogImage == p.ogImage
    ensures p.ogImage.None? ==> r.ogImage == c.ogImage
  {
    PageSeo(p.title.GetOr(c.title), p.description.GetOr(c.description), p.keywords.GetOr(c.keywords),
            if p.ogImage.Some? then p.ogImage else c.ogImage)
  }

  lemma MergeSeoLaws(c: PageSeo, p: SeoPatch)
    ensures MergeSeo(c, NoSeoChange) == c
    ensures MergeSeo(MergeSeo(c, p), p) == MergeSeo(c, p)
  {
  }

  // --- dispatch ---

  datatype Action =
    | SaveContent(content: Content, now: string)
    | DeleteContent(id: string)
    | SaveLead(lead: Lead)
    | UpdateLeadStatus(id: string, status: LeadStatus)
    | DeleteLead(id: string)
    | AddTermAction(term: Term)
    | DeleteTerm(id: string)
    | UpdateSectionAction(id: string, patch: Object)
    | ToggleSectionAction(id: string)
    | UpdateBrandKit(brand: BrandPatch)
    | UpdatePageSeo(seo: SeoPatch)
    | SaveSiteConfig(config: SiteConfig)

  /** The in-memory effect of an action: each touches exactly one slice. */
  function Apply(d: TenantData, a: Action): (r: TenantData)
    ensures (a.SaveContent? || a.DeleteContent?) ==> r == d.(contents := r.contents)
    ensures (a.SaveLead? || a.UpdateLeadStatus? || a.DeleteLead?) ==> r == d.(leads := r.leads)
    ensures (a.AddTermAction? || a.DeleteTerm?) ==> r == d.(terms := r.terms)
    ensures (a.UpdateSectionAction? || a.ToggleSectionAction?) ==> r == d.(sections := r.sections)
    ensures a.UpdateBrandKit? ==> r == d.(brandKit := r.brandKit)
    ensures a.UpdatePageSeo? ==> r == d.(pageSeo := r.pageSeo)
    ensures a.SaveSiteConfig? ==> r == d.(siteConfig := a.config)
    ensures a.DeleteContent? ==> Find(r.contents, ContentId, a.id).None?
    ensures a.DeleteLead? ==> Find(r.leads, LeadId, a.id).None?
    ensures a.DeleteTerm? ==> Find(r.terms, TermId, a.id).None?
    ensures a.SaveLead? ==> Find(r.leads, LeadId, a.lead.id) == Some(a.lead)
    ensures a.AddTermAction? ==> |r.terms| == |d.terms| + 1
  {
    match a
    case SaveContent(c, now) => d.(contents := UpsertContent(d.contents, c, now))
    case DeleteContent(id) =>
      FindAfterRemove(d.contents, ContentId, id, id);
      d.(contents := RemoveId(d.contents, ContentId, id))
    case SaveLead(l) =>
      FindAfterUpsertLead(d.leads, l, l.id);
      d.(leads := UpsertLead(d.leads, l))
    case UpdateLeadStatus(id, st) => d.(leads := SetLeadStatus(d.leads, id, st))
    case DeleteLead(id) =>
      FindAfterRemove(d.leads, LeadId, id, id);
      d.(leads := RemoveId(d.leads, LeadId, id))
    case AddTermAction(t) => d.(terms := AddTerm(d.terms, t))
    case DeleteTerm(id) =>
      FindAfterRemove(d.terms, TermId, id, id);
      d.(terms := RemoveId(d.terms, TermId, id))
    case UpdateSectionAction(id, patch) => d.(sections := UpdateSection(d.sections, id, patch))
    case ToggleSectionAction(id) => d.(sections := ToggleSection(d.sections, id))
    case UpdateBrandKit(p) => d.(brandKit := MergeBrand(d.brandKit, p))
    case UpdatePageSeo(p) => d.(pageSeo := MergeSeo(d.pageSeo, p))
    case SaveSiteConfig(cfg) => d.(siteConfig := cfg)
  }

  /** Perform an action and write the active tenant through, as every action does. */
  function Dispatch(s: Store, a: Action): (r: Store)
    ensures r.data == Apply(s.data, a)
    ensures SameSession(r, s)
    ensures Read(r.storage, Key(s.selectedTenantId, SettingsSeg)) == Some(SettingsBlob(SettingsOf(r.data)))
    ensures Read(r.storage, Key(s.selectedTenantId, ContentsSeg)) == Some(ContentsBlob(r.data.contents))
    ensures Read(r.storage, Key(s.selectedTenantId, LeadsSeg)) == Some(LeadsBlob(r.data.leads))
    ensures Read(r.storage, Key(s.selectedTenantId, TermsSeg)) == Some(TermsBlob(r.data.terms))
    ensures forall k :: !IsTenantKey(s.selectedTenantId, k) ==> Read(r.storage, k) == Read(s.storage, k)
  {
    Commit(s, Apply(s.data, a))
  }

  /** Every action is durable: reloading the active tenant afterwards restores
      exactly the state the action produced. */
  lemma DispatchIsDurable(s: Store, a: Action, year: nat)
    ensures var r := Dispatch(s, a);
            LoadTenantData(r, s.selectedTenantId, year) == Loaded(r)
  {
    CommitIsDurable(s, Apply(s.data, a), year);
  }
}

=== FILE: blog.dfy ===
/** The blog editor's data logic (src/components/blog/blog.component.ts): tag
    and category assignment on the post being edited, the term-slug rule, the
    save path with its unique slug, and formatting insertion into the body. */
module Blog {
  import opened Wrappers
  import opened Strings
  import opened Seqs
  import opened Model
  import opened Keyed
  import opened Store
  import opened Actions
  import opened Slug

  /** The editor: the store it writes to and the post being edited (`activePost`). */
  datatype EditorState = EditorState(store: Store, post: Content)

  predicate NoDup(s: seq<string>) {
    forall i, j :: 0 <= i < j < |s| ==> s[i] != s[j]
  }

  // --- term slugs ---

  predicate NotLowerAlnum(c: char) { !IsLowerAlnum(c) }

  /** `name.toLowerCase().replace(/[^a-z0-9]+/g, '-')` */
  function TermSlug(name: string): (r: string)
    ensures forall i :: 0 <= i < |r| ==> IsLowerAlnum(r[i]) || r[i] == '-'
    ensures NoDoubleHyphen(r)
    ensures Filter(r, IsLowerAlnum) == Filter(Lower(name), IsLowerAlnum)
  {
    CollapseRunsKeeps(Lower(name), NotLowerAlnum, IsLowerAlnum);
    CollapseRuns(Lower(name), NotLowerAlnum)
  }

  /** A term slug is its own slug. */
  lemma TermSlugIdempotent(name: string)
    ensures TermSlug(TermSlug(name)) == TermSlug(name)
  {
    var s := TermSlug(name);
    LowerOfLowercase(s);
    CollapseRunsFixpoint(s, NotLowerAlnum);
  }

  /** A run of characters other than lower-case letters and digits between two
      words becomes one hyphen in its place: `"web & design"` gives `"web-design"`. */
  lemma {:induction false} TermSlugHyphenates(w1: string, sep: string, w2: string)
    requires forall i :: 0 <= i < |w1| ==> IsLowerAlnum(w1[i])
    requires forall i :: 0 <= i < |w2| ==> IsLowerAlnum(w2[i])
    requires |sep| > 0 && forall i :: 0 <= i < |sep| ==> !IsLowerAlnum(sep[i]) && !IsUpper(sep[i])
    ensures TermSlug(w1 + sep + w2) == w1 + "-" + w2
  {
    var s := w1 + sep + w2;
    forall i | 0 <= i < |s| ensures !IsUpper(s[i]) {
      if i < |w1| { assert s[i] == w1[i]; }
      else if i < |w1| + |sep| { assert s[i] == sep[i - |w1|]; }
      else { assert s[i] == w2[i - |w1| - |sep|]; }
    }
    LowerOfLowercase(s);
    CollapseRunsFixpoint(w1, NotLowerAlnum);
    CollapseRunsFixpoint(w2, NotLowerAlnum);
    CollapseRunsSplice(w1, sep, w2, NotLowerAlnum);
  }

  // --- tags ---

  /** An existing tag whose name equals `name` ignoring case. */
  predicate TagNamed(t: Term, name: string) {
    t.kind == Tag && Lower(t.name) == Lower(name)
  }

  function NewTag(name: string, id: string): Term {
    Term(id, Tag, name, TermSlug(name), None)
  }

  /** The tag named `name` is in the store and assigned to the post. */
  predicate Resolved(e: EditorState, name: string) {
    exists i :: 0 <= i < |e.store.data.terms| && TagNamed(e.store.data.terms[i], name)
                && e.store.data.terms[i].id in e.post.tagIds
  }

  /** `b` extends `a` the way tag edits do: terms and tag ids only grow at the
      end, nothing else in the post or the data changes. */
  predicate Grows(a: EditorState, b: EditorState) {
    && a.store.data.terms <= b.store.data.terms
    && a.post.tagIds <= b.post.tagIds
    && b.post == a.post.(tagIds := b.post.tagIds)
    && b.store.data == a.store.data.(terms := b.store.data.terms)
    && SameSession(b.store, a.store)
  }

  lemma ResolvedPersists(a: EditorState, b: EditorState, name: string)
    requires Grows(a, b) && Resolved(a, name)
    ensures Resolved(b, name)
  {
    var i :| 0 <= i < |a.store.data.terms| && TagNamed(a.store.data.terms[i], name)
             && a.store.data.terms[i].id in a.post.tagIds;
    assert b.store.data.terms[i] == a.store.data.terms[i];
    var k :| 0 <= k < |a.post.tagIds| && a.post.tagIds[k] == a.store.data.terms[i].id;
    assert b.post.tagIds[k] == a.post.tagIds[k];
  }

  lemma GrowsTransitive(a: EditorState, b: EditorState, c: EditorState)
    requires Grows(a, b) && Grows(b, c)
    ensures Grows(a, c)
  {
  }

  predicate HasTagNamed(terms: seq<Term>, name: string) {
    exists i :: 0 <= i < |terms| && TagNamed(terms[i], name)
  }

  /** Position of the first tag named `name` ignoring case
      (`tags().find(t => t.name.toLowerCase() === name.toLowerCase())`), or
      `|terms|` when there is none. */
  function FindTag(terms: seq<Term>, name: string): (i: nat)
    ensures i <= |terms|
    ensures i < |terms| <==> HasTagNamed(terms, name)
    ensures i < |terms| ==> TagNamed(terms[i], name)
    ensures forall j :: 0 <= j < i ==> !TagNamed(terms[j], name)
  {
    var p := (t: Term) => TagNamed(t, name);
    FindIndexAbsent(terms, p);
    FindIndex(terms, p)
  }

  /** A tag appended after a list without a match is the first match. */
  lemma FindTagAfterAppend(terms: seq<Term>, t: Term, name: string)
    requires !HasTagNamed(terms, name) && TagNamed(t, name)
    ensures FindTag(terms + [t], name) == |terms|
  {
    var ts := terms + [t];
    assert ts[|terms|] == t;
    assert forall j :: 0 <= j < |terms| ==> ts[j] == terms[j];
  }

  /** Assign an existing tag's id to the post, at most once. */
  function AssignTag(e: EditorState, id: string): (r: EditorState)
    ensures r.store == e.store && Grows(e, r)
    ensures id in r.post.tagIds
    ensures r.post.tagIds == if id in e.post.tagIds then e.post.tagIds else e.post.tagIds + [id]
    ensures NoDup(e.post.tagIds) ==> NoDup(r.post.tagIds)
  {
    if id in e.post.tagIds then e
    else
      var tagIds := e.post.tagIds + [id];
      assert tagIds[|e.post.tagIds|] == id;
      EditorState(e.store, e.post.(tagIds := tagIds))
  }

  /** Create the tag in the store (`addTerm`) and assign it to the post. */
  function CreateTag(e: EditorState, name: string, newId: string): (r: EditorState)
    ensures r.store.data.terms == e.store.data.terms + [NewTag(name, newId)]
    ensures r.post.tagIds == e.post.tagIds + [newId]
    ensures Grows(e, r)
  {
    var s := Dispatch(e.store, AddTermAction(NewTag(name, newId)));
    EditorState(s, e.post.(tagIds := e.post.tagIds + [newId]))
  }

  /** `addSingleTag(name)`: ignore an empty name; reuse a tag whose name matches
      ignoring case (adding its id once); otherwise create the tag in the store
      and assign it. */
  function AddSingleTag(e: EditorState, name: string, newId: string): (r: EditorState)
    ensures name == "" ==> r == e
    ensures name != "" ==> Resolved(r, name) && Grows(e, r)
    ensures name != "" && HasTagNamed(e.store.data.terms, name) ==>
              && r.store == e.store
              && var id := e.store.data.terms[FindTag(e.store.data.terms, name)].id;
                 r.post.tagIds == if id in e.post.tagIds then e.post.tagIds else e.post.tagIds + [id]
    ensures name != "" && !HasTagNamed(e.store.data.terms, name) ==>
              r.store.data.terms == e.store.data.terms + [NewTag(name, newId)]
              && r.post.tagIds == e.post.tagIds + [newId]
    ensures NoDup(e.post.tagIds) && !(newId in e.post.tagIds) ==> NoDup(r.post.tagIds)
  {
    if name == "" then e
    else if HasTagNamed(e.store.data.terms, name) then ReuseTag(e, name)
    else CreateNamedTag(e, name, newId)
  }

  /** The existing-tag branch: the first tag with the name gets assigned. */
  function ReuseTag(e: EditorState, name: string): (r: EditorState)
    requires HasTagNamed(e.store.data.terms, name)
    ensures Resolved(r, name) && Grows(e, r)
    ensures r.store == e.store
    ensures var id := e.store.data.terms[FindTag(e.store.data.terms, name)].id;
            r.post.tagIds == if id in e.post.tagIds then e.post.tagIds else e.post.tagIds + [id]
    ensures NoDup(e.post.tagIds) ==> NoDup(r.post.tagIds)
  {
    var terms := e.store.data.terms;
    var i := FindTag(terms, name);
    var r := AssignTag(e, terms[i].id);
    assert r.store.data.terms[i] == terms[i];
    r
  }

  /** The new-tag branch: the tag is created under `newId` and assigned. */
  function CreateNamedTag(e: EditorState, name: string, newId: string): (r: EditorState)
    ensures Resolved(r, name) && Grows(e, r)
    ensures r.store.data.terms == e.store.data.terms + [NewTag(name, newId)]
    ensures r.post.tagIds == e.post.tagIds + [newId]
    ensures NoDup(e.post.tagIds) && !(newId in e.post.tagIds) ==> NoDup(r.post.tagIds)
  {
    var r := CreateTag(e, name, newId);
    AppendedTagResolved(e, r, name, newId);
    r
  }

  lemma AppendedTagResolved(e: EditorState, r: EditorState, name: string, newId: string)
    requires r.store.data.terms == e.store.data.terms + [NewTag(name, newId)]
    requires r.post.tagIds == e.post.tagIds + [newId]
    ensures Resolved(r, name)
    ensures NoDup(e.post.tagIds) && !(newId in e.post.tagIds) ==> NoDup(r.post.tagIds)
  {
    assert r.store.data.terms[|e.store.data.terms|] == NewTag(name, newId);
    assert r.post.tagIds[|e.post.tagIds|] == newId;
  }

  /** Adding the same tag name twice is adding it once. */
  lemma AddSingleTagIdempotent(e: EditorState, name: string, id1: string, id2: string)
    ensures AddSingleTag(AddSingleTag(e, name, id1), name, id2) == AddSingleTag(e, name, id1)
  {
    if name != "" {
      var terms := e.store.data.terms;
      var e1 := AddSingleTag(e, name, id1);
      var i := FindTag(terms, name);
      if i < |terms| {
        assert e1.store == e.store;
        assert terms[i].id in e1.post.tagIds;
      } else {
        var t := NewTag(name, id1);
        assert e1.store.data.terms == terms + [t];
        FindTagAfterAppend(terms, t, name);
        assert e1.store.data.terms[|terms|].id == id1;
        assert e1.post.tagIds[|e.post.tagIds|] == id1;
      }
    }
  }

  /** The comma-split loop: add each trimmed part in turn; `ids(k)` is the id a
      new tag would get for part `k` (`tag_<time>_<random>`). */
  function AddTags(e: EditorState, parts: seq<string>, ids: nat -> string, k: nat): (r: EditorState)
    ensures Grows(e, r)
    ensures forall j :: 0 <= j < |parts| && Trim(parts[j]) != "" ==> Resolved(r, Trim(parts[j]))
    ensures (forall j :: 0 <= j < |parts| ==> Trim(parts[j]) == "") ==> r == e
    decreases |parts|
  {
    if |parts| == 0 then e
    else
      var e1 := AddSingleTag(e, Trim(parts[0]), ids(k));
      var r := AddTags(e1, parts[1..], ids, k + 1);
      AddTagsStep(e, e1, r, parts);
      r
  }

  lemma AddTagsStep(e: EditorState, e1: EditorState, r: EditorState, parts: seq<string>)
    requires |parts| > 0
    requires Trim(parts[0]) == "" ==> e1 == e
    requires Trim(parts[0]) != "" ==> Resolved(e1, Trim(parts[0])) && Grows(e, e1)
    requires Grows(e1, r)
    requires forall j :: 0 <= j < |parts[1..]| && Trim(parts[1..][j]) != "" ==> Resolved(r, Trim(parts[1..][j]))
    requires (forall j :: 0 <= j < |parts[1..]| ==> Trim(parts[1..][j]) == "") ==> r == e1
    ensures Grows(e, r)
    ensures forall j :: 0 <= j < |parts| && Trim(parts[j]) != "" ==> Resolved(r, Trim(parts[j]))
    ensures (forall j :: 0 <= j < |parts| ==> Trim(parts[j]) == "") ==> r == e
  {
    var rest := parts[1..];
    if Trim(parts[0]) != "" {
      GrowsTransitive(e, e1, r);
    }
    forall j | 0 <= j < |parts| && Trim(parts[j]) != "" ensures Resolved(r, Trim(parts[j])) {
      if j == 0 {
        ResolvedPersists(e1, r, Trim(parts[0]));
      } else {
        assert parts[j] == rest[j - 1];
      }
    }
    if forall j :: 0 <= j < |parts| ==> Trim(parts[j]) == "" {
      forall j | 0 <= j < |rest| ensures Trim(rest[j]) == "" {
        assert rest[j] == parts[j + 1];
      }
    }
  }

  /** `addTagFromInput`: trim the input; blank input does nothing; with a comma,
      every trimmed part is added; otherwise the whole input is one tag. */
  function AddTagFromInput(e: EditorState, raw: string, ids: nat -> string): (r: EditorState)
    ensures AllSpace(raw) ==> r == e
    ensures Grows(e, r)
    ensures var parts := Split(Trim(raw), ',');
            forall j :: 0 <= j < |parts| && Trim(parts[j]) != "" ==> Resolved(r, Trim(parts[j]))
  {
    var v := Trim(raw);
    TrimEmptyIff(raw);
    if v == "" then
      assert Split(v, ',') == [v];
      e
    else if Contains(v, ',') then AddTags(e, Split(v, ','), ids, 0)
    else
      TrimFixed(v);
      AddWholeInput(e, v, ids(0))
  }

  /** The comma-free branch: the trimmed input is the only part, added as one tag. */
  function AddWholeInput(e: EditorState, v: string, newId: string): (r: EditorState)
    requires v == Trim(v) && v != "" && !Contains(v, ',')
    ensures Grows(e, r)
    ensures var parts := Split(v, ',');
            forall j :: 0 <= j < |parts| && Trim(parts[j]) != "" ==> Resolved(r, Trim(parts[j]))
  {
    SplitWithoutSep(v, ',');
    AddSingleTag(e, v, newId)
  }

  /** Without a comma the input is handled exactly as a one-part split. */
  lemma NoCommaIsOnePart(e: EditorState, raw: string, ids: nat -> string)
    requires !Contains(Trim(raw), ',')
    ensures AddTagFromInput(e, raw, ids) == AddTags(e, Split(Trim(raw), ','), ids, 0)
  {
    var v := Trim(raw);
    TrimFixed(v);
    SplitWithoutSep(v, ',');
    TrimEmptyIff(raw);
  }

  /** `selectTag`: assign an existing tag unless it is already assigned. */
  function SelectTag(post: Content, tag: Term): (r: Content)
    ensures r == post.(tagIds := r.tagIds)
    ensures tag.id in r.tagIds
    ensures forall x :: x in r.tagIds <==> x in post.tagIds || x == tag.id
    ensures NoDup(post.tagIds) ==> NoDup(r.tagIds)
  {
    if tag.id in post.tagIds then post else post.(tagIds := post.tagIds + [tag.id])
  }

  /** `removeTag`: drop every occurrence of the id. */
  function RemoveTag(post: Content, id: string): (r: Content)
    ensures r == post.(tagIds := r.tagIds)
    ensures id !in r.tagIds
    ensures forall x :: x != id ==> (x in r.tagIds <==> x in post.tagIds)
  {
    post.(tagIds := Filter(post.tagIds, (x: string) => x != id))
  }

  /** Removing a tag just selected restores the post. */
  lemma RemoveUndoesSelect(post: Content, tag: Term)
    requires tag.id !in post.tagIds
    ensures RemoveTag(SelectTag(post, tag), tag.id) == post
  {
    var p := (x: string) => x != tag.id;
    FilterAppend(post.tagIds, [tag.id], p);
    FilterLength(post.tagIds, p);
    assert Filter([tag.id], p) == Filter([tag.id][1..], p);
  }

  // --- categories ---

  /** `toggleCategory`: remove the id when present, append it otherwise. */
  function ToggleCategory(post: Content, catId: string): (r: Content)
    ensures r == post.(categoryIds := r.categoryIds)
    ensures catId in r.categoryIds <==> catId !in post.categoryIds
    ensures forall x :: x != catId ==> (x in r.categoryIds <==> x in post.categoryIds)
  {
    if catId in post.categoryIds then post.(categoryIds := Filter(post.categoryIds, (x: string) => x != catId))
    else post.(categoryIds := post.categoryIds + [catId])
  }

  /** Toggling an unassigned category twice restores the post. */
  lemma ToggleCategoryTwice(post: Content, catId: string)
    requires catId !in post.categoryIds
    ensures ToggleCategory(ToggleCategory(post, catId), catId) == post
  {
    var p := (x: string) => x != catId;
    FilterAppend(post.categoryIds, [catId], p);
    FilterLength(post.categoryIds, p);
    assert Filter([catId], p) == Filter([catId][1..], p);
  }

  /** `addNewCategory`: a non-blank trimmed name becomes a category
      `cat_<time>` with its term slug, stored and assigned to the post. */
  function AddNewCategory(e: EditorState, input: string, now: nat): (r: EditorState)
    ensures AllSpace(input) ==> r == e
    ensures !AllSpace(input) ==>
              var t := Term("cat_" + NatToString(now), Category, Trim(input), TermSlug(Trim(input)), None);
              && r.store.data.terms == e.store.data.terms + [t]
              && r.store.data == e.store.data.(terms := r.store.data.terms)
              && r.post == e.post.(categoryIds := e.post.categoryIds + [t.id])
  {
    var name := Trim(input);
    TrimEmptyIff(input);
    if name == "" then e
    else
      var t := Term("cat_" + NatToString(now), Category, name, TermSlug(name), None);
      EditorState(Dispatch(e.store, AddTermAction(t)), e.post.(categoryIds := e.post.categoryIds + [t.id]))
  }

  /** A new category shows up under its trimmed name among the post's category
      names, provided no stored category already has the generated id. */
  lemma AddedCategoryIsNamed(e: EditorState, input: string, now: nat)
    requires !AllSpace(input)
    requires forall i :: 0 <= i < |e.store.data.terms| ==>
               !(e.store.data.terms[i].kind == Category && e.store.data.terms[i].id == "cat_" + NatToString(now))
    ensures var r := AddNewCategory(e, input, now);
            && CategoryName(r.store.data.terms, "cat_" + NatToString(now)) == Some(Trim(input))
            && Trim(input) in CategoryNames(r.post.categoryIds, r.store.data.terms)
  {
    var r := AddNewCategory(e, input, now);
    var t := Term("cat_" + NatToString(now), Category, Trim(input), TermSlug(Trim(input)), None);
    TrimEmptyIff(input);
    AppendedCategoryName(e.store.data.terms, t);
    var ids := r.post.categoryIds;
    assert ids[|e.post.categoryIds|] == t.id;
  }

  lemma AppendedCategoryName(terms: seq<Term>, t: Term)
    requires t.kind == Category
    requires forall i :: 0 <= i < |terms| ==> !(terms[i].kind == Category && terms[i].id == t.id)
    ensures CategoryName(terms + [t], t.id) == Some(t.name)
  {
    var ts := terms + [t];
    assert ts[|terms|] == t;
    assert forall i :: 0 <= i < |terms| ==> ts[i] == terms[i];
  }

  /** The name of the category with this id, if there is one. */
  function CategoryName(terms: seq<Term>, id: string): (r: Option<string>)
    ensures r.Some? <==> exists i :: 0 <= i < |terms| && terms[i].kind == Category && terms[i].id == id
    ensures r.Some? ==> exists i :: 0 <= i < |terms| && terms[i].kind == Category && terms[i].id == id
                                    && terms[i].name == r.value
                                    && forall j :: 0 <= j < i ==> !(terms[j].kind == Category && terms[j].id == id)
  {
    var p := (t: Term) => t.kind == Category && t.id == id;
    var i := FindIndex(terms, p);
    FindIndexAbsent(terms, p);
    if i < |terms| then Some(terms[i].name) else None
  }

  /** `name` is the non-empty name of one of the categories listed in `ids`. */
  predicate NamesListedCategory(ids: seq<string>, terms: seq<Term>, name: string) {
    name != "" && exists j :: 0 <= j < |ids| && CategoryName(terms, ids[j]) == Some(name)
  }

  /** The non-empty names of the post's categories, in the post's order;
      unknown ids and empty names are dropped (`.filter(n => n)`). */
  function CategoryNames(ids: seq<string>, terms: seq<Term>): (r: seq<string>)
    ensures |r| <= |ids|
    ensures forall k :: 0 <= k < |r| ==> NamesListedCategory(ids, terms, r[k])
    ensures forall j :: 0 <= j < |ids| && CategoryName(terms, ids[j]).Some? && CategoryName(terms, ids[j]).value != "" ==>
              CategoryName(terms, ids[j]).value in r
    decreases |ids|
  {
    if |ids| == 0 then []
    else
      var rest := CategoryNames(ids[1..], terms);
      var n := CategoryName(terms, ids[0]);
      var r := if n.Some? && n.value != "" then [n.value] + rest else rest;
      CategoryNamesStep(ids, terms, rest, r);
      r
  }

  lemma CategoryNamesStep(ids: seq<string>, terms: seq<Term>, rest: seq<string>, r: seq<string>)
    requires |ids| > 0
    requires forall k :: 0 <= k < |rest| ==> NamesListedCategory(ids[1..], terms, rest[k])
    requires forall j :: 0 <= j < |ids[1..]| && CategoryName(terms, ids[1..][j]).Some? && CategoryName(terms, ids[1..][j]).value != "" ==>
               CategoryName(terms, ids[1..][j]).value in rest
    requires var n := CategoryName(terms, ids[0]); r == if n.Some? && n.value != "" then [n.value] + rest else rest
    ensures forall k :: 0 <= k < |r| ==> NamesListedCategory(ids, terms, r[k])
    ensures forall j :: 0 <= j < |ids| && CategoryName(terms, ids[j]).Some? && CategoryName(terms, ids[j]).value != "" ==>
              CategoryName(terms, ids[j]).value in r
  {
    var n := CategoryName(terms, ids[0]);
    var tail := ids[1..];
    var added := n.Some? && n.value != "";
    forall k | 0 <= k < |r| ensures NamesListedCategory(ids, terms, r[k]) {
      if added && k == 0 {
        assert CategoryName(terms, ids[0]) == Some(r[k]);
      } else {
        var k' := if added then k - 1 else k;
        assert r[k] == rest[k'];
        assert NamesListedCategory(tail, terms, rest[k']);
        var j :| 0 <= j < |tail| && CategoryName(terms, tail[j]) == Some(rest[k']);
        assert tail[j] == ids[j + 1];
      }
    }
    forall j | 0 <= j < |ids| && CategoryName(terms, ids[j]).Some? && CategoryName(terms, ids[j]).value != ""
      ensures CategoryName(terms, ids[j]).value in r
    {
      if j > 0 {
        assert ids[j] == tail[j - 1];
        assert CategoryName(terms, tail[j - 1]).value in rest;
      }
    }
  }

  predicate NonEmptyName(n: string) { n != "" }

  /** `categoryIds.map(id => categories().find(c => c.id === id)?.name)`, with an
      unknown id giving the falsy "" that `.filter(n => n)` drops. */
  function LookedUpNames(ids: seq<string>, terms: seq<Term>): (r: seq<string>)
    ensures |r| == |ids| && forall j :: 0 <= j < |ids| ==> r[j] == CategoryName(terms, ids[j]).GetOr("")
  {
    seq(|ids|, j requires 0 <= j < |ids| => CategoryName(terms, ids[j]).GetOr(""))
  }

  /** The category names are the post's ids looked up in order with the empty
      names filtered out: so they keep the post's order and multiplicity. */
  lemma {:induction false} CategoryNamesIsMapFilter(ids: seq<string>, terms: seq<Term>)
    ensures CategoryNames(ids, terms) == Filter(LookedUpNames(ids, terms), NonEmptyName)
    decreases |ids|
  {
    if |ids| > 0 {
      CategoryNamesIsMapFilter(ids[1..], terms);
      var all := LookedUpNames(ids, terms);
      assert all[1..] == LookedUpNames(ids[1..], terms);
    }
  }

  lemma JoinNonEmpty(parts: seq<string>, sep: string)
    ensures |parts| > 0 && parts[0] != "" ==> Join(parts, sep) != ""
  {
    if |parts| > 1 {
      assert Join(parts, sep) == parts[0] + sep + Join(parts[1..], sep);
      assert |Join(parts, sep)| >= |parts[0]|;
    }
  }

  /** `getCategoryNames(post)`: the resolved names joined by ", ", or
      "Uncategorized" when none resolves to a non-empty name. */
  function GetCategoryNames(post: Content, terms: seq<Term>): (r: string)
    ensures CategoryNames(post.categoryIds, terms) == [] <==> r == "Uncategorized" && Join(CategoryNames(post.categoryIds, terms), ", ") == ""
    ensures CategoryNames(post.categoryIds, terms) != [] ==> r == Join(CategoryNames(post.categoryIds, terms), ", ")
    ensures |post.categoryIds| == 0 ==> r == "Uncategorized"
  {
    var names := CategoryNames(post.categoryIds, terms);
    var joined := Join(names, ", ");
    JoinNonEmpty(names, ", ");
    if joined == "" then "Uncategorized" else joined
  }

  // --- saving ---

  /** `savePost`: a post without a title is not saved. Otherwise its slug (or
      "untitled") is made unique among the other posts and the post is saved. */
  function SavePost(e: EditorState, now: string): (r: EditorState)
    ensures e.post.title == "" ==> r == e
    ensures e.post.title != "" ==>
              && r.post == e.post.(slug := r.post.slug)
              && r.post.slug == UniqueSlug(e.store.data.contents, if e.post.slug == "" then "untitled" else e.post.slug,
                                           Post, Some(e.post.id))
              && r.store.data.contents == UpsertContent(e.store.data.contents, r.post, now)
  {
    if e.post.title == "" then e
    else
      var slug := UniqueSlug(e.store.data.contents, if e.post.slug == "" then "untitled" else e.post.slug,
                             Post, Some(e.post.id));
      var p := e.post.(slug := slug);
      EditorState(Dispatch(e.store, SaveContent(p, now)), p)
  }

  /** After saving, no other post carries the saved post's slug, and the saved
      post is what its id finds in the store. */
  lemma SavedSlugIsUnique(e: EditorState, now: string)
    requires e.post.title != ""
    ensures var r := SavePost(e, now);
            var cs := r.store.data.contents;
            && (forall j :: 0 <= j < |cs| && cs[j].kind == Post && cs[j].id != e.post.id ==> cs[j].slug != r.post.slug)
            && Find(cs, ContentId, e.post.id).Some?
            && Find(cs, ContentId, e.post.id).value.slug == r.post.slug
  {
    var r := SavePost(e, now);
    UpsertFreeSlug(e.store.data.contents, r.post, now);
  }

  /** Upserting a post whose slug no other post holds leaves that slug unique,
      and the post is what its id finds. */
  lemma UpsertFreeSlug(items: seq<Content>, p: Content, now: string)
    requires !Taken(items, Post, Some(p.id), p.slug)
    ensures var cs := UpsertContent(items, p, now);
            && (forall j :: 0 <= j < |cs| && cs[j].kind == Post && cs[j].id != p.id ==> cs[j].slug != p.slug)
            && Find(cs, ContentId, p.id).Some?
            && Find(cs, ContentId, p.id).value.slug == p.slug
  {
    var cs := UpsertContent(items, p, now);
    FindAfterUpsertContent(items, p, now, p.id);
    IndexOfFound(items, ContentId, p.id);
    forall j | 0 <= j < |cs| && cs[j].kind == Post && cs[j].id != p.id ensures cs[j].slug != p.slug {
      assert j < |items| && cs[j] == items[j];
      assert !Collides(items[j], Post, Some(p.id), p.slug);
    }
  }

  /** `updateSlugIfNew`: a post not yet stored gets the slug its title normalises to. */
  function UpdateSlugIfNew(e: EditorState): (r: Content)
    ensures r == e.post.(slug := r.slug)
    ensures (exists i :: 0 <= i < |e.store.data.contents| && e.store.data.contents[i].kind == Post
                         && e.store.data.contents[i].id == e.post.id) ==> r == e.post
    ensures !(exists i :: 0 <= i < |e.store.data.contents| && e.store.data.contents[i].kind == Post
                          && e.store.data.contents[i].id == e.post.id) ==>
              && (forall i :: 0 <= i < |r.slug| ==> IsSlugChar(r.slug[i])) && NoDoubleHyphen(r.slug)
              && Filter(r.slug, IsWordChar) == Filter(Lower(e.post.title), IsWordChar)
              && r.slug == Normalize(e.post.title)
  {
    var p := (c: Content) => c.kind == Post && c.id == e.post.id;
    FindIndexAbsent(e.store.data.contents, p);
    if FindIndex(e.store.data.contents, p) == |e.store.data.contents| then
      NormalizeShape(e.post.title);
      NormalizeKeepsWordChars(e.post.title);
      e.post.(slug := Normalize(e.post.title))
    else e.post
  }

  // --- formatting ---

  /** Toolbar formats; any other string is `Plain`. */
  datatype Format = Bold | Italic | H2 | H3 | List | Quote | LinkFormat | Plain

  function ParseFormat(name: string): Format {
    if name == "bold" then Bold
    else if name == "italic" then Italic
    else if name == "h2" then H2
    else if name == "h3" then H3
    else if name == "ul" then List
    else if name == "quote" then Quote
    else if name == "link" then LinkFormat
    else Plain
  }

  /** Opening markup, placeholder and closing markup of a format. */
  function Markup(f: Format): (string, string, string) {
    match f
    case Bold => ("<strong>", "bold text", "</strong>")
    case Italic => ("<em>", "italic text", "</em>")
    case H2 => ("<h2>", "Heading 2", "</h2>\n")
    case H3 => ("<h3>", "Heading 3", "</h3>\n")
    case List => ("<ul>\n  <li>", "List item", "</li>\n</ul>")
    case Quote => ("<blockquote>", "Quote", "</blockquote>")
    case LinkFormat => ("<a href=\"#\">", "Link text", "</a>")
    case Plain => ("", "", "")
  }

  /** The text that replaces the selection. */
  function Replacement(f: Format, selected: string): (r: string)
    ensures f == Plain ==> r == selected
    ensures f != Plain ==> r == Markup(f).0 + (if selected == "" then Markup(f).1 else selected) + Markup(f).2
  {
    if f == Plain then selected
    else Markup(f).0 + (if selected == "" then Markup(f).1 else selected) + Markup(f).2
  }

  /** `insertFormatting(type)` on a textarea whose selection is `[start, end)`:
      the text before and after the selection are kept, the selection is
      replaced by the formatted text. */
  function InsertFormatting(text: string, start: nat, end: nat, name: string): (r: string)
    requires start <= end <= |text|
    ensures var rep := Replacement(ParseFormat(name), text[start..end]);
            && |r| == |text| - (end - start) + |rep|
            && r[..start] == text[..start]
            && r[start..start + |rep|] == rep
            && r[start + |rep|..] == text[end..]
  {
    var rep := Replacement(ParseFormat(name), text[start..end]);
    var r := text[..start] + rep + text[end..];
    assert r[..start] == text[..start];
    assert r[start..start + |rep|] == rep;
    assert r[start + |rep|..] == text[end..];
    r
  }

  /** An unknown format leaves the text exactly as it was. */
  lemma PlainIsIdentity(text: string, start: nat, end: nat, name: string)
    requires start <= end <= |text|
    requires ParseFormat(name) == Plain
    ensures InsertFormatting(text, start, end, name) == text
  {
    assert text == text[..start] + text[start..end] + text[end..];
  }

  /** A non-empty selection is wrapped in the format's markup. */
  lemma ReplacementOfSelection(f: Format, sel: string)
    requires sel != ""
    ensures Replacement(f, sel) == Markup(f).0 + sel + Markup(f).2
  {
  }

  /** In `a + (b + c + d) + e`, the prefix of length `|a|` is `a` and `c`
      starts right after `b`. */
  lemma SliceOfWrapped<T>(a: seq<T>, b: seq<T>, c: seq<T>, d: seq<T>, e: seq<T>)
    ensures var s := a + (b + c + d) + e;
            |a| + |b| + |c| <= |s| && s[..|a|] == a && s[|a| + |b|..|a| + |b| + |c|] == c
  {
    var s := a + (b + c + d) + e;
    assert forall i :: 0 <= i < |a| ==> s[i] == a[i];
    assert forall i :: 0 <= i < |c| ==> s[|a| + |b| + i] == c[i];
    assert s[..|a|] == a;
    assert s[|a| + |b|..|a| + |b| + |c|] == c;
  }

  /** The formatted selection sits right after the opening markup, so the
      original selection can be read back from the result. */
  lemma SelectionRecoverable(text: string, start: nat, end: nat, name: string)
    requires start <= end <= |text| && start < end
    ensures var m := Markup(ParseFormat(name)).0;
            var r := InsertFormatting(text, start, end, name);
            start + |m| + (end - start) <= |r|
            && r[start + |m|..start + |m| + (end - start)] == text[start..end]
            && r[..start] == text[..start]
  {
    var f := ParseFormat(name);
    var sel := text[start..end];
    ReplacementOfSelection(f, sel);
    SliceOfWrapped(text[..start], Markup(f).0, sel, Markup(f).2, text[end..]);
  }
}

=== FILE: csv.dfy ===
/** Quoted CSV fields as section 2 of RFC 4180 describes them: a field wrapped
    in double quotes, with every double quote inside it doubled (rule 7). */
module Csv {
  import opened Wrappers
  import opened Strings

  /** Number of double quotes in `s`. */
  function QuoteCount(s: string): nat
    decreases |s|
  {
    if |s| == 0 then 0 else (if s[0] == '"' then 1 else 0) + QuoteCount(s[1..])
  }

  lemma {:induction false} QuoteCountZero(s: string)
    ensures QuoteCount(s) == 0 <==> !Contains(s, '"')
    decreases |s|
  {
    if |s| > 0 {
      QuoteCountZero(s[1..]);
      ContainsCons(s, '"');
    }
  }

  /** `s.replace(/"/g, '""')`: every double quote doubled. */
  function EscapeQuotes(s: string): (r: string)
    ensures |r| == |s| + QuoteCount(s)
    ensures forall c :: c != '"' ==> (Contains(r, c) <==> Contains(s, c))
    decreases |s|
  {
    if |s| == 0 then ""
    else
      var head := if s[0] == '"' then "\"\"" else [s[0]];
      var rest := EscapeQuotes(s[1..]);
      var r := head + rest;
      forall c | c != '"' ensures Contains(r, c) <==> Contains(s, c) {
        ContainsAppend(head, rest, c);
        ContainsCons(s, c);
        if s[0] == '"' {
          assert forall i :: 0 <= i < |head| ==> head[i] == '"';
        } else {
          assert |head| == 1 && head[0] == s[0];
        }
      }
      r
  }

  /** Reading an escaped field body back: `""` stands for one quote, and a
      lone quote is malformed. */
  function Unescape(s: string): (r: Option<string>)
    decreases |s|
  {
    if |s| == 0 then Some("")
    else if s[0] == '"' then
      if |s| >= 2 && s[1] == '"' then
        match Unescape(s[2..])
        case None => None
        case Some(t) => Some("\"" + t)
      else None
    else
      match Unescape(s[1..])
      case None => None
      case Some(t) => Some([s[0]] + t)
  }

  /** Unescaping undoes escaping. */
  lemma {:induction false} UnescapeEscape(m: string)
    ensures Unescape(EscapeQuotes(m)) == Some(m)
    decreases |m|
  {
    if |m| > 0 {
      var rest := EscapeQuotes(m[1..]);
      UnescapeEscape(m[1..]);
      if m[0] == '"' {
        var e := "\"\"" + rest;
        assert EscapeQuotes(m) == e;
        assert e[2..] == rest;
      } else {
        var e := [m[0]] + rest;
        assert EscapeQuotes(m) == e;
        assert e[1..] == rest;
      }
      assert m == [m[0]] + m[1..];
    }
  }

  /** Escaping undoes unescaping: a well-formed field body has exactly one reading. */
  lemma {:induction false} EscapeUnescape(t: string, m: string)
    ensures Unescape(t) == Some(m) ==> EscapeQuotes(m) == t
    decreases |t|
  {
    if |t| > 0 && Unescape(t) == Some(m) {
      if t[0] == '"' {
        var u := Unescape(t[2..]).value;
        EscapeUnescape(t[2..], u);
        assert m == "\"" + u;
        assert m[1..] == u;
        assert t == "\"\"" + t[2..];
      } else {
        var u := Unescape(t[1..]).value;
        EscapeUnescape(t[1..], u);
        assert m == [t[0]] + u;
        assert m[1..] == u;
        assert t == [t[0]] + t[1..];
      }
    }
  }

  /** Escaping changes a text exactly when it holds a double quote. */
  lemma EscapeFixedIff(s: string)
    ensures EscapeQuotes(s) == s <==> !Contains(s, '"')
  {
    QuoteCountZero(s);
    if !Contains(s, '"') {
      UnescapeEscape(s);
      NoQuoteUnescapes(s);
    }
  }

  /** A text without quotes reads back as itself. */
  lemma {:induction false} NoQuoteUnescapes(s: string)
    requires !Contains(s, '"')
    ensures Unescape(s) == Some(s)
    decreases |s|
  {
    if |s| > 0 {
      assert s[0] != '"';
      ContainsCons(s, '"');
      NoQuoteUnescapes(s[1..]);
      assert s == [s[0]] + s[1..];
    }
  }

  /** `"${s}"` */
  function Quote(s: string): (r: string)
    ensures |r| == |s| + 2 && r[0] == '"' && r[|r| - 1] == '"' && r[1..|r| - 1] == s
  {
    "\"" + s + "\""
  }

  /** Reading a quoted field: strip the surrounding quotes and unescape. */
  function Unquote(f: string): (r: Option<string>)
    ensures r.Some? ==> |f| >= 2 && f[0] == '"' && f[|f| - 1] == '"'
  {
    if |f| >= 2 && f[0] == '"' && f[|f| - 1] == '"' then Unescape(f[1..|f| - 1]) else None
  }

  /** A field written with quote-doubling reads back as the original text. */
  lemma EscapedFieldRoundTrip(m: string)
    ensures Unquote(Quote(EscapeQuotes(m))) == Some(m)
  {
    UnescapeEscape(m);
  }

  /** A field wrapped in quotes WITHOUT escaping reads back as the original
      text exactly when the text holds no double quote. */
  lemma WrappedFieldRoundTripIff(s: string)
    ensures Unquote(Quote(s)) == Some(s) <==> !Contains(s, '"')
  {
    EscapeFixedIff(s);
    EscapeUnescape(s, s);
    if !Contains(s, '"') {
      NoQuoteUnescapes(s);
    }
  }
}

=== FILE: json.dfy ===
/** JSON values as the server and the section editor handle them, with the two
    JavaScript notions the code branches on: strict equality (`===`) and truthiness. */
module Json {
  import opened Wrappers

  /** A parsed JSON value. Numbers are integers: fractional numbers are not modelled. */
  datatype Value = Null | Bool(b: bool) | Num(n: int) | Str(s: string) | Arr(items: seq<Value>) | Obj(fields: Object)

  type Object = map<string, Value>

  /** Property access `o.k`; `None` is `undefined`. */
  function Get(o: Object, k: string): (r: Option<Value>)
    ensures r.Some? <==> k in o
    ensures r.Some? ==> r.value == o[k]
  {
    if k in o then Some(o[k]) else None
  }

  /** Object spread `{...a, ...b}`: every key of either, the right operand winning. */
  function Spread(a: Object, b: Object): (r: Object)
    ensures r.Keys == a.Keys + b.Keys
    ensures forall k :: k in b ==> r[k] == b[k]
    ensures forall k :: k in a && k !in b ==> r[k] == a[k]
  {
    a + b
  }

  /** `a === b` on two property reads. Two values that came out of separate
      `JSON.parse` calls are never the same object or array, so only primitives
      (and two `undefined`s) can be strictly equal. */
  predicate StrictEquals(a: Option<Value>, b: Option<Value>) {
    if a.None? || b.None? then a.None? && b.None?
    else
      match (a.value, b.value)
      case (Null, Null) => true
      case (Bool(p), Bool(q)) => p == q
      case (Num(m), Num(n)) => m == n
      case (Str(s), Str(t)) => s == t
      case _ => false
  }

  /** JavaScript truthiness of a property read (`if (x)`, `x || d`). */
  predicate Truthy(v: Option<Value>) {
    match v
    case None => false
    case Some(Null) => false
    case Some(Bool(b)) => b
    case Some(Num(n)) => n != 0
    case Some(Str(s)) => s != ""
    case Some(_) => true
  }
}

=== FILE: keyed.dfy ===
/** Sequences of records identified by a string id, as the store keeps its
    contents, leads and terms: lookup, replace-or-insert and remove by id. */
module Keyed {
  import opened Wrappers

  /** Position of the first record with this id, or `|s|` when there is none
      (`findIndex(x => x.id === id)`). */
  function IndexOf<T>(s: seq<T>, key: T -> string, id: string): (i: nat)
    ensures i <= |s|
    ensures i < |s| ==> key(s[i]) == id
    ensures forall j :: 0 <= j < i ==> key(s[j]) != id
    decreases |s|
  {
    if |s| == 0 then 0 else if key(s[0]) == id then 0 else 1 + IndexOf(s[1..], key, id)
  }

  predicate HasId<T>(s: seq<T>, key: T -> string, id: string) {
    exists j :: 0 <= j < |s| && key(s[j]) == id
  }

  lemma IndexOfFound<T>(s: seq<T>, key: T -> string, id: string)
    ensures IndexOf(s, key, id) < |s| <==> HasId(s, key, id)
  {
  }

  /** The first record with this id (`find(x => x.id === id)`). */
  function Find<T>(s: seq<T>, key: T -> string, id: string): (r: Option<T>)
    ensures r.Some? <==> HasId(s, key, id)
    ensures r.Some? ==> key(r.value) == id && r.value in s
  {
    var i := IndexOf(s, key, id);
    if i < |s| then Some(s[i]) else None
  }

  /** `filter(x => x.id !== id)` */
  function RemoveId<T>(s: seq<T>, key: T -> string, id: string): (r: seq<T>)
    ensures |r| <= |s|
    ensures forall j :: 0 <= j < |r| ==> key(r[j]) != id && r[j] in s
    ensures forall j :: 0 <= j < |s| && key(s[j]) != id ==> s[j] in r
    ensures !HasId(s, key, id) ==> r == s
    ensures HasId(s, key, id) ==> |r| < |s|
    decreases |s|
  {
    if |s| == 0 then []
    else if key(s[0]) == id then RemoveId(s[1..], key, id)
    else [s[0]] + RemoveId(s[1..], key, id)
  }

  /** Looking up in a non-empty list: the head when it has the id, else the tail. */
  lemma FindCons<T>(s: seq<T>, key: T -> string, x: string)
    requires |s| > 0
    ensures Find(s, key, x) == if key(s[0]) == x then Some(s[0]) else Find(s[1..], key, x)
  {
    if key(s[0]) != x {
      var i := IndexOf(s[1..], key, x);
      assert IndexOf(s, key, x) == 1 + i;
      if i < |s| - 1 {
        assert s[1 + i] == s[1..][i];
      }
    }
  }

  /** Removing one id leaves every other id's lookup as it was. */
  lemma {:induction false} FindAfterRemove<T>(s: seq<T>, key: T -> string, id: string, other: string)
    ensures Find(RemoveId(s, key, id), key, id) == None
    ensures other != id ==> Find(RemoveId(s, key, id), key, other) == Find(s, key, other)
    decreases |s|
  {
    if |s| > 0 {
      var rs := RemoveId(s[1..], key, id);
      FindAfterRemove(s[1..], key, id, other);
      FindCons(s, key, other);
      if key(s[0]) != id {
        var r := [s[0]] + rs;
        assert RemoveId(s, key, id) == r;
        assert r[1..] == rs;
        FindCons(r, key, id);
        FindCons(r, key, other);
      } else {
        assert RemoveId(s, key, id) == rs;
      }
    }
  }

  /** Overwriting the first record with an id by a record with the same id makes
      lookups of that id return the new record and leaves all other lookups alone. */
  lemma FindAfterReplace<T>(s: seq<T>, key: T -> string, x: T, other: string)
    requires IndexOf(s, key, key(x)) < |s|
    ensures Find(s[IndexOf(s, key, key(x)) := x], key, key(x)) == Some(x)
    ensures other != key(x) ==> Find(s[IndexOf(s, key, key(x)) := x], key, other) == Find(s, key, other)
  {
    var i := IndexOf(s, key, key(x));
    var r := s[i := x];
    IndexOfIsFirst(r, key, key(x), i);
    if other != key(x) {
      var k := IndexOf(s, key, other);
      if k < |s| {
        assert k != i;
        IndexOfIsFirst(r, key, other, k);
      }
    }
  }

  lemma IndexOfIsFirst<T>(s: seq<T>, key: T -> string, id: string, k: nat)
    requires k < |s| && key(s[k]) == id
    requires forall j :: 0 <= j < k ==> key(s[j]) != id
    ensures IndexOf(s, key, id) == k
  {
  }

  /** After appending, a lookup finds the old record if there was one, else the new one. */
  lemma FindAfterAppend<T>(s: seq<T>, key: T -> string, x: T, other: string)
    ensures Find(s + [x], key, other) == (if HasId(s, key, other) then Find(s, key, other)
                                          else if key(x) == other then Some(x) else None)
  {
    var r := s + [x];
    var k := IndexOf(s, key, other);
    if k < |s| {
      IndexOfIsFirst(r, key, other, k);
    } else if key(x) == other {
      IndexOfIsFirst(r, key, other, |s|);
    }
  }

  /** After prepending, the new record shadows any older one with its id. */
  lemma FindAfterPrepend<T>(s: seq<T>, key: T -> string, x: T, other: string)
    ensures Find([x] + s, key, other) == (if key(x) == other then Some(x) else Find(s, key, other))
  {
    var r := [x] + s;
    if key(x) != other {
      assert r[1..] == s;
    }
  }

  /** Removing an id distributes over concatenation. */
  lemma {:induction false} RemoveIdAppend<T>(s: seq<T>, t: seq<T>, key: T -> string, id: string)
    ensures RemoveId(s + t, key, id) == RemoveId(s, key, id) + RemoveId(t, key, id)
    decreases |s|
  {
    if |s| > 0 {
      assert (s + t)[1..] == s[1..] + t;
      RemoveIdAppend(s[1..], t, key, id);
    } else {
      assert s + t == t;
    }
  }

  /** Removing the id of a record just appended under a fresh id restores the sequence. */
  lemma RemoveFreshAppend<T>(s: seq<T>, key: T -> string, x: T)
    requires !HasId(s, key, key(x))
    ensures RemoveId(s + [x], key, key(x)) == s
  {
    RemoveIdAppend(s, [x], key, key(x));
    assert RemoveId([x], key, key(x)) == RemoveId([x][1..], key, key(x));
  }

  /** `map(x => x.id === id ? f(x) : x)`: apply `f` to every record with this id. */
  function MapWhere<T>(s: seq<T>, key: T -> string, id: string, f: T -> T): (r: seq<T>)
    ensures |r| == |s|
    ensures forall j :: 0 <= j < |s| ==> r[j] == (if key(s[j]) == id then f(s[j]) else s[j])
  {
    seq(|s|, j requires 0 <= j < |s| => if key(s[j]) == id then f(s[j]) else s[j])
  }

  /** Two updates of the same id compose; an id that is absent leaves the sequence alone. */
  lemma MapWhereCompose<T>(s: seq<T>, key: T -> string, id: string, f: T -> T, g: T -> T)
    requires forall x :: key(f(x)) == key(x)
    ensures MapWhere(MapWhere(s, key, id, f), key, id, g) == MapWhere(s, key, id, x => g(f(x)))
  {
  }

  lemma MapWhereAbsent<T>(s: seq<T>, key: T -> string, id: string, f: T -> T)
    requires !HasId(s, key, id)
    ensures MapWhere(s, key, id, f) == s
  {
  }

  /** An update that is the identity on the matching records changes nothing. */
  lemma MapWhereIdentity<T>(s: seq<T>, key: T -> string, id: string, f: T -> T)
    requires forall j :: 0 <= j < |s| && key(s[j]) == id ==> f(s[j]) == s[j]
    ensures MapWhere(s, key, id, f) == s
  {
  }

  /** Lookups see through a key-preserving update: the first match is the
      updated first match, and other ids are unaffected. */
  lemma FindAfterMapWhere<T>(s: seq<T>, key: T -> string, id: string, f: T -> T, other: string)
    requires forall x :: key(f(x)) == key(x)
    ensures var r := MapWhere(s, key, id, f);
            && IndexOf(r, key, other) == IndexOf(s, key, other)
            && Find(r, key, other) == (if other == id && HasId(s, key, id) then Some(f(Find(s, key, id).value))
                                       else Find(s, key, other))
  {
    var r := MapWhere(s, key, id, f);
    var k := IndexOf(s, key, other);
    if k < |s| {
      IndexOfIsFirst(r, key, other, k);
    } else {
      assert !HasId(r, key, other) by {
        forall j | 0 <= j < |r| ensures key(r[j]) != other { assert key(r[j]) == key(s[j]); }
      }
      IndexOfFound(r, key, other);
    }
  }
}

=== FILE: leads.dfy ===
/** The back-office lead screen (src/components/leads/leads.component.ts): the
    lead form's validation and id assignment, the CSV export text and the
    status badge classes. */
module Leads {
  import opened Wrappers
  import opened Strings
  import opened Keyed
  import opened Model
  import opened Store
  import opened Actions
  import opened Csv

  /** The form state: the store, the lead being edited and whether the modal is open. */
  datatype LeadForm = LeadForm(store: Store, editing: Lead, modalOpen: bool)

  /** `getEmptyLead()`; `now` is the ISO timestamp of the clock. */
  function EmptyLead(now: string): (r: Lead)
    ensures r.id == "" && r.name == "" && r.email == ""
    ensures r.status == New && r.source == "manual" && r.createdAt == now
  {
    Lead("", "", "", Some(""), Some(""), Some(""), New, "manual", now, None)
  }

  /** The id `saveLead` gives a lead that has none; `now` is `Date.now()`. */
  function GeneratedLeadId(now: nat): (r: string)
    ensures |r| > 5 && r[..5] == "lead_" && ParseNat(r[5..]) == now
  {
    var r := "lead_" + NatToString(now);
    assert r[5..] == NatToString(now);
    ParseNatToString(now);
    r
  }

  /** `saveLead()`: a lead without a name or an email is refused and nothing
      changes; otherwise it gets an id if it has none, is saved through the
      store and the modal closes. */
  function SaveLead(f: LeadForm, now: nat): (r: LeadForm)
    ensures (f.editing.name == "" || f.editing.email == "") ==> r == f
    ensures f.editing.name != "" && f.editing.email != "" ==>
              && !r.modalOpen
              && r.editing == f.editing.(id := r.editing.id)
              && r.editing.id != ""
              && (f.editing.id != "" ==> r.editing.id == f.editing.id)
              && (f.editing.id == "" ==> r.editing.id == GeneratedLeadId(now))
              && r.store.data == f.store.data.(leads := r.store.data.leads)
              && Find(r.store.data.leads, LeadId, r.editing.id) == Some(r.editing)
              && (forall other :: other != r.editing.id ==>
                    Find(r.store.data.leads, LeadId, other) == Find(f.store.data.leads, LeadId, other))
  {
    if f.editing.name == "" || f.editing.email == "" then f
    else
      var lead := if f.editing.id == "" then f.editing.(id := GeneratedLeadId(now)) else f.editing;
      forall other | other != lead.id
        ensures Find(UpsertLead(f.store.data.leads, lead), LeadId, other) == Find(f.store.data.leads, LeadId, other)
      {
        FindAfterUpsertLead(f.store.data.leads, lead, other);
      }
      FindAfterUpsertLead(f.store.data.leads, lead, lead.id);
      LeadForm(Dispatch(f.store, Action.SaveLead(lead)), lead, false)
  }

  /** A blank form is always refused. */
  lemma EmptyLeadIsRefused(f: LeadForm, now: nat, clock: string)
    requires f.editing == EmptyLead(clock)
    ensures f.editing.name == "" && f.editing.email == ""
    ensures SaveLead(f, now) == f
  {
  }

  /** A saved lead survives a reload of the active tenant. */
  lemma SavedLeadIsDurable(f: LeadForm, now: nat, year: nat)
    requires f.editing.name != "" && f.editing.email != ""
    ensures var r := SaveLead(f, now);
            && LoadTenantData(r.store, f.store.selectedTenantId, year) == Loaded(r.store)
            && Find(r.store.data.leads, LeadId, r.editing.id) == Some(r.editing)
  {
    var lead := if f.editing.id == "" then f.editing.(id := GeneratedLeadId(now)) else f.editing;
    DispatchIsDurable(f.store, Action.SaveLead(lead), year);
  }

  // --- CSV export ---

  function Headers(): seq<string> {
    ["ID", "Name", "Email", "Phone", "Company", "Status", "Source", "Date", "Message"]
  }

  function HeaderLine(): string {
    Join(Headers(), ",")
  }

  /** The nine cells of a lead's row, in header order. Name and company are
      wrapped in quotes as they are; only the message has its quotes doubled. */
  function Fields(l: Lead): (r: seq<string>)
    ensures |r| == |Headers()|
  {
    [l.id, Quote(l.name), l.email, l.phone.GetOr(""), Quote(l.company.GetOr("")),
     l.status.Name(), l.source, l.createdAt, Quote(EscapeQuotes(l.message.GetOr("")))]
  }

  function Row(l: Lead): string {
    Join(Fields(l), ",")
  }

  /** The lines of the export: the header, then one row per lead in store order. */
  function Lines(leads: seq<Lead>): (r: seq<string>)
    ensures |r| == |leads| + 1 && r[0] == HeaderLine()
    ensures forall k :: 0 <= k < |leads| ==> r[k + 1] == Row(leads[k])
  {
    var rows := Rows(leads);
    var h := HeaderLine();
    var r := [h] + rows;
    assert forall k :: 0 <= k < |leads| ==> r[k + 1] == rows[k];
    r
  }

  /** One row per lead, in store order. */
  function Rows(leads: seq<Lead>): (r: seq<string>)
    ensures |r| == |leads| && forall k :: 0 <= k < |leads| ==> r[k] == Row(leads[k])
  {
    seq(|leads|, k requires 0 <= k < |leads| => Row(leads[k]))
  }

  /** `exportCsv()`: nothing to export without leads; otherwise the lines joined
      by newlines: the header, a newline, then the rows joined by newlines. This
      holds whatever the fields contain, line breaks included. */
  function ExportCsv(leads: seq<Lead>): (r: Option<string>)
    ensures r.None? <==> |leads| == 0
    ensures r.Some? ==> r.value == Join(Lines(leads), "\n")
    ensures r.Some? ==> r.value == HeaderLine() + "\n" + Join(Rows(leads), "\n")
  {
    if |leads| == 0 then None
    else
      JoinCons(HeaderLine(), Rows(leads), "\n");
      Some(Join(Lines(leads), "\n"))
  }

  /** No text field of the lead holds a line break. */
  predicate SingleLine(l: Lead) {
    && !Contains(l.id, '\n') && !Contains(l.name, '\n') && !Contains(l.email, '\n')
    && !Contains(l.phone.GetOr(""), '\n') && !Contains(l.company.GetOr(""), '\n')
    && !Contains(l.source, '\n') && !Contains(l.createdAt, '\n')
    && !Contains(l.message.GetOr(""), '\n')
  }

  lemma StatusNameIsOneWord(st: LeadStatus)
    ensures forall i :: 0 <= i < |st.Name()| ==> 'a' <= st.Name()[i] <= 'z'
  {
  }

  lemma QuoteAvoids(s: string, c: char)
    requires c != '"' && !Contains(s, c)
    ensures !Contains(Quote(s), c)
  {
    ContainsAppend("\"", s, c);
    ContainsAppend("\"" + s, "\"", c);
  }

  lemma HeaderLineIsOneLine()
    ensures !Contains(HeaderLine(), '\n')
  {
    var hs := Headers();
    forall k | 0 <= k < |hs| ensures !Contains(hs[k], '\n') {
      assert forall i :: 0 <= i < |hs[k]| ==> 'A' <= hs[k][i] <= 'z';
    }
    JoinAvoids(hs, ",", '\n');
  }

  /** A lead without line breaks in its fields gives a one-line row. */
  lemma RowIsOneLine(l: Lead)
    requires SingleLine(l)
    ensures !Contains(Row(l), '\n')
  {
    var fs := Fields(l);
    StatusNameIsOneWord(l.status);
    QuoteAvoids(l.name, '\n');
    QuoteAvoids(l.company.GetOr(""), '\n');
    QuoteAvoids(EscapeQuotes(l.message.GetOr("")), '\n');
    JoinAvoids(fs, ",", '\n');
  }

  /** When no field holds a line break, the export splits back into exactly the
      header line and one row per lead, in store order. */
  lemma ExportLines(leads: seq<Lead>)
    requires |leads| > 0
    requires forall k :: 0 <= k < |leads| ==> SingleLine(leads[k])
    ensures var lines := Split(ExportCsv(leads).value, '\n');
            && |lines| == |leads| + 1
            && lines[0] == HeaderLine()
            && forall k :: 0 <= k < |leads| ==> lines[k + 1] == Row(leads[k])
  {
    var ls := Lines(leads);
    forall k | 0 <= k < |ls| ensures !Contains(ls[k], '\n') {
      if k == 0 {
        HeaderLineIsOneLine();
      } else {
        RowIsOneLine(leads[k - 1]);
      }
    }
    SplitJoin(ls, '\n');
  }

  /** The message cell reads back, under the quoting rules of RFC 4180, as the message. */
  lemma MessageCellReadsBack(l: Lead)
    ensures Unquote(Fields(l)[8]) == Some(l.message.GetOr(""))
  {
    EscapedFieldRoundTrip(l.message.GetOr(""));
  }

  /** The name and company cells read back as the original text exactly when
      it holds no double quote, because they are wrapped without escaping. */
  lemma NameAndCompanyCellsReadBackIff(l: Lead)
    ensures Unquote(Fields(l)[1]) == Some(l.name) <==> !Contains(l.name, '"')
    ensures Unquote(Fields(l)[4]) == Some(l.company.GetOr("")) <==> !Contains(l.company.GetOr(""), '"')
  {
    WrappedFieldRoundTripIff(l.name);
    WrappedFieldRoundTripIff(l.company.GetOr(""));
  }

  // --- status badges ---

  const BlueBadge: string := "bg-blue-100 text-blue-700 hover:bg-blue-200"
  const YellowBadge: string := "bg-yellow-100 text-yellow-700 hover:bg-yellow-200"
  const PurpleBadge: string := "bg-purple-100 text-purple-700 hover:bg-purple-200"
  const IndigoBadge: string := "bg-indigo-100 text-indigo-700 hover:bg-indigo-200"
  const GreenBadge: string := "bg-green-100 text-green-700 hover:bg-green-200"
  const RedBadge: string := "bg-red-100 text-red-700 hover:bg-red-200"
  const GreyBadgeClass: string := "bg-gray-100 text-gray-700"

  function GreyBadge(): string { GreyBadgeClass }

  /** `getStatusColor(status)` on the stored status string. */
  function StatusColor(status: string): (r: string)
    ensures r == GreyBadge() <==> forall st: LeadStatus :: st.Name() != status
  {
    StatusNames(status);
    if status == "new" then BlueBadge
    else if status == "contacted" then YellowBadge
    else if status == "qualified" then PurpleBadge
    else if status == "proposal" then IndigoBadge
    else if status == "won" then GreenBadge
    else if status == "lost" then RedBadge
    else GreyBadge()
  }

  /** The six stored status strings. */
  lemma StatusNames(status: string)
    ensures (forall st: LeadStatus :: st.Name() != status) <==>
              status !in ["new", "contacted", "qualified", "proposal", "won", "lost"]
  {
    if status == "new" { assert New.Name() == status; }
    if status == "contacted" { assert Contacted.Name() == status; }
    if status == "qualified" { assert Qualified.Name() == status; }
    if status == "proposal" { assert Proposal.Name() == status; }
    if status == "won" { assert Won.Name() == status; }
    if status == "lost" { assert Lost.Name() == status; }
  }

  /** Each of the six statuses has its own badge. */
  lemma StatusColorsDistinct(a: LeadStatus, b: LeadStatus)
    ensures a != b ==> StatusColor(a.Name()) != StatusColor(b.Name())
  {
  }
}

=== FILE: model.dfy ===
/** The typed entities of the tenant store (src/services/store.service.ts). */
module Model {
  import opened Wrappers
  import opened Json

  datatype ContentType = Post | Page
  datatype ContentStatus = Draft | Published | Scheduled
  datatype TaxonomyType = Category | Tag

  datatype Term = Term(id: string, kind: TaxonomyType, name: string, slug: string, parentId: Option<string>)

  /** A post or a page. Timestamps are ISO-8601 strings, as the source stores them. */
  datatype Content = Content(
    id: string,
    kind: ContentType,
    title: string,
    slug: string,
    excerpt: Option<string>,
    body: string,
    featuredImage: Option<string>,
    status: ContentStatus,
    publishedAt: Option<string>,
    authorId: string,
    authorName: string,
    categoryIds: seq<string>,
    tagIds: seq<string>,
    seoTitle: Option<string>,
    seoDescription: Option<string>,
    keywords: Option<string>,
    createdAt: string,
    updatedAt: string)

  datatype LeadStatus = New | Contacted | Qualified | Proposal | Won | Lost {
    /** The string the source stores for the status. */
    function Name(): string {
      match this
      case New => "new"
      case Contacted => "contacted"
      case Qualified => "qualified"
      case Proposal => "proposal"
      case Won => "won"
      case Lost => "lost"
    }
  }

  datatype Lead = Lead(
    id: string,
    name: string,
    email: string,
    phone: Option<string>,
    company: Option<string>,
    message: Option<string>,
    status: LeadStatus,
    source: string,
    createdAt: string,
    notes: Option<string>)

  /** A navigation link; `text` is the source's `label` (a reserved word here). */
  datatype SiteLink = SiteLink(text: string, url: string)
  datatype Header = Header(logoText: string, links: seq<SiteLink>)
  datatype Footer = Footer(copyright: string, links: seq<SiteLink>)
  datatype SiteConfig = SiteConfig(header: Header, footer: Footer, robotsTxt: string)

  datatype Plan = Starter | Pro | Enterprise
  datatype TenantStatus = Active | Inactive
  datatype Tenant = Tenant(id: string, name: string, domain: string, logoUrl: Option<string>,
                           plan: Option<Plan>, status: Option<TenantStatus>)

  datatype Role = SuperAdmin | Admin | Editor
  datatype User = User(name: string, email: string, role: Role, initials: string, avatarUrl: Option<string>)

  datatype BrandConfig = BrandConfig(primaryColor: string, secondaryColor: string, fontHeadings: string,
                                     fontBody: string, toneOfVoice: string,
                                     logoUrl: Option<string>, faviconUrl: Option<string>)

  datatype SectionType = Hero | Features | Cta | Testimonials | Faq | DeepDive | Stats

  /** A landing-page block; `content` is the free-form object the source types as `any`. */
  datatype Section = Section(id: string, kind: SectionType, title: string, content: Object, isEnabled: bool)

  datatype PageSeo = PageSeo(title: string, description: string, keywords: string, ogImage: Option<string>)
}

=== FILE: page_editor.dfy ===
/** The landing-page editor (src/components/page-editor/page-editor.component.ts):
    header and footer link edits, the SEO context built from the enabled
    sections, the SEO audit and auto-fix, and AI copy for one section field.
    The AI service is a parameter: whatever it answers is an arbitrary input. */
module PageEditor {
  import opened Wrappers
  import opened Strings
  import opened Json
  import opened Seqs
  import opened Keyed
  import opened Model
  import opened Store
  import opened Actions

  /** The editor's state besides the store: the open section, the busy flag,
      the field being generated and the last audit report. */
  datatype EditorView = EditorView(
    store: Store,
    activeSectionId: Option<string>,
    isGenerating: bool,
    generatingField: Option<string>,
    seoAnalysis: Option<Value>)

  // --- header and footer links ---

  /** Where `splice(index, 1)` starts: a negative index counts from the end
      and is clamped at 0. */
  function SpliceStart(len: nat, index: int): (r: nat)
    ensures 0 <= index ==> r == index
    ensures index < 0 ==> r <= len && (len + index >= 0 ==> r == len + index) && (len + index < 0 ==> r == 0)
  {
    if index >= 0 then index else if len + index < 0 then 0 else len + index
  }

  /** `s.splice(index, 1)` on an integer index. */
  function SpliceOne<T>(s: seq<T>, index: int): (r: seq<T>)
    ensures var i := SpliceStart(|s|, index);
            && (i < |s| ==> |r| == |s| - 1 && multiset(r) + multiset{s[i]} == multiset(s))
            && (i >= |s| ==> r == s)
            && forall j :: 0 <= j < |r| ==> r[j] == (if j < i then s[j] else s[j + 1])
  {
    var i := SpliceStart(|s|, index);
    if i < |s| then
      assert s == s[..i] + [s[i]] + s[i + 1..];
      s[..i] + s[i + 1..]
    else s
  }

  /** Removing the element just pushed, by its index or by -1, restores the list. */
  lemma SpliceUndoesPush<T>(s: seq<T>, x: T)
    ensures SpliceOne(s + [x], |s|) == s
    ensures SpliceOne(s + [x], -1) == s
  {
    assert (s + [x])[..|s|] == s;
  }

  function WithHeaderLinks(c: SiteConfig, links: seq<SiteLink>): SiteConfig {
    c.(header := c.header.(links := links))
  }

  function WithFooterLinks(c: SiteConfig, links: seq<SiteLink>): SiteConfig {
    c.(footer := c.footer.(links := links))
  }

  /** `addHeaderLink()`: append a "New Link" pointing at `#` and save the site config. */
  function AddHeaderLink(s: Store): (r: Store)
    ensures r.data.siteConfig.header.links == s.data.siteConfig.header.links + [SiteLink("New Link", "#")]
    ensures r.data == s.data.(siteConfig := WithHeaderLinks(s.data.siteConfig, r.data.siteConfig.header.links))
    ensures SameSession(r, s)
  {
    var c := s.data.siteConfig;
    Dispatch(s, SaveSiteConfig(WithHeaderLinks(c, c.header.links + [SiteLink("New Link", "#")])))
  }

  /** `removeHeaderLink(index)`: splice one header link out and save the site config. */
  function RemoveHeaderLink(s: Store, index: int): (r: Store)
    ensures var links := s.data.siteConfig.header.links;
            0 <= index < |links| ==>
              |r.data.siteConfig.header.links| == |links| - 1
              && (forall j :: 0 <= j < index ==> r.data.siteConfig.header.links[j] == links[j])
              && (forall j :: index <= j < |links| - 1 ==> r.data.siteConfig.header.links[j] == links[j + 1])
    ensures index >= |s.data.siteConfig.header.links| ==> r.data == s.data
    ensures r.data == s.data.(siteConfig := WithHeaderLinks(s.data.siteConfig, r.data.siteConfig.header.links))
    ensures SameSession(r, s)
  {
    var c := s.data.siteConfig;
    Dispatch(s, SaveSiteConfig(WithHeaderLinks(c, SpliceOne(c.header.links, index))))
  }

  /** `addFooterLink()`: append a "Legal" link pointing at `#` and save the site config. */
  function AddFooterLink(s: Store): (r: Store)
    ensures r.data.siteConfig.footer.links == s.data.siteConfig.footer.links + [SiteLink("Legal", "#")]
    ensures r.data == s.data.(siteConfig := WithFooterLinks(s.data.siteConfig, r.data.siteConfig.footer.links))
    ensures SameSession(r, s)
  {
    var c := s.data.siteConfig;
    Dispatch(s, SaveSiteConfig(WithFooterLinks(c, c.footer.links + [SiteLink("Legal", "#")])))
  }

  /** `removeFooterLink(index)`: splice one footer link out and save the site config. */
  function RemoveFooterLink(s: Store, index: int): (r: Store)
    ensures var links := s.data.siteConfig.footer.links;
            0 <= index < |links| ==>
              |r.data.siteConfig.footer.links| == |links| - 1
              && (forall j :: 0 <= j < index ==> r.data.siteConfig.footer.links[j] == links[j])
              && (forall j :: index <= j < |links| - 1 ==> r.data.siteConfig.footer.links[j] == links[j + 1])
    ensures index >= |s.data.siteConfig.footer.links| ==> r.data == s.data
    ensures r.data == s.data.(siteConfig := WithFooterLinks(s.data.siteConfig, r.data.siteConfig.footer.links))
    ensures SameSession(r, s)
  {
    var c := s.data.siteConfig;
    Dispatch(s, SaveSiteConfig(WithFooterLinks(c, SpliceOne(c.footer.links, index))))
  }

  /** Removing the link just added, by its index or by -1, restores the tenant's
      data, and the edit survives a reload. */
  lemma RemoveUndoesAddLink(s: Store, year: nat)
    ensures var n := |s.data.siteConfig.header.links|;
            RemoveHeaderLink(AddHeaderLink(s), n).data == s.data
            && RemoveHeaderLink(AddHeaderLink(s), -1).data == s.data
    ensures var n := |s.data.siteConfig.footer.links|;
            RemoveFooterLink(AddFooterLink(s), n).data == s.data
            && RemoveFooterLink(AddFooterLink(s), -1).data == s.data
    ensures LoadTenantData(AddHeaderLink(s), s.selectedTenantId, year) == Loaded(AddHeaderLink(s))
  {
    var c := s.data.siteConfig;
    SpliceUndoesPush(c.header.links, SiteLink("New Link", "#"));
    SpliceUndoesPush(c.footer.links, SiteLink("Legal", "#"));
    DispatchIsDurable(s, SaveSiteConfig(WithHeaderLinks(c, c.header.links + [SiteLink("New Link", "#")])), year);
  }

  // --- SEO context ---

  /** `${s.title}: ${JSON.stringify(s.content)}`; `encode` stands for `JSON.stringify`. */
  function Entry(s: Section, encode: Object -> string): string {
    s.title + ": " + encode(s.content)
  }

  function IsEnabled(s: Section): bool { s.isEnabled }

  /** The entries of the enabled sections, in store order. */
  function Entries(sections: seq<Section>, encode: Object -> string): (r: seq<string>)
    ensures |r| <= |sections|
    decreases |sections|
  {
    if |sections| == 0 then []
    else (if sections[0].isEnabled then [Entry(sections[0], encode)] else []) + Entries(sections[1..], encode)
  }

  /** The context text sent to the AI: the entries joined by "; ". */
  function SeoContext(sections: seq<Section>, encode: Object -> string): string {
    Join(Entries(sections, encode), "; ")
  }

  /** The entries are exactly the enabled sections, in order, each encoded once:
      `filter(s => s.isEnabled).map(entry)`. */
  lemma {:induction false} EntriesAreEnabledSections(sections: seq<Section>, encode: Object -> string)
    ensures var f := Filter(sections, IsEnabled);
            var r := Entries(sections, encode);
            |r| == |f| && forall k :: 0 <= k < |f| ==> r[k] == Entry(f[k], encode)
    decreases |sections|
  {
    if |sections| > 0 {
      EntriesAreEnabledSections(sections[1..], encode);
    }
  }

  /** A disabled section leaves no trace in the context, wherever it sits. */
  lemma {:induction false} DisabledSectionIgnored(a: seq<Section>, x: Section, b: seq<Section>, encode: Object -> string)
    requires !x.isEnabled
    ensures Entries(a + [x] + b, encode) == Entries(a + b, encode)
    ensures SeoContext(a + [x] + b, encode) == SeoContext(a + b, encode)
    decreases |a|
  {
    if |a| == 0 {
      assert a + [x] + b == [x] + b;
      assert ([x] + b)[0] == x;
      assert ([x] + b)[1..] == b;
      assert a + b == b;
    } else {
      DisabledSectionIgnored(a[1..], x, b, encode);
      assert (a + [x] + b)[0] == a[0] && (a + b)[0] == a[0];
      assert (a + [x] + b)[1..] == a[1..] + [x] + b;
      assert (a + b)[1..] == a[1..] + b;
    }
  }

  // --- SEO audit and auto-fix ---

  /** `runSeoAudit()`: refused while busy; otherwise the report of `audit` on the
      context and the current title and description replaces the last one. */
  function RunSeoAudit(v: EditorView, encode: Object -> string, audit: (string, string, string) -> Value): (r: EditorView)
    ensures v.isGenerating ==> r == v
    ensures !v.isGenerating ==>
              && r == v.(seoAnalysis := r.seoAnalysis)
              && r.seoAnalysis == Some(audit(SeoContext(v.store.data.sections, encode),
                                             v.store.data.pageSeo.title, v.store.data.pageSeo.description))
  {
    if v.isGenerating then v
    else
      var seo := v.store.data.pageSeo;
      var report := audit(SeoContext(v.store.data.sections, encode), seo.title, seo.description);
      v.(seoAnalysis := Some(report), isGenerating := false)
  }

  /** What the AI proposes for the page's SEO fields. */
  datatype SeoTags = SeoTags(title: string, description: string, keywords: string)

  function SeoPatchOf(t: SeoTags): SeoPatch {
    SeoPatch(Some(t.title), Some(t.description), Some(t.keywords), None)
  }

  /** `autoFixSeo()` as the source writes it: the re-run audit happens while the
      busy flag is still set, so it returns at once and the report stays cleared. */
  function AutoFixSeoAsWritten(v: EditorView, encode: Object -> string, generate: string -> SeoTags,
                               audit: (string, string, string) -> Value): (r: EditorView)
    ensures v.isGenerating ==> r == v
    ensures !v.isGenerating && generate(SeoContext(v.store.data.sections, encode)).title == "" ==>
              r == v
    ensures !v.isGenerating && generate(SeoContext(v.store.data.sections, encode)).title != "" ==>
              && r.store == Dispatch(v.store, UpdatePageSeo(SeoPatchOf(generate(SeoContext(v.store.data.sections, encode)))))
              && r.seoAnalysis.None? && !r.isGenerating
  {
    if v.isGenerating then v
    else
      var busy := v.(isGenerating := true);
      var tags := generate(SeoContext(v.store.data.sections, encode));
      if tags.title != "" then
        var fixed := busy.(store := Dispatch(busy.store, UpdatePageSeo(SeoPatchOf(tags))), seoAnalysis := None);
        RunSeoAudit(fixed, encode, audit).(isGenerating := false)
      else busy.(isGenerating := false)
  }

  /** Whatever the AI answers, a successful auto-fix as written ends with no
      audit report at all. */
  lemma AutoFixLeavesNoReport(v: EditorView, encode: Object -> string, generate: string -> SeoTags,
                              audit: (string, string, string) -> Value)
    requires !v.isGenerating && generate(SeoContext(v.store.data.sections, encode)).title != ""
    ensures AutoFixSeoAsWritten(v, encode, generate, audit).seoAnalysis == None
    ensures AutoFixSeo(v, encode, generate, audit).seoAnalysis != None
  {
  }

  /** `autoFixSeo()` with the busy flag cleared before the audit is re-run, so
      the report describes the page after the fix. */
  function AutoFixSeo(v: EditorView, encode: Object -> string, generate: string -> SeoTags,
                      audit: (string, string, string) -> Value): (r: EditorView)
    ensures v.isGenerating ==> r == v
    ensures !v.isGenerating && generate(SeoContext(v.store.data.sections, encode)).title == "" ==>
              r == v
    ensures !v.isGenerating && generate(SeoContext(v.store.data.sections, encode)).title != "" ==>
              var tags := generate(SeoContext(v.store.data.sections, encode));
              && r.store == Dispatch(v.store, UpdatePageSeo(SeoPatchOf(tags)))
              && r.store.data.pageSeo.title == tags.title
              && r.store.data.pageSeo.description == tags.description
              && r.store.data.pageSeo.keywords == tags.keywords
              && r.seoAnalysis == Some(audit(SeoContext(v.store.data.sections, encode), tags.title, tags.description))
              && !r.isGenerating
  {
    if v.isGenerating then v
    else
      var tags := generate(SeoContext(v.store.data.sections, encode));
      if tags.title != "" then
        var fixed := v.(store := Dispatch(v.store, UpdatePageSeo(SeoPatchOf(tags))), seoAnalysis := None);
        RunSeoAudit(fixed, encode, audit)
      else v
  }

  // --- AI copy for one field ---

  /** The section the sidebar shows: the first one whose id is the active id. */
  function ActiveSection(v: EditorView): (r: Option<Section>)
    ensures v.activeSectionId.None? ==> r.None?
    ensures v.activeSectionId.Some? ==> r == Find(v.store.data.sections, SectionId, v.activeSectionId.value)
  {
    if v.activeSectionId.None? then None else Find(v.store.data.sections, SectionId, v.activeSectionId.value)
  }

  /** `generateContent(fieldKey, …)` as the source writes it: refused while busy;
      with no active section it returns with the busy flag still set; otherwise
      a non-empty `result` becomes the field's new value and the flag is cleared. */
  function GenerateContentAsWritten(v: EditorView, fieldKey: string, result: string): (r: EditorView)
    ensures v.isGenerating ==> r == v
    ensures !v.isGenerating && ActiveSection(v).None? ==>
              r == v.(isGenerating := true, generatingField := Some(fieldKey))
    ensures !v.isGenerating && ActiveSection(v).Some? ==>
              && !r.isGenerating && r.generatingField.None?
              && r == v.(store := r.store, isGenerating := false, generatingField := None)
              && (result == "" ==> r.store == v.store)
              && (result != "" ==> r.store == FillField(v.store, ActiveSection(v).value, fieldKey, result))
  {
    if v.isGenerating then v
    else
      var busy := v.(isGenerating := true, generatingField := Some(fieldKey));
      var section := ActiveSection(v);
      if section.None? then busy
      else
        var s := if result != "" then FillField(v.store, section.value, fieldKey, result) else v.store;
        busy.(store := s, isGenerating := false, generatingField := None)
  }

  /** After `updateSection(id, patch)`, the id finds its old section with the
      patch merged into its content, and other ids find what they found before. */
  lemma FindAfterUpdateSection(sections: seq<Section>, id: string, patch: Object, other: string)
    ensures var r := UpdateSection(sections, id, patch);
            Find(r, SectionId, other) ==
              (if other == id && HasId(sections, SectionId, id)
               then Some(Find(sections, SectionId, id).value.(content := Spread(Find(sections, SectionId, id).value.content, patch)))
               else Find(sections, SectionId, other))
  {
    var f := (x: Section) => x.(content := Spread(x.content, patch));
    FindAfterMapWhere(sections, SectionId, id, f, other);
  }

  /** Merging `{...c, [k]: v}` into `c` sets the one field. */
  lemma SpreadOneField(c: Object, k: string, v: Value)
    ensures Spread(c, Spread(c, map[k := v])) == c[k := v]
  {
  }

  /** `updateSection(section.id, {...section.content, [fieldKey]: result})`. */
  function FillField(s: Store, section: Section, fieldKey: string, result: string): (r: Store)
    ensures r.data == s.data.(sections := r.data.sections)
    ensures SameSession(r, s)
    ensures Find(s.data.sections, SectionId, section.id) == Some(section) ==>
              Find(r.data.sections, SectionId, section.id) ==
                Some(section.(content := section.content[fieldKey := Str(result)]))
    ensures forall other :: other != section.id ==>
              Find(r.data.sections, SectionId, other) == Find(s.data.sections, SectionId, other)
  {
    var patch := Spread(section.content, map[fieldKey := Str(result)]);
    var sections := UpdateSection(s.data.sections, section.id, patch);
    FindAfterUpdateSection(s.data.sections, section.id, patch, section.id);
    forall other | other != section.id
      ensures Find(sections, SectionId, other) == Find(s.data.sections, SectionId, other)
    {
      FindAfterUpdateSection(s.data.sections, section.id, patch, other);
    }
    SpreadOneField(section.content, fieldKey, Str(result));
    var r := Dispatch(s, UpdateSectionAction(section.id, patch));
    assert r.data.sections == sections;
    r
  }

  /** With no active section the flag stays set, and from then on every AI
      action of the editor is refused. */
  lemma StuckAfterMissingSection(v: EditorView, fieldKey: string, result: string,
                                 key2: string, result2: string, encode: Object -> string,
                                 generate: string -> SeoTags, audit: (string, string, string) -> Value)
    requires !v.isGenerating && ActiveSection(v).None?
    ensures var w := GenerateContentAsWritten(v, fieldKey, result);
            && w.isGenerating
            && GenerateContentAsWritten(w, key2, result2) == w
            && RunSeoAudit(w, encode, audit) == w
            && AutoFixSeo(w, encode, generate, audit) == w
  {
  }

  /** `generateContent` with the busy flag cleared on the early return. */
  function GenerateContent(v: EditorView, fieldKey: string, result: string): (r: EditorView)
    ensures v.isGenerating ==> r == v
    ensures !v.isGenerating ==> !r.isGenerating && r.generatingField.None?
    ensures !v.isGenerating && ActiveSection(v).None? ==> r == v.(generatingField := None)
    ensures !v.isGenerating && ActiveSection(v).Some? && result != "" ==>
              r.store == FillField(v.store, ActiveSection(v).value, fieldKey, result)
    ensures !v.isGenerating && (ActiveSection(v).None? || result == "") ==> r.store == v.store
  {
    if v.isGenerating then v
    else
      var section := ActiveSection(v);
      if section.None? then v.(generatingField := None)
      else
        var s := if result != "" then FillField(v.store, section.value, fieldKey, result) else v.store;
        v.(store := s, isGenerating := false, generatingField := None)
  }

  /** The corrected editor never stays busy after generating copy, so a second
      request is served; with an active section both versions agree. */
  lemma GenerateContentNeverSticks(v: EditorView, fieldKey: string, result: string)
    requires !v.isGenerating
    ensures !GenerateContent(v, fieldKey, result).isGenerating
    ensures ActiveSection(v).Some? ==>
              GenerateContent(v, fieldKey, result) == GenerateContentAsWritten(v, fieldKey, result)
  {
  }
}

=== FILE: seqs.dfy ===
/** Array helpers of the source (`findIndex`, `filter`, `some`) over sequences. */
module Seqs {

  /** `findIndex`, with "not found" (`-1`) reported as `|s|`. */
  function FindIndex<T>(s: seq<T>, p: T -> bool): (i: nat)
    ensures i <= |s|
    ensures i < |s| ==> p(s[i])
    ensures forall j :: 0 <= j < i ==> !p(s[j])
    decreases |s|
  {
    if |s| == 0 then 0 else if p(s[0]) then 0 else 1 + FindIndex(s[1..], p)
  }

  lemma FindIndexAbsent<T>(s: seq<T>, p: T -> bool)
    ensures FindIndex(s, p) == |s| <==> forall j :: 0 <= j < |s| ==> !p(s[j])
  {
  }

  /** The first match is no later than any known match. */
  lemma FindIndexAtMost<T>(s: seq<T>, p: T -> bool, i: nat)
    requires i < |s| && p(s[i])
    ensures FindIndex(s, p) <= i
  {
  }

  /** `filter`: the elements that pass, in their original order. */
  function Filter<T>(s: seq<T>, p: T -> bool): (r: seq<T>)
    ensures |r| <= |s|
    ensures forall i :: 0 <= i < |r| ==> p(r[i]) && r[i] in s
    ensures forall i :: 0 <= i < |s| && p(s[i]) ==> s[i] in r
    decreases |s|
  {
    if |s| == 0 then []
    else if p(s[0]) then [s[0]] + Filter(s[1..], p)
    else Filter(s[1..], p)
  }

  /** Number of elements that pass `p`. */
  function Count<T>(s: seq<T>, p: T -> bool): nat
    decreases |s|
  {
    if |s| == 0 then 0 else (if p(s[0]) then 1 else 0) + Count(s[1..], p)
  }

  /** A filter keeps every element exactly when none fails the test. */
  lemma {:induction false} FilterLength<T>(s: seq<T>, p: T -> bool)
    ensures |Filter(s, p)| == Count(s, p)
    ensures |Filter(s, p)| == |s| <==> forall j :: 0 <= j < |s| ==> p(s[j])
    ensures (forall j :: 0 <= j < |s| ==> p(s[j])) ==> Filter(s, p) == s
    decreases |s|
  {
    if |s| > 0 {
      FilterLength(s[1..], p);
      if !p(s[0]) {
        assert |Filter(s, p)| < |s|;
      } else {
        assert forall j :: 1 <= j < |s| ==> s[j] == s[1..][j - 1];
      }
    }
  }

  /** Filtering distributes over concatenation. */
  lemma {:induction false} FilterAppend<T>(a: seq<T>, b: seq<T>, p: T -> bool)
    ensures Filter(a + b, p) == Filter(a, p) + Filter(b, p)
    decreases |a|
  {
    if |a| > 0 {
      assert (a + b)[1..] == a[1..] + b;
      FilterAppend(a[1..], b, p);
    } else {
      assert a + b == b;
    }
  }
  /** `r` is `s` with some elements left out, the rest in their order. */
  predicate Subsequence<T(==)>(r: seq<T>, s: seq<T>)
    decreases |s|
  {
    |r| == 0 || (|s| > 0 && ((r[0] == s[0] && Subsequence(r[1..], s[1..])) || Subsequence(r, s[1..])))
  }

  /** A filter keeps the passing elements in their original order. */
  lemma {:induction false} FilterIsSubsequence<T>(s: seq<T>, p: T -> bool)
    ensures Subsequence(Filter(s, p), s)
    decreases |s|
  {
    if |s| > 0 {
      FilterIsSubsequence(s[1..], p);
      var r := Filter(s, p);
      if p(s[0]) {
        assert r[0] == s[0] && r[1..] == Filter(s[1..], p);
      }
    }
  }

  /** A filter keeps every passing element as often as it occurs, and no other. */
  lemma {:induction false} FilterCounts<T>(s: seq<T>, p: T -> bool)
    ensures forall x :: multiset(Filter(s, p))[x] == if p(x) then multiset(s)[x] else 0
    decreases |s|
  {
    if |s| > 0 {
      FilterCounts(s[1..], p);
      assert s == [s[0]] + s[1..];
      assert multiset(s) == multiset{s[0]} + multiset(s[1..]);
      if p(s[0]) {
        assert Filter(s, p) == [s[0]] + Filter(s[1..], p);
        assert multiset(Filter(s, p)) == multiset{s[0]} + multiset(Filter(s[1..], p));
      }
    }
  }
}

=== FILE: server.dfy ===
/** The file-backed JSON service (server.js): one document holding the site
    configuration and the contents, terms and leads collections. Each route
    reads the document, applies a pure update and writes it back. Items are
    schemaless objects, because the routes spread arbitrary request bodies. */
module Server {
  import opened Wrappers
  import opened Json
  import opened Seqs
  import opened Sorting

  // --- the document and its file ---

  /** A parsed document. A collection or configuration that is missing or
      falsy (`null`, `0`, `""`, `false`) is `None`. */
  datatype Doc = Doc(siteConfig: Option<Object>, contents: Option<seq<Object>>,
                     terms: Option<seq<Object>>, leads: Option<seq<Object>>)

  /** The database file: absent, holding text `JSON.parse` rejects, or a document. */
  datatype FileState = Missing | Unparsable | Stored(doc: Doc)

  /** The document as the route handlers see it after `readDb`. */
  datatype Db = Db(siteConfig: Option<Object>, contents: seq<Object>, terms: seq<Object>, leads: seq<Object>)

  datatype Response = Response(status: int, body: Value)

  function Link(text: string, url: string): Value {
    Obj(map["label" := Str(text), "url" := Str(url)])
  }

  /** `seedData().siteConfig` */
  function SeedConfig(): Object {
    map["header" := Obj(map["logoText" := Str("My Agency"),
                            "links" := Arr([Link("About", "/about"), Link("Contact", "/contact")])]),
        "footer" := Obj(map["copyright" := Str("\U{00A9} 2024 All Rights Reserved."),
                            "links" := Arr([Link("Privacy", "/legal/privacy")])]),
        "robotsTxt" := Str("User-agent: *\nAllow: /")]
  }

  /** `seedData()`: the seed configuration and empty collections. */
  function SeedDb(): Db {
    Db(Some(SeedConfig()), [], [], [])
  }

  /** What `readDb` returns when the file cannot be parsed. */
  function EmptyDb(): Db {
    Db(Some(map[]), [], [], [])
  }

  /** `writeDb`: the document as written. An absent configuration is left out. */
  function Write(db: Db): FileState {
    Stored(Doc(db.siteConfig, Some(db.contents), Some(db.terms), Some(db.leads)))
  }

  /** `readDb`: seed (and write) a missing file, fall back to empty collections
      on a parse failure, and fill in missing collections with `[]`. Returns the
      database and the file afterwards. */
  function ReadDb(f: FileState): (r: (Db, FileState))
    ensures f.Missing? ==> r == (SeedDb(), Write(SeedDb()))
    ensures f.Unparsable? ==> r == (EmptyDb(), Unparsable)
    ensures f.Stored? ==> && r.1 == f && r.0.siteConfig == f.doc.siteConfig
                          && r.0.contents == f.doc.contents.GetOr([])
                          && r.0.terms == f.doc.terms.GetOr([])
                          && r.0.leads == f.doc.leads.GetOr([])
  {
    match f
    case Missing => (SeedDb(), Write(SeedDb()))
    case Unparsable => (EmptyDb(), Unparsable)
    case Stored(d) => (Db(d.siteConfig, d.contents.GetOr([]), d.terms.GetOr([]), d.leads.GetOr([])), f)
  }

  /** What is written is what is read back, and reading it does not write. */
  lemma ReadWriteRoundTrip(db: Db)
    ensures ReadDb(Write(db)) == (db, Write(db))
  {
  }

  /** A missing file is seeded once: reading again finds the seed and writes nothing. */
  lemma SeedIsStable()
    ensures ReadDb(ReadDb(Missing).1) == ReadDb(Missing)
  {
    ReadWriteRoundTrip(SeedDb());
  }

  // --- identity of items ---

  /** `item.id === x.id` */
  predicate SameId(item: Object, x: Object) {
    StrictEquals(Get(item, "id"), Get(x, "id"))
  }

  /** `item.id !== id` for an id taken from the URL. */
  predicate OtherId(item: Object, id: string) {
    !StrictEquals(Get(item, "id"), Some(Str(id)))
  }

  predicate HasStrId(items: seq<Object>, id: string) {
    exists j :: 0 <= j < |items| && !OtherId(items[j], id)
  }

  /** Keep the items whose id is not `id` (`filter(item => item.id !== id)`). */
  function RemoveById(items: seq<Object>, id: string): (r: seq<Object>)
    ensures |r| <= |items|
    ensures forall j :: 0 <= j < |r| ==> OtherId(r[j], id) && r[j] in items
    ensures forall j :: 0 <= j < |items| && OtherId(items[j], id) ==> items[j] in r
    ensures |r| < |items| <==> HasStrId(items, id)
    ensures !HasStrId(items, id) ==> r == items
  {
    var p := (item: Object) => OtherId(item, id);
    FilterLength(items, p);
    Filter(items, p)
  }

  // --- contents ---

  /** `GET /api/contents`: the items of the requested type (all of them when
      the query is falsy), newest first by `date` of their `createdAt`. */
  function ListContents(items: seq<Object>, typ: Option<Value>, date: Object -> int): (r: seq<Object>)
    ensures SortedDesc(r, date)
    ensures !Truthy(typ) ==> multiset(r) == multiset(items)
    ensures Truthy(typ) ==> multiset(r) == multiset(Filter(items, (c: Object) => StrictEquals(Get(c, "type"), typ)))
    ensures forall j :: 0 <= j < |r| ==> r[j] in items
    ensures Truthy(typ) ==> forall j :: 0 <= j < |r| ==> StrictEquals(Get(r[j], "type"), typ)
  {
    var kept := if Truthy(typ) then Filter(items, (c: Object) => StrictEquals(Get(c, "type"), typ)) else items;
    var r := SortDesc(kept, date);
    assert forall j :: 0 <= j < |r| ==> r[j] in multiset(kept);
    r
  }

  /** The fields that stamp an updated item. */
  function Stamp(now: string): Object {
    map["updatedAt" := Str(now)]
  }

  /** The item a create stores: the body, with its id (or the timestamp id when
      the body's id is falsy) and both timestamps set to now. */
  function NewContent(c: Object, now: string, nowId: string): (r: Object)
    ensures r.Keys == c.Keys + {"id", "createdAt", "updatedAt"}
    ensures r["createdAt"] == Str(now) && r["updatedAt"] == Str(now)
    ensures Truthy(Get(c, "id")) ==> r["id"] == c["id"]
    ensures !Truthy(Get(c, "id")) ==> r["id"] == Str(nowId)
    ensures forall k :: k in c && k !in {"id", "createdAt", "updatedAt"} ==> r[k] == c[k]
  {
    var id := if Truthy(Get(c, "id")) then c["id"] else Str(nowId);
    Spread(c, map["id" := id, "createdAt" := Str(now), "updatedAt" := Str(now)])
  }

  /** `{...stored, ...c, updatedAt: now}`: an update keeps the stored `createdAt`
      unless the body carries one, takes every other key from the body, and
      sets `updatedAt` to now. */
  function Restamp(stored: Object, c: Object, now: string): (u: Object)
    ensures u.Keys == stored.Keys + c.Keys + {"updatedAt"}
    ensures u["updatedAt"] == Str(now)
    ensures Get(u, "createdAt") == (if "createdAt" in c then Some(c["createdAt"]) else Get(stored, "createdAt"))
    ensures forall k :: k in c && k != "updatedAt" ==> u[k] == c[k]
    ensures forall k :: k in stored && k !in c && k != "updatedAt" ==> u[k] == stored[k]
  {
    var m := Spread(stored, c);
    var u := Spread(m, Stamp(now));
    assert "createdAt" !in Stamp(now);
    u
  }

  /** `POST /api/contents` on the collection: merge the body into the first item
      with the body's id and restamp it, or append a new item. */
  function SaveContent(items: seq<Object>, c: Object, now: string, nowId: string): (r: seq<Object>)
    ensures var i := FindIndex(items, (item: Object) => SameId(item, c));
            && (i < |items| ==> && |r| == |items|
                                && r[i] == Restamp(items[i], c, now)
                                && forall j :: 0 <= j < |items| && j != i ==> r[j] == items[j])
            && (i == |items| ==> r == items + [NewContent(c, now, nowId)])
  {
    var i := FindIndex(items, (item: Object) => SameId(item, c));
    if i < |items| then items[i := Restamp(items[i], c, now)]
    else items + [NewContent(c, now, nowId)]
  }

  /** Deleting the id a create just assigned restores the collection, provided
      no stored item already had that id. */
  lemma DeleteAfterCreate(items: seq<Object>, c: Object, now: string, nowId: string, id: string)
    requires FindIndex(items, (item: Object) => SameId(item, c)) == |items|
    requires NewContent(c, now, nowId)["id"] == Str(id)
    requires !HasStrId(items, id)
    ensures RemoveById(SaveContent(items, c, now, nowId), id) == items
  {
    var n := NewContent(c, now, nowId);
    CreateAppends(items, c, now, nowId);
    IdIsNotOther(n, id);
    RemoveOwnAppended(items, n, id);
  }

  lemma IdIsNotOther(n: Object, id: string)
    requires "id" in n && n["id"] == Str(id)
    ensures !OtherId(n, id)
  {
    assert Get(n, "id") == Some(Str(id));
  }

  lemma CreateAppends(items: seq<Object>, c: Object, now: string, nowId: string)
    requires FindIndex(items, (item: Object) => SameId(item, c)) == |items|
    ensures SaveContent(items, c, now, nowId) == items + [NewContent(c, now, nowId)]
  {
  }

  /** Removing an id no stored item has, after appending an item with it, restores the collection. */
  lemma RemoveOwnAppended(items: seq<Object>, n: Object, id: string)
    requires !HasStrId(items, id) && !OtherId(n, id)
    ensures RemoveById(items + [n], id) == items
  {
    var p := (item: Object) => OtherId(item, id);
    FilterAppend(items, [n], p);
    FilterLength(items, p);
    assert Filter([n], p) == Filter([n][1..], p);
  }

  // --- terms and leads ---

  /** `POST /api/terms`: replace the first term with the body's id, or append. */
  function SaveTerm(items: seq<Object>, t: Object): (r: seq<Object>)
    ensures var i := FindIndex(items, (item: Object) => SameId(item, t));
            && (i < |items| ==> r == items[i := t])
            && (i == |items| ==> r == items + [t])
  {
    var i := FindIndex(items, (item: Object) => SameId(item, t));
    if i < |items| then items[i := t] else items + [t]
  }

  /** `POST /api/leads`: replace the first lead with the body's id, or insert
      the lead at the head. */
  function SaveLead(items: seq<Object>, l: Object): (r: seq<Object>)
    ensures var i := FindIndex(items, (item: Object) => SameId(item, l));
            && (i < |items| ==> r == items[i := l])
            && (i == |items| ==> r == [l] + items)
  {
    var i := FindIndex(items, (item: Object) => SameId(item, l));
    if i < |items| then items[i := l] else [l] + items
  }

  /** A saved term or lead is what the first lookup of its id finds, in every case. */
  lemma SavedIsFirstMatch(items: seq<Object>, x: Object)
    requires SameId(x, x)
    ensures var r := SaveTerm(items, x);
            FindIndex(r, (item: Object) => SameId(item, x)) < |r|
            && r[FindIndex(r, (item: Object) => SameId(item, x))] == x
    ensures var r := SaveLead(items, x);
            FindIndex(r, (item: Object) => SameId(item, x)) < |r|
            && r[FindIndex(r, (item: Object) => SameId(item, x))] == x
  {
    var p := (item: Object) => SameId(item, x);
    var i := FindIndex(items, p);
    var r := SaveTerm(items, x);
    var q := SaveLead(items, x);
    if i < |items| {
      FindIndexAtMost(r, p, i);
      FindIndexAtMost(q, p, i);
    } else {
      FindIndexAtMost(r, p, |items|);
      FindIndexAtMost(q, p, 0);
    }
  }

  // --- routes ---

  /** A request; clocks and the comparator's date parsing are parameters. */
  datatype Request =
    | GetConfig
    | PostConfig(config: Object)
    | GetContents(typ: Option<Value>, date: Object -> int)
    | PostContent(content: Object, now: string, nowId: string)
    | DeleteContent(id: string)
    | GetTerms
    | PostTerm(term: Object)
    | DeleteTerm(id: string)
    | GetLeads
    | PostLead(lead: Object)
    | DeleteLead(id: string)

  function Message(m: string): Value {
    Obj(map["message" := Str(m)])
  }

  /** `{ message, id }`; an `undefined` id is dropped by `res.json`. */
  function MessageWithId(m: string, id: Option<Value>): Value {
    Obj(if id.Some? then map["message" := Str(m), "id" := id.value] else map["message" := Str(m)])
  }

  function Objs(items: seq<Object>): (r: seq<Value>)
    ensures |r| == |items| && forall j :: 0 <= j < |items| ==> r[j] == Obj(items[j])
  {
    seq(|items|, j requires 0 <= j < |items| => Obj(items[j]))
  }

  /** The `/api/terms` and `/api/leads` routes on the document read and the file as read. */
  function TermLeadRoute(db: Db, f1: FileState, req: Request): (r: (Response, FileState))
    requires req.GetTerms? || req.PostTerm? || req.DeleteTerm? || req.GetLeads? || req.PostLead? || req.DeleteLead?
    ensures r.0.status == 200
    ensures req.GetTerms? ==> r.0.body == Arr(Objs(db.terms)) && r.1 == f1
    ensures req.GetLeads? ==> r.0.body == Arr(Objs(db.leads)) && r.1 == f1
    ensures req.PostTerm? ==> r.0.body == MessageWithId("Term Saved", Get(req.term, "id"))
                              && r.1 == Write(db.(terms := SaveTerm(db.terms, req.term)))
    ensures req.DeleteTerm? ==> r.0.body == Message("Term Deleted")
                                && r.1 == Write(db.(terms := RemoveById(db.terms, req.id)))
    ensures req.PostLead? ==> r.0.body == MessageWithId("Lead Saved", Get(req.lead, "id"))
                              && r.1 == Write(db.(leads := SaveLead(db.leads, req.lead)))
    ensures req.DeleteLead? ==> r.0.body == Message("Lead Deleted")
                                && r.1 == Write(db.(leads := RemoveById(db.leads, req.id)))
  {
    match req
    case GetTerms =>
      (Response(200, Arr(Objs(db.terms))), f1)
    case PostTerm(t) =>
      (Response(200, MessageWithId("Term Saved", Get(t, "id"))), Write(db.(terms := SaveTerm(db.terms, t))))
    case DeleteTerm(id) =>
      (Response(200, Message("Term Deleted")), Write(db.(terms := RemoveById(db.terms, id))))
    case GetLeads =>
      (Response(200, Arr(Objs(db.leads))), f1)
    case PostLead(l) =>
      (Response(200, MessageWithId("Lead Saved", Get(l, "id"))), Write(db.(leads := SaveLead(db.leads, l))))
    case DeleteLead(id) =>
      (Response(200, Message("Lead Deleted")), Write(db.(leads := RemoveById(db.leads, id))))
  }

  /** The three `/api/contents` routes on the document read and the file as read. */
  function ContentRoute(db: Db, f1: FileState, req: Request): (r: (Response, FileState))
    requires req.GetContents? || req.PostContent? || req.DeleteContent?
    ensures r.0.status == 200 || r.0.status == 404
    ensures r.0.status == 404 <==> req.DeleteContent? && !HasStrId(db.contents, req.id)
    ensures r.0.status == 404 || req.GetContents? ==> r.1 == f1
    ensures req.GetContents? ==> r.0.body == Arr(Objs(ListContents(db.contents, req.typ, req.date)))
    ensures req.PostContent? ==>
              var i := FindIndex(db.contents, (item: Object) => SameId(item, req.content));
              && r.1 == Write(db.(contents := SaveContent(db.contents, req.content, req.now, req.nowId)))
              && (i < |db.contents| ==> r.0.body == MessageWithId("Updated", Get(req.content, "id")))
              && (i == |db.contents| ==> r.0.body == MessageWithId("Created", Get(NewContent(req.content, req.now, req.nowId), "id")))
    ensures req.DeleteContent? && r.0.status == 200 ==> r.1 == Write(db.(contents := RemoveById(db.contents, req.id)))
  {
    match req
    case GetContents(typ, date) =>
      (Response(200, Arr(Objs(ListContents(db.contents, typ, date)))), f1)
    case PostContent(c, now, nowId) =>
      var i := FindIndex(db.contents, (item: Object) => SameId(item, c));
      var saved := SaveContent(db.contents, c, now, nowId);
      if i < |db.contents| then
        (Response(200, MessageWithId("Updated", Get(c, "id"))), Write(db.(contents := saved)))
      else
        (Response(200, MessageWithId("Created", Some(NewContent(c, now, nowId)["id"]))), Write(db.(contents := saved)))
    case DeleteContent(id) =>
      var kept := RemoveById(db.contents, id);
      if |kept| < |db.contents| then (Response(200, Message("Deleted")), Write(db.(contents := kept)))
      else (Response(404, Message("Not found")), f1)
  }

  /** A route handler: the response and the file afterwards. */
  function Handle(f: FileState, req: Request): (r: (Response, FileState))
    ensures r.0.status == 200 || r.0.status == 404
    ensures r.0.status == 404 <==> req.DeleteContent? && !HasStrId(ReadDb(f).0.contents, req.id)
    ensures r.0.status == 404 ==> r.1 == ReadDb(f).1
    ensures (req.GetConfig? || req.GetContents? || req.GetTerms? || req.GetLeads?) ==> r.1 == ReadDb(f).1
    ensures req.GetConfig? ==> r.0.body == Obj(ReadDb(f).0.siteConfig.GetOr(SeedConfig()))
    ensures req.PostConfig? ==> r.0.body == Obj(Spread(ReadDb(f).0.siteConfig.GetOr(map[]), req.config))
    ensures (req.DeleteTerm? || req.DeleteLead?) ==> r.0.status == 200
    ensures (req.GetTerms? || req.PostTerm? || req.DeleteTerm? || req.GetLeads? || req.PostLead? || req.DeleteLead?) ==>
              r == TermLeadRoute(ReadDb(f).0, ReadDb(f).1, req)
    ensures (req.GetContents? || req.PostContent? || req.DeleteContent?) ==> r == ContentRoute(ReadDb(f).0, ReadDb(f).1, req)
  {
    var (db, f1) := ReadDb(f);
    if req.GetConfig? then
      (Response(200, Obj(db.siteConfig.GetOr(SeedConfig()))), f1)
    else if req.PostConfig? then
      var merged := Spread(db.siteConfig.GetOr(map[]), req.config);
      (Response(200, Obj(merged)), Write(db.(siteConfig := Some(merged))))
    else if req.GetContents? || req.PostContent? || req.DeleteContent? then
      ContentRoute(db, f1, req)
    else
      TermLeadRoute(db, f1, req)
  }

  /** Each write route changes only its own collection of the document read. */
  lemma WritesTouchOneCollection(f: FileState, req: Request)
    requires req.PostContent? || req.PostTerm? || req.PostLead? || req.DeleteTerm? || req.DeleteLead?
             || (req.DeleteContent? && HasStrId(ReadDb(f).0.contents, req.id))
    ensures var db := ReadDb(f).0;
            var after := ReadDb(Handle(f, req).1).0;
            && after.siteConfig == db.siteConfig
            && ((req.PostContent? || req.DeleteContent?) ==> after == db.(contents := after.contents))
            && ((req.PostTerm? || req.DeleteTerm?) ==> after == db.(terms := after.terms))
            && ((req.PostLead? || req.DeleteLead?) ==> after == db.(leads := after.leads))
    ensures var db := ReadDb(f).0;
            var after := ReadDb(Handle(f, req).1).0;
            && (req.PostContent? ==> after.contents == SaveContent(db.contents, req.content, req.now, req.nowId))
            && (req.DeleteContent? ==> after.contents == RemoveById(db.contents, req.id))
            && (req.PostTerm? ==> after.terms == SaveTerm(db.terms, req.term))
            && (req.DeleteTerm? ==> after.terms == RemoveById(db.terms, req.id))
            && (req.PostLead? ==> after.leads == SaveLead(db.leads, req.lead))
            && (req.DeleteLead? ==> after.leads == RemoveById(db.leads, req.id))
  {
    if req.PostContent? || req.DeleteContent? {
      ContentWritesTouchContents(f, req);
    } else if req.PostTerm? || req.DeleteTerm? {
      TermWritesTouchTerms(f, req);
    } else {
      LeadWritesTouchLeads(f, req);
    }
  }

  lemma ContentWritesTouchContents(f: FileState, req: Request)
    requires req.PostContent? || (req.DeleteContent? && HasStrId(ReadDb(f).0.contents, req.id))
    ensures var db := ReadDb(f).0;
            var after := ReadDb(Handle(f, req).1).0;
            && after == db.(contents := after.contents)
            && (req.PostContent? ==> after.contents == SaveContent(db.contents, req.content, req.now, req.nowId))
            && (req.DeleteContent? ==> after.contents == RemoveById(db.contents, req.id))
  {
    var db := ReadDb(f).0;
    if req.PostContent? {
      var d := db.(contents := SaveContent(db.contents, req.content, req.now, req.nowId));
      assert Handle(f, req).1 == Write(d);
      ReadWriteRoundTrip(d);
    } else {
      var d := db.(contents := RemoveById(db.contents, req.id));
      assert Handle(f, req).1 == Write(d);
      ReadWriteRoundTrip(d);
    }
  }

  lemma TermWritesTouchTerms(f: FileState, req: Request)
    requires req.PostTerm? || req.DeleteTerm?
    ensures var db := ReadDb(f).0;
            var after := ReadDb(Handle(f, req).1).0;
            && after == db.(terms := after.terms)
            && (req.PostTerm? ==> after.terms == SaveTerm(db.terms, req.term))
            && (req.DeleteTerm? ==> after.terms == RemoveById(db.terms, req.id))
  {
    var db := ReadDb(f).0;
    if req.PostTerm? {
      var d := db.(terms := SaveTerm(db.terms, req.term));
      assert Handle(f, req).1 == Write(d);
      ReadWriteRoundTrip(d);
    } else {
      var d := db.(terms := RemoveById(db.terms, req.id));
      assert Handle(f, req).1 == Write(d);
      ReadWriteRoundTrip(d);
    }
  }

  lemma LeadWritesTouchLeads(f: FileState, req: Request)
    requires req.PostLead? || req.DeleteLead?
    ensures var db := ReadDb(f).0;
            var after := ReadDb(Handle(f, req).1).0;
            && after == db.(leads := after.leads)
            && (req.PostLead? ==> after.leads == SaveLead(db.leads, req.lead))
            && (req.DeleteLead? ==> after.leads == RemoveById(db.leads, req.id))
  {
    var db := ReadDb(f).0;
    if req.PostLead? {
      var d := db.(leads := SaveLead(db.leads, req.lead));
      assert Handle(f, req).1 == Write(d);
      ReadWriteRoundTrip(d);
    } else {
      var d := db.(leads := RemoveById(db.leads, req.id));
      assert Handle(f, req).1 == Write(d);
      ReadWriteRoundTrip(d);
    }
  }

  /** After `POST /api/contents`, `GET /api/contents` lists the saved collection. */
  lemma PostContentThenGet(f: FileState, c: Object, now: string, nowId: string, typ: Option<Value>, date: Object -> int)
    ensures var f1 := Handle(f, PostContent(c, now, nowId)).1;
            var saved := SaveContent(ReadDb(f).0.contents, c, now, nowId);
            Handle(f1, GetContents(typ, date)).0.body == Arr(Objs(ListContents(saved, typ, date)))
  {
    ContentWritesTouchContents(f, PostContent(c, now, nowId));
  }

  /** A newly created item is listed under every query its type matches. */
  lemma CreatedIsListed(items: seq<Object>, c: Object, now: string, nowId: string, typ: Option<Value>, date: Object -> int)
    ensures var n := NewContent(c, now, nowId);
            FindIndex(items, (item: Object) => SameId(item, c)) == |items|
            && (!Truthy(typ) || StrictEquals(Get(n, "type"), typ)) ==>
              n in ListContents(SaveContent(items, c, now, nowId), typ, date)
  {
    var n := NewContent(c, now, nowId);
    if FindIndex(items, (item: Object) => SameId(item, c)) == |items| && (!Truthy(typ) || StrictEquals(Get(n, "type"), typ)) {
      NewItemListed(items, n, typ, date);
    }
  }

  /** An appended item is listed whenever the query is falsy or matches its type. */
  lemma NewItemListed(items: seq<Object>, n: Object, typ: Option<Value>, date: Object -> int)
    requires !Truthy(typ) || StrictEquals(Get(n, "type"), typ)
    ensures n in ListContents(items + [n], typ, date)
  {
    var saved := items + [n];
    var r := ListContents(saved, typ, date);
    assert saved[|items|] == n;
    if Truthy(typ) {
      var kept := Filter(saved, (x: Object) => StrictEquals(Get(x, "type"), typ));
      assert n in kept;
      assert n in multiset(r);
    } else {
      assert n in multiset(saved);
      assert n in multiset(r);
    }
  }

  /** A configuration posted is what the next `GET /api/config` returns, and
      posting the same body twice leaves the same file as posting it once. */
  lemma PostConfigThenGet(f: FileState, cfg: Object)
    ensures var (resp, f1) := Handle(f, PostConfig(cfg));
            Handle(f1, GetConfig).0 == resp
    ensures var f1 := Handle(f, PostConfig(cfg)).1;
            Handle(f1, PostConfig(cfg)).1 == f1
  {
    var db := ReadDb(f).0;
    var merged := Spread(db.siteConfig.GetOr(map[]), cfg);
    ReadWriteRoundTrip(db.(siteConfig := Some(merged)));
    assert Spread(merged, cfg) == merged;
  }

  /** A write to an unparsable file replaces it with a document holding only
      that write: the unreadable data is overwritten, not repaired. */
  lemma WriteOverUnparsable(l: Object)
    ensures Handle(Unparsable, PostLead(l)).1 == Write(EmptyDb().(leads := [l]))
  {
    assert SaveLead([], l) == [l];
  }
}

=== FILE: sitemap.dfy ===
/** The sitemap document of the active tenant, in the sitemaps.org 0.9 protocol
    (`generateSitemap`, src/services/store.service.ts). */
module Sitemap {
  import opened Wrappers
  import opened Strings
  import opened Seqs
  import opened Model

  const Head: string := "<?xml version=\"1.0\" encoding=\"UTF-8\"?>\n<urlset xmlns=\"http://www.sitemaps.org/schemas/sitemap/0.9\">\n"
  const Tail: string := "</urlset>"
  const DefaultDomain: string := "verbai.com"

  /** The tenant whose id is selected (`currentTenant`): the first with that id. */
  function CurrentTenant(tenants: seq<Tenant>, selectedId: string): (r: Option<Tenant>)
    ensures r.Some? ==> exists i :: 0 <= i < |tenants| && tenants[i] == r.value && r.value.id == selectedId
                                    && forall j :: 0 <= j < i ==> tenants[j].id != selectedId
    ensures r.None? ==> forall i :: 0 <= i < |tenants| ==> tenants[i].id != selectedId
  {
    var i := FindIndex(tenants, (t: Tenant) => t.id == selectedId);
    if i < |tenants| then Some(tenants[i]) else None
  }

  /** `https://` followed by the tenant's domain, or `verbai.com` when there is no
      current tenant or its domain is empty. */
  function SiteOrigin(tenants: seq<Tenant>, selectedId: string): (r: string)
    ensures CurrentTenant(tenants, selectedId).None? ==> r == "https://verbai.com"
    ensures var t := CurrentTenant(tenants, selectedId);
            t.Some? && t.value.domain != "" ==> r == "https://" + t.value.domain
    ensures var t := CurrentTenant(tenants, selectedId);
            t.Some? && t.value.domain == "" ==> r == "https://verbai.com"
  {
    var t := CurrentTenant(tenants, selectedId);
    "https://" + (if t.Some? && t.value.domain != "" then t.value.domain else DefaultDomain)
  }

  /** `updatedAt.split('T')[0]`: the calendar-day part of an ISO timestamp.
      The day part is the text before the first `T`, or all of it when there is none. */
  function Lastmod(updatedAt: string): (r: string)
    ensures |r| <= |updatedAt| && r == updatedAt[..|r|]
    ensures !Contains(r, 'T')
    ensures r == updatedAt || updatedAt[|r|] == 'T'
  {
    Split(updatedAt, 'T')[0]
  }

  const UrlOpen: string := "  <url>\n    <loc>"
  const RootUrlClose: string := "/</loc>\n    <changefreq>daily</changefreq>\n    <priority>1.0</priority>\n  </url>\n"
  const LastmodOpen: string := "</loc>\n    <lastmod>"
  const PostUrlClose: string := "</lastmod>\n    <changefreq>weekly</changefreq>\n    <priority>0.8</priority>\n  </url>\n"

  function RootUrl(origin: string): string {
    UrlOpen + origin + RootUrlClose
  }

  function PostUrl(origin: string, post: Content): string {
    UrlOpen + origin + "/blog/" + post.slug + LastmodOpen + Lastmod(post.updatedAt) + PostUrlClose
  }

  predicate IsPost(c: Content) { c.kind == Post }
  predicate IsPublishedPost(c: Content) { c.kind == Post && c.status == Published }

  /** The `forEach` over the posts: one `<url>` block per published one. */
  function PostsXml(origin: string, posts: seq<Content>): string
    decreases |posts|
  {
    if |posts| == 0 then ""
    else (if posts[0].status == Published then PostUrl(origin, posts[0]) else "") + PostsXml(origin, posts[1..])
  }

  function GenerateSitemap(tenants: seq<Tenant>, selectedId: string, contents: seq<Content>): (r: string)
    ensures |r| >= |Head| + |Tail| && r[..|Head|] == Head && r[|r| - |Tail|..] == Tail
  {
    var origin := SiteOrigin(tenants, selectedId);
    Head + RootUrl(origin) + PostsXml(origin, Filter(contents, IsPost)) + Tail
  }

  /** The blocks of a list of posts, rendered one after the other. */
  function Blocks(origin: string, posts: seq<Content>): string
    decreases |posts|
  {
    if |posts| == 0 then "" else PostUrl(origin, posts[0]) + Blocks(origin, posts[1..])
  }

  lemma {:induction false} BlocksAppend(origin: string, a: seq<Content>, b: seq<Content>)
    ensures Blocks(origin, a + b) == Blocks(origin, a) + Blocks(origin, b)
    decreases |a|
  {
    if |a| == 0 {
      assert a + b == b;
    } else {
      assert (a + b)[1..] == a[1..] + b;
      BlocksAppend(origin, a[1..], b);
    }
  }

  /** Skipping unpublished posts inside the loop is the same as rendering the
      published posts, in their order. */
  lemma {:induction false} PostsXmlIsPublishedBlocks(origin: string, posts: seq<Content>)
    requires forall i :: 0 <= i < |posts| ==> IsPost(posts[i])
    ensures PostsXml(origin, posts) == Blocks(origin, Filter(posts, IsPublishedPost))
    decreases |posts|
  {
    if |posts| > 0 {
      PostsXmlIsPublishedBlocks(origin, posts[1..]);
      if IsPublishedPost(posts[0]) {
        assert Filter(posts, IsPublishedPost) == [posts[0]] + Filter(posts[1..], IsPublishedPost);
        BlocksAppend(origin, [posts[0]], Filter(posts[1..], IsPublishedPost));
      }
    }
  }

  lemma {:induction false} FilterPostsThenPublished(contents: seq<Content>)
    ensures Filter(Filter(contents, IsPost), IsPublishedPost) == Filter(contents, IsPublishedPost)
    decreases |contents|
  {
    if |contents| > 0 {
      FilterPostsThenPublished(contents[1..]);
      if IsPost(contents[0]) {
        assert Filter(contents, IsPost) == [contents[0]] + Filter(contents[1..], IsPost);
        assert Filter(contents, IsPost)[1..] == Filter(contents[1..], IsPost);
      }
    }
  }

  /** The sitemap is the header, the root entry, one entry per published post of
      `contents` in order, and the closing tag; pages and drafts contribute nothing. */
  lemma SitemapStructure(tenants: seq<Tenant>, selectedId: string, contents: seq<Content>)
    ensures GenerateSitemap(tenants, selectedId, contents)
         == Head + RootUrl(SiteOrigin(tenants, selectedId))
            + Blocks(SiteOrigin(tenants, selectedId), Filter(contents, IsPublishedPost)) + Tail
  {
    var origin := SiteOrigin(tenants, selectedId);
    PostsXmlIsPublishedBlocks(origin, Filter(contents, IsPost));
    FilterPostsThenPublished(contents);
  }

  lemma Reassociate(h: string, x: string, y: string, t: string)
    ensures h + (x + y) + t == h + x + y + t
  {
  }

  /** Adding a content item adds exactly one `<url>` entry, just before the
      closing tag, if it is a published post, and changes nothing otherwise. */
  lemma SitemapAppend(tenants: seq<Tenant>, selectedId: string, contents: seq<Content>, c: Content)
    ensures var origin := SiteOrigin(tenants, selectedId);
            var before := Head + RootUrl(origin) + Blocks(origin, Filter(contents, IsPublishedPost));
            GenerateSitemap(tenants, selectedId, contents + [c])
              == before + (if IsPublishedPost(c) then PostUrl(origin, c) else "") + Tail
  {
    var origin := SiteOrigin(tenants, selectedId);
    var a := Filter(contents, IsPublishedPost);
    var b := Filter([c], IsPublishedPost);
    var extra := if IsPublishedPost(c) then PostUrl(origin, c) else "";
    SitemapStructure(tenants, selectedId, contents + [c]);
    FilterAppend(contents, [c], IsPublishedPost);
    BlocksAppend(origin, a, b);
    assert Blocks(origin, b) == extra by {
      if IsPublishedPost(c) {
        assert b == [c];
        assert Blocks(origin, [c]) == PostUrl(origin, c) + Blocks(origin, []);
      } else {
        assert b == [];
      }
    }
    Reassociate(Head + RootUrl(origin), Blocks(origin, a), extra, Tail);
  }
}

=== FILE: slug.dfy ===
/** URL slugs: title normalisation and the collision-free slug search of
    `generateUniqueSlug` (src/services/store.service.ts). */
module Slug {
  import opened Wrappers
  import opened Strings
  import opened Seqs
  import opened Model

  predicate IsHyphen(c: char) { c == '-' }

  /** Characters the first replace keeps: `\w`, `\s` and `-`. */
  predicate IsSlugSource(c: char) { IsWordChar(c) || IsSpace(c) || c == '-' }

  /** Characters a normalised slug is made of. */
  predicate IsSlugChar(c: char) { IsLowerAlnum(c) || c == '_' || c == '-' }

  predicate NoDoubleHyphen(s: string) {
    forall i :: 0 <= i < |s| - 1 ==> !(s[i] == '-' && s[i + 1] == '-')
  }

  /** The input with its leading run of `p` characters removed. */
  function DropRun(s: string, p: char -> bool): (r: string)
    ensures |r| <= |s| && r == s[|s| - |r|..]
    ensures forall i :: 0 <= i < |s| - |r| ==> p(s[i])
    ensures |r| > 0 ==> !p(r[0])
    decreases |s|
  {
    if |s| > 0 && p(s[0]) then DropRun(s[1..], p) else s
  }

  /** `s.replace(/P+/g, '-')`: every maximal run of characters satisfying `p`
      becomes a single hyphen; everything else is kept in order. */
  function CollapseRuns(s: string, p: char -> bool): (r: string)
    ensures |s| > 0 && p(s[0]) ==> |r| > 0 && r[0] == '-'
    ensures |s| > 0 && !p(s[0]) ==> |r| > 0 && r[0] == s[0]
    ensures forall i :: 0 <= i < |r| ==> r[i] == '-' || (!p(r[i]) && r[i] in s)
    ensures p('-') ==> NoDoubleHyphen(r)
    decreases |s|
  {
    if |s| == 0 then ""
    else if p(s[0]) then "-" + CollapseRuns(DropRun(s, p), p)
    else [s[0]] + CollapseRuns(s[1..], p)
  }

  /** Text in which every `p` character is an isolated hyphen is left alone. */
  lemma {:induction false} CollapseRunsFixpoint(s: string, p: char -> bool)
    requires forall i :: 0 <= i < |s| && p(s[i]) ==> s[i] == '-' && (i + 1 < |s| ==> !p(s[i + 1]))
    ensures CollapseRuns(s, p) == s
    decreases |s|
  {
    if |s| > 0 {
      CollapseRunsFixpoint(s[1..], p);
      if p(s[0]) {
        assert DropRun(s, p) == s[1..];
      }
      assert s == [s[0]] + s[1..];
    }
  }

  lemma FilterNone(s: string, q: char -> bool)
    requires forall i :: 0 <= i < |s| ==> !q(s[i])
    ensures Filter(s, q) == []
  {
  }

  /** Collapsing runs never adds or drops a character `q` keeps, as long as
      `q` rejects the hyphen and every run character. */
  lemma {:induction false} CollapseRunsKeeps(s: string, p: char -> bool, q: char -> bool)
    requires !q('-')
    requires forall c :: p(c) ==> !q(c)
    ensures Filter(CollapseRuns(s, p), q) == Filter(s, q)
    decreases |s|
  {
    if |s| > 0 {
      if p(s[0]) {
        var d := DropRun(s, p);
        var run := s[..|s| - |d|];
        CollapseRunsKeeps(d, p, q);
        assert s == run + d;
        FilterAppend(run, d, q);
        FilterNone(run, q);
        FilterAppend("-", CollapseRuns(d, p), q);
        FilterNone("-", q);
      } else {
        CollapseRunsKeeps(s[1..], p, q);
        FilterAppend([s[0]], CollapseRuns(s[1..], p), q);
        FilterAppend([s[0]], s[1..], q);
        assert s == [s[0]] + s[1..];
      }
    }
  }

  /** A leading run of `p` characters followed by text that does not start
      with one is dropped entirely. */
  lemma {:induction false} DropRunAll(run: string, b: string, p: char -> bool)
    requires forall i :: 0 <= i < |run| ==> p(run[i])
    requires |b| == 0 || !p(b[0])
    ensures DropRun(run + b, p) == b
    decreases |run|
  {
    if |run| > 0 {
      assert (run + b)[1..] == run[1..] + b;
      DropRunAll(run[1..], b, p);
    } else {
      assert run + b == b;
    }
  }

  /** Inside a run, dropping its first character leaves the collapse alone. */
  lemma {:induction false} RunContinues(s: string, p: char -> bool)
    requires |s| > 1 && p(s[0]) && p(s[1])
    ensures CollapseRuns(s, p) == CollapseRuns(s[1..], p)
  {
    var t := s[1..];
    assert t[0] == s[1];
    assert DropRun(s, p) == DropRun(t, p);
  }

  /** A run of length one becomes a hyphen in front of the rest. */
  lemma {:induction false} RunEnds(s: string, p: char -> bool)
    requires |s| > 0 && p(s[0]) && (|s| == 1 || !p(s[1]))
    ensures CollapseRuns(s, p) == "-" + CollapseRuns(s[1..], p)
  {
    var t := s[1..];
    assert |t| > 0 ==> t[0] == s[1];
    assert DropRun(t, p) == t;
    assert DropRun(s, p) == t;
  }

  /** A character outside every run is kept in front of the rest. */
  lemma {:induction false} KeptHead(s: string, p: char -> bool)
    requires |s| > 0 && !p(s[0])
    ensures CollapseRuns(s, p) == [s[0]] + CollapseRuns(s[1..], p)
  {
  }

  /** The same collapse read one character at a time: a run character
      followed by another is skipped, the last one of a run becomes the
      hyphen. */
  function Collapsed(s: string, p: char -> bool): string
    decreases |s|
  {
    if |s| == 0 then ""
    else if p(s[0]) && |s| > 1 && p(s[1]) then Collapsed(s[1..], p)
    else if p(s[0]) then "-" + Collapsed(s[1..], p)
    else [s[0]] + Collapsed(s[1..], p)
  }

  lemma {:induction false} CollapsedIs(s: string, p: char -> bool)
    ensures CollapseRuns(s, p) == Collapsed(s, p)
    decreases |s|
  {
    if |s| > 0 {
      CollapsedIs(s[1..], p);
      if p(s[0]) && |s| > 1 && p(s[1]) {
        RunContinues(s, p);
      } else if p(s[0]) {
        RunEnds(s, p);
      } else {
        KeptHead(s, p);
      }
    }
  }

  lemma ConcatAssoc(u: string, v: string, w: string)
    ensures u + (v + w) == (u + v) + w
  {
  }

  /** Runs never span a seam that has a non-`p` character on one side, so
      collapsing distributes over such a concatenation. */
  lemma {:induction false} CollapseRunsAppend(a: string, x: string, p: char -> bool)
    requires |a| == 0 || |x| == 0 || !p(a[|a| - 1]) || !p(x[0])
    ensures CollapseRuns(a + x, p) == CollapseRuns(a, p) + CollapseRuns(x, p)
  {
    CollapsedIs(a + x, p);
    CollapsedIs(a, p);
    CollapsedIs(x, p);
    CollapsedAppend(a, x, p);
  }

  lemma {:induction false} CollapsedAppend(a: string, x: string, p: char -> bool)
    requires |a| == 0 || |x| == 0 || !p(a[|a| - 1]) || !p(x[0])
    ensures Collapsed(a + x, p) == Collapsed(a, p) + Collapsed(x, p)
    decreases |a|
  {
    if |a| == 0 {
      assert a + x == x;
    } else if |x| == 0 {
      assert a + x == a;
    } else {
      var t, ax := a[1..], a + x;
      assert ax[0] == a[0] && ax[1..] == t + x;
      assert ax[1] == if |a| > 1 then a[1] else x[0];
      assert |t| > 0 ==> t[|t| - 1] == a[|a| - 1];
      CollapsedAppend(t, x, p);
      var ct, cx := Collapsed(t, p), Collapsed(x, p);
      if p(a[0]) && |a| > 1 && p(a[1]) {
      } else if p(a[0]) {
        assert |a| == 1 ==> t == [];
        ConcatAssoc("-", ct, cx);
      } else {
        ConcatAssoc([a[0]], ct, cx);
      }
    }
  }

  /** A maximal run of `p` characters between two pieces of text becomes one
      hyphen in its place. */
  lemma {:induction false} CollapseRunsSplice(a: string, run: string, b: string, p: char -> bool)
    requires |run| > 0 && forall i :: 0 <= i < |run| ==> p(run[i])
    requires |a| == 0 || !p(a[|a| - 1])
    requires |b| == 0 || !p(b[0])
    ensures CollapseRuns(a + run + b, p) == CollapseRuns(a, p) + "-" + CollapseRuns(b, p)
  {
    var x := run + b;
    assert a + run + b == a + x;
    CollapseRunsAppend(a, x, p);
    CollapseLeadingRun(run, b, p);
    ConcatAssoc(CollapseRuns(a, p), "-", CollapseRuns(b, p));
  }

  lemma {:induction false} CollapseLeadingRun(run: string, b: string, p: char -> bool)
    requires |run| > 0 && forall i :: 0 <= i < |run| ==> p(run[i])
    requires |b| == 0 || !p(b[0])
    ensures CollapseRuns(run + b, p) == "-" + CollapseRuns(b, p)
  {
    assert (run + b)[0] == run[0];
    DropRunAll(run, b, p);
  }

  /** The slug a title normalises to:
      `title.toLowerCase().replace(/[^\w\s-]/g, '').replace(/\s+/g, '-').replace(/-+/g, '-')`. */
  function Normalize(title: string): string {
    CollapseRuns(CollapseRuns(Filter(Lower(title), IsSlugSource), IsSpace), IsHyphen)
  }

  /** A normalised slug is lower-case letters, digits, `_` and single hyphens only. */
  lemma NormalizeShape(title: string)
    ensures forall i :: 0 <= i < |Normalize(title)| ==> IsSlugChar(Normalize(title)[i])
    ensures NoDoubleHyphen(Normalize(title))
  {
    var a := Lower(title);
    var b := Filter(a, IsSlugSource);
    var c := CollapseRuns(b, IsSpace);
    var d := CollapseRuns(c, IsHyphen);
    forall i | 0 <= i < |c| ensures IsSlugChar(c[i]) {
      if c[i] != '-' {
        assert c[i] in b;
        var j :| 0 <= j < |b| && b[j] == c[i];
        assert b[j] in a;
      }
    }
    forall i | 0 <= i < |d| ensures IsSlugChar(d[i]) {
      if d[i] != '-' { assert d[i] in c; }
    }
  }

  /** Normalisation removes punctuation and white space only: the letters,
      digits and underscores of the lower-cased title all survive, in order. */
  lemma NormalizeKeepsWordChars(title: string)
    ensures Filter(Normalize(title), IsWordChar) == Filter(Lower(title), IsWordChar)
  {
    var a := Lower(title);
    var b := Filter(a, IsSlugSource);
    var c := CollapseRuns(b, IsSpace);
    CollapseRunsKeeps(c, IsHyphen, IsWordChar);
    CollapseRunsKeeps(b, IsSpace, IsWordChar);
    FilterOfFilter(a, IsSlugSource, IsWordChar);
  }

  lemma {:induction false} FilterOfFilter(s: string, p: char -> bool, q: char -> bool)
    requires forall c :: q(c) ==> p(c)
    ensures Filter(Filter(s, p), q) == Filter(s, q)
    decreases |s|
  {
    if |s| > 0 {
      FilterOfFilter(s[1..], p, q);
      if p(s[0]) {
        FilterAppend([s[0]], Filter(s[1..], p), q);
        assert [s[0]] + Filter(s[1..], p) == Filter(s, p);
      }
      FilterAppend([s[0]], s[1..], q);
      assert s == [s[0]] + s[1..];
    }
  }

  /** Word characters of a slug: lower-case letters, digits and `_`. */
  predicate IsSlugWordChar(c: char) { IsLowerAlnum(c) || c == '_' }

  /** A separator of white space and hyphens between two lower-case words
      becomes a single hyphen: `"my  - post"` normalises to `"my-post"`. */
  lemma {:induction false} NormalizeHyphenates(w1: string, sep: string, w2: string)
    requires forall i :: 0 <= i < |w1| ==> IsSlugWordChar(w1[i])
    requires forall i :: 0 <= i < |w2| ==> IsSlugWordChar(w2[i])
    requires |sep| > 0 && forall i :: 0 <= i < |sep| ==> IsSpace(sep[i]) || sep[i] == '-'
    ensures Normalize(w1 + sep + w2) == w1 + "-" + w2
  {
    var s := w1 + sep + w2;
    ThreePartsPass(w1, sep, w2);
    var b := Filter(Lower(s), IsSlugSource);
    assert b == s;
    SpacesCollapse(w1, sep, w2);
    var h := CollapseRuns(sep, IsSpace);
    assert CollapseRuns(b, IsSpace) == w1 + h + w2;
    SeparatorBecomesHyphens(sep);
    HyphensCollapse(w1, h, w2);
  }

  /** A run of hyphens between slug words becomes a single hyphen. */
  lemma {:induction false} HyphensCollapse(w1: string, h: string, w2: string)
    requires forall i :: 0 <= i < |w1| ==> IsSlugWordChar(w1[i])
    requires forall i :: 0 <= i < |w2| ==> IsSlugWordChar(w2[i])
    requires |h| > 0 && forall i :: 0 <= i < |h| ==> h[i] == '-'
    ensures CollapseRuns(w1 + h + w2, IsHyphen) == w1 + "-" + w2
  {
    WordsAreFixed(w1);
    WordsAreFixed(w2);
    assert |w1| == 0 || !IsHyphen(w1[|w1| - 1]);
    assert |w2| == 0 || !IsHyphen(w2[0]);
    CollapseRunsSplice(w1, h, w2, IsHyphen);
  }

  /** The white-space collapse acts on the separator alone. */
  lemma {:induction false} SpacesCollapse(w1: string, sep: string, w2: string)
    requires forall i :: 0 <= i < |w1| ==> IsSlugWordChar(w1[i])
    requires forall i :: 0 <= i < |w2| ==> IsSlugWordChar(w2[i])
    ensures CollapseRuns(w1 + sep + w2, IsSpace) == w1 + CollapseRuns(sep, IsSpace) + w2
  {
    WordsAreFixed(w1);
    WordsAreFixed(w2);
    assert |w1| == 0 || !IsSpace(w1[|w1| - 1]);
    assert |w2| == 0 || !IsSpace(w2[0]);
    CollapseRunsAppend(w1 + sep, w2, IsSpace);
    CollapseRunsAppend(w1, sep, IsSpace);
  }

  /** Slug words around a separator of white space, hyphens or nothing at all
      pass the lower-casing and the character filter unchanged. */
  lemma {:induction false} ThreePartsPass(w1: string, sep: string, w2: string)
    requires forall i :: 0 <= i < |w1| ==> IsSlugWordChar(w1[i])
    requires forall i :: 0 <= i < |w2| ==> IsSlugWordChar(w2[i])
    requires forall i :: 0 <= i < |sep| ==> IsSpace(sep[i]) || sep[i] == '-'
    ensures Lower(w1 + sep + w2) == w1 + sep + w2
    ensures Filter(w1 + sep + w2, IsSlugSource) == w1 + sep + w2
  {
    var s := w1 + sep + w2;
    forall i | 0 <= i < |s| ensures !IsUpper(s[i]) && IsSlugSource(s[i]) {
      if i < |w1| { assert s[i] == w1[i]; }
      else if i < |w1| + |sep| { assert s[i] == sep[i - |w1|]; }
      else { assert s[i] == w2[i - |w1| - |sep|]; }
    }
    LowerOfLowercase(s);
    FilterLength(s, IsSlugSource);
  }

  /** A non-empty separator of white space and hyphens collapses to hyphens only. */
  lemma {:induction false} SeparatorBecomesHyphens(sep: string)
    requires |sep| > 0 && forall i :: 0 <= i < |sep| ==> IsSpace(sep[i]) || sep[i] == '-'
    ensures var h := CollapseRuns(sep, IsSpace);
            |h| > 0 && forall i :: 0 <= i < |h| ==> h[i] == '-'
  {
    assert forall c :: c in sep ==> IsSpace(c) || c == '-';
  }

  /** Slug words pass both run collapses unchanged. */
  lemma {:induction false} WordsAreFixed(w: string)
    requires forall i :: 0 <= i < |w| ==> IsSlugWordChar(w[i])
    ensures CollapseRuns(w, IsSpace) == w && CollapseRuns(w, IsHyphen) == w
  {
    CollapseRunsFixpoint(w, IsSpace);
    CollapseRunsFixpoint(w, IsHyphen);
  }

  /** Punctuation between two lower-case words is deleted, not hyphenated:
      `"don't"` normalises to `"dont"`. */
  lemma {:induction false} NormalizeDropsPunctuation(w1: string, q: string, w2: string)
    requires forall i :: 0 <= i < |w1| ==> IsSlugWordChar(w1[i])
    requires forall i :: 0 <= i < |w2| ==> IsSlugWordChar(w2[i])
    requires forall i :: 0 <= i < |q| ==> !IsSlugSource(q[i]) && !IsUpper(q[i])
    ensures Normalize(w1 + q + w2) == w1 + w2
  {
    var s := w1 + q + w2;
    PunctuationIsFiltered(w1, q, w2);
    var t := w1 + w2;
    forall i | 0 <= i < |t| ensures IsSlugWordChar(t[i]) {
      if i < |w1| { assert t[i] == w1[i]; } else { assert t[i] == w2[i - |w1|]; }
    }
    WordsAreFixed(t);
  }

  lemma {:induction false} PunctuationIsFiltered(w1: string, q: string, w2: string)
    requires forall i :: 0 <= i < |w1| ==> IsSlugWordChar(w1[i])
    requires forall i :: 0 <= i < |w2| ==> IsSlugWordChar(w2[i])
    requires forall i :: 0 <= i < |q| ==> !IsSlugSource(q[i]) && !IsUpper(q[i])
    ensures Filter(Lower(w1 + q + w2), IsSlugSource) == w1 + w2
  {
    var s := w1 + q + w2;
    forall i | 0 <= i < |s| ensures !IsUpper(s[i]) {
      if i < |w1| { assert s[i] == w1[i]; }
      else if i < |w1| + |q| { assert s[i] == q[i - |w1|]; }
      else { assert s[i] == w2[i - |w1| - |q|]; }
    }
    LowerOfLowercase(s);
    FilterThree(w1, q, w2);
  }

  lemma {:induction false} FilterThree(w1: string, q: string, w2: string)
    requires forall i :: 0 <= i < |w1| ==> IsSlugWordChar(w1[i])
    requires forall i :: 0 <= i < |w2| ==> IsSlugWordChar(w2[i])
    requires forall i :: 0 <= i < |q| ==> !IsSlugSource(q[i])
    ensures Filter(w1 + q + w2, IsSlugSource) == w1 + w2
  {
    assert w1 + q + w2 == w1 + (q + w2);
    FilterAppend(w1, q + w2, IsSlugSource);
    FilterAppend(q, w2, IsSlugSource);
    FilterNone(q, IsSlugSource);
    FilterLength(w1, IsSlugSource);
    FilterLength(w2, IsSlugSource);
    assert [] + w2 == w2;
  }

  /** Normalising a slug twice changes nothing, so a stored slug fed back
      through `generateUniqueSlug` keeps its base. */
  lemma NormalizeIdempotent(title: string)
    ensures Normalize(Normalize(title)) == Normalize(title)
  {
    NormalizeShape(title);
    NormalizedIsFixpoint(Normalize(title));
  }

  lemma NormalizedIsFixpoint(n: string)
    requires forall i :: 0 <= i < |n| ==> IsSlugChar(n[i])
    requires NoDoubleHyphen(n)
    ensures Normalize(n) == n
  {
    SlugTextStages(n);
    CollapseRunsFixpoint(n, IsHyphen);
  }

  /** Slug text passes the lower-casing, the filter and the white-space
      collapse unchanged. */
  lemma SlugTextStages(n: string)
    requires forall i :: 0 <= i < |n| ==> IsSlugChar(n[i])
    ensures Lower(n) == n && Filter(n, IsSlugSource) == n && CollapseRuns(n, IsSpace) == n
  {
    assert HasNoUpper(n) by {
      forall i | 0 <= i < |n| ensures !IsUpper(n[i]) { assert IsSlugChar(n[i]); }
    }
    LowerOfLowercase(n);
    forall j | 0 <= j < |n| ensures IsSlugSource(n[j]) && !IsSpace(n[j]) { assert IsSlugChar(n[j]); }
    FilterLength(n, IsSlugSource);
    CollapseRunsFixpoint(n, IsSpace);
  }

  // --- unique slug search ---

  /** `c` blocks `slug` for a new item of type `kind` whose own id is `excludeId`. */
  predicate Collides(c: Content, kind: ContentType, excludeId: Option<string>, slug: string) {
    c.slug == slug && (excludeId.None? || c.id != excludeId.value) && c.kind == kind
  }

  predicate Taken(items: seq<Content>, kind: ContentType, excludeId: Option<string>, slug: string) {
    exists i :: 0 <= i < |items| && Collides(items[i], kind, excludeId, slug)
  }

  /** The k-th slug tried: the base itself, then `base-1`, `base-2`, ... */
  function Candidate(base: string, k: nat): string {
    if k == 0 then base else base + "-" + NatToString(k)
  }

  /** Which candidate of `base` a slug is, if any. */
  function CandidateIndex(base: string, s: string): Option<nat> {
    if s == base then Some(0)
    else if |s| > |base| + 1 && s[..|base| + 1] == base + "-" then
      var digits := s[|base| + 1..];
      var n := ParseNat(digits);
      if n >= 1 && NatToString(n) == digits then Some(n) else None
    else None
  }

  lemma CandidateIndexOf(base: string, k: nat)
    ensures CandidateIndex(base, Candidate(base, k)) == Some(k)
  {
    if k > 0 {
      var s := Candidate(base, k);
      assert s[..|base| + 1] == base + "-";
      assert s[|base| + 1..] == NatToString(k);
      ParseNatToString(k);
    }
  }

  /** Items of the right type, not excluded, whose slug is candidate `k` or a later one. */
  ghost function Remaining(items: seq<Content>, kind: ContentType, excludeId: Option<string>, base: string, k: nat): nat
    decreases |items|
  {
    if |items| == 0 then 0
    else
      var c := items[0];
      var ix := CandidateIndex(base, c.slug);
      (if Collides(c, kind, excludeId, c.slug) && ix.Some? && ix.value >= k then 1 else 0)
      + Remaining(items[1..], kind, excludeId, base, k)
  }

  lemma {:induction false} RemainingDecreases(items: seq<Content>, kind: ContentType, excludeId: Option<string>, base: string, k: nat)
    ensures Remaining(items, kind, excludeId, base, k + 1) <= Remaining(items, kind, excludeId, base, k)
    ensures Taken(items, kind, excludeId, Candidate(base, k)) ==>
              Remaining(items, kind, excludeId, base, k + 1) < Remaining(items, kind, excludeId, base, k)
    decreases |items|
  {
    if |items| > 0 {
      RemainingDecreases(items[1..], kind, excludeId, base, k);
      if Taken(items, kind, excludeId, Candidate(base, k)) {
        var i :| 0 <= i < |items| && Collides(items[i], kind, excludeId, Candidate(base, k));
        if i == 0 {
          CandidateIndexOf(base, k);
        } else {
          assert Collides(items[1..][i - 1], kind, excludeId, Candidate(base, k));
        }
      }
    }
  }

  /** The first candidate from the k-th on that nothing blocks. */
  function FirstFree(items: seq<Content>, kind: ContentType, excludeId: Option<string>, base: string, k: nat): (r: string)
    ensures !Taken(items, kind, excludeId, r)
    ensures exists j: nat :: k <= j && r == Candidate(base, j)
              && forall m :: k <= m < j ==> Taken(items, kind, excludeId, Candidate(base, m))
    decreases Remaining(items, kind, excludeId, base, k)
  {
    if !Taken(items, kind, excludeId, Candidate(base, k)) then Candidate(base, k)
    else
      RemainingDecreases(items, kind, excludeId, base, k);
      var r := FirstFree(items, kind, excludeId, base, k + 1);
      var j: nat :| k + 1 <= j && r == Candidate(base, j)
                    && forall m :: k + 1 <= m < j ==> Taken(items, kind, excludeId, Candidate(base, m));
      assert forall m :: k <= m < j ==> Taken(items, kind, excludeId, Candidate(base, m));
      r
  }

  /** `generateUniqueSlug(title, type, excludeId)` over the store's current contents. */
  function UniqueSlug(items: seq<Content>, title: string, kind: ContentType, excludeId: Option<string>): (r: string)
    ensures !Taken(items, kind, excludeId, r)
    ensures r == Normalize(title) || exists k :: 1 <= k && r == Normalize(title) + "-" + NatToString(k)
    ensures exists j: nat :: r == Candidate(Normalize(title), j)
              && forall m :: 0 <= m < j ==> Taken(items, kind, excludeId, Candidate(Normalize(title), m))
  {
    var r := FirstFree(items, kind, excludeId, Normalize(title), 0);
    var j: nat :| r == Candidate(Normalize(title), j);
    assert j > 0 ==> r == Normalize(title) + "-" + NatToString(j);
    r
  }

  /** Two searches that see the same candidates blocked find the same slug. */
  lemma FirstFreeDeterminedByTaken(a: seq<Content>, b: seq<Content>, kind: ContentType, excludeId: Option<string>, base: string)
    requires forall j :: Taken(a, kind, excludeId, Candidate(base, j)) <==> Taken(b, kind, excludeId, Candidate(base, j))
    ensures FirstFree(a, kind, excludeId, base, 0) == FirstFree(b, kind, excludeId, base, 0)
  {
    var ra := FirstFree(a, kind, excludeId, base, 0);
    var rb := FirstFree(b, kind, excludeId, base, 0);
    var ja: nat :| ra == Candidate(base, ja) && forall m :: 0 <= m < ja ==> Taken(a, kind, excludeId, Candidate(base, m));
    var jb: nat :| rb == Candidate(base, jb) && forall m :: 0 <= m < jb ==> Taken(b, kind, excludeId, Candidate(base, m));
  }

  /** Items of the other content type, and the item being saved itself, never
      influence the slug chosen. */
  lemma UniqueSlugIgnores(items: seq<Content>, c: Content, title: string, kind: ContentType, excludeId: Option<string>)
    requires c.kind != kind || (excludeId.Some? && c.id == excludeId.value)
    ensures UniqueSlug(items + [c], title, kind, excludeId) == UniqueSlug(items, title, kind, excludeId)
  {
    var base := Normalize(title);
    forall j ensures Taken(items + [c], kind, excludeId, Candidate(base, j)) <==> Taken(items, kind, excludeId, Candidate(base, j)) {
      if Taken(items + [c], kind, excludeId, Candidate(base, j)) {
        var i :| 0 <= i < |items| + 1 && Collides((items + [c])[i], kind, excludeId, Candidate(base, j));
        assert i < |items| && Collides(items[i], kind, excludeId, Candidate(base, j));
      }
      if Taken(items, kind, excludeId, Candidate(base, j)) {
        var i :| 0 <= i < |items| && Collides(items[i], kind, excludeId, Candidate(base, j));
        assert (items + [c])[i] == items[i];
      }
    }
    FirstFreeDeterminedByTaken(items + [c], items, kind, excludeId, base);
  }
}

=== FILE: sorting.dfy ===
/** The newest-first ordering of the contents listing: a stable sort by a
    numeric date, descending (`sort((a, b) => date(b) - date(a))`). */
module Sorting {

  predicate SortedDesc<T>(s: seq<T>, date: T -> int) {
    forall i, j :: 0 <= i < j < |s| ==> date(s[i]) >= date(s[j])
  }

  /** Place `x` before the first element that is not newer than it, so that it
      stays ahead of elements with the same date that came after it. */
  function Insert<T>(x: T, s: seq<T>, date: T -> int): (r: seq<T>)
    ensures |r| == |s| + 1
    ensures multiset(r) == multiset(s) + multiset{x}
    ensures SortedDesc(s, date) ==> SortedDesc(r, date)
    decreases |s|
  {
    if |s| == 0 then [x]
    else if date(s[0]) <= date(x) then [x] + s
    else
      var t := Insert(x, s[1..], date);
      assert s == [s[0]] + s[1..];
      var r := [s[0]] + t;
      assert SortedDesc(s, date) ==> SortedDesc(r, date) by {
        if SortedDesc(s, date) {
          forall j | 0 < j < |r| ensures date(r[0]) >= date(r[j]) {
            assert r[j] in multiset(t);
            assert r[j] == x || r[j] in multiset(s[1..]);
            if r[j] != x {
              var k :| 0 <= k < |s[1..]| && s[1..][k] == r[j];
              assert s[k + 1] == r[j];
            }
          }
        }
      }
      r
  }

  /** Insertion sort, newest first; elements with equal dates keep their order. */
  function SortDesc<T>(s: seq<T>, date: T -> int): (r: seq<T>)
    ensures |r| == |s|
    ensures multiset(r) == multiset(s)
    ensures SortedDesc(r, date)
    decreases |s|
  {
    if |s| == 0 then []
    else
      assert s == [s[0]] + s[1..];
      Insert(s[0], SortDesc(s[1..], date), date)
  }

  lemma SortedTail<T>(s: seq<T>, date: T -> int)
    requires |s| > 0 && SortedDesc(s, date)
    ensures SortedDesc(s[1..], date)
  {
    var t := s[1..];
    forall i, j | 0 <= i < j < |t| ensures date(t[i]) >= date(t[j]) {
      assert t[i] == s[i + 1] && t[j] == s[j + 1];
    }
  }

  /** Sorting a list that is already newest-first returns it unchanged, ties
      included: the sort is stable on sorted input. */
  lemma {:induction false} SortDescOfSorted<T>(s: seq<T>, date: T -> int)
    requires SortedDesc(s, date)
    ensures SortDesc(s, date) == s
    decreases |s|
  {
    if |s| > 0 {
      var t := s[1..];
      SortedTail(s, date);
      SortDescOfSorted(t, date);
      assert SortDesc(s, date) == Insert(s[0], t, date);
      assert s == [s[0]] + t;
      if |t| > 0 {
        assert t[0] == s[1];
        assert date(t[0]) <= date(s[0]);
        assert Insert(s[0], t, date) == [s[0]] + t;
      }
    }
  }
}

=== FILE: store.dfy ===
/** The tenant-scoped store (src/services/store.service.ts): the active tenant's
    data, its persistence in a key-value storage (the browser's `localStorage`),
    the tenant registry and the session. Every operation is a function from the
    store before to the store after. */
module Store {
  import opened Wrappers
  import opened Strings
  import opened Json
  import opened Model
  import opened Keyed

  // --- storage layout ---

  const StoragePrefix: string := "verbai_data_v1_"
  const SessionKey: string := "verbai_session_v1"
  const TenantsKey: string := "verbai_global_tenants"
  const AgencyTenantId: string := "verbai-agency"

  /** The four independently persisted slices of a tenant's data. */
  datatype Segment = SettingsSeg | ContentsSeg | LeadsSeg | TermsSeg {
    function Name(): string {
      match this
      case SettingsSeg => "settings"
      case ContentsSeg => "contents"
      case LeadsSeg => "leads"
      case TermsSeg => "terms"
    }
  }

  /** `verbai_data_v1_<tenantId>_<segment>` */
  function Key(tenantId: string, seg: Segment): string {
    StoragePrefix + tenantId + "_" + seg.Name()
  }

  /** The settings bundle; `siteConfig` may be missing from older records. */
  datatype Settings = Settings(brandKit: BrandConfig, pageSeo: PageSeo, sections: seq<Section>, siteConfig: Option<SiteConfig>)

  /** A stored value, already decoded (JSON text is treated as its value).
      `EmptyText` is the empty string, which the loader treats as absent;
      `Unparsable` is text that `JSON.parse` rejects. */
  datatype Blob =
    | SettingsBlob(settings: Settings)
    | ContentsBlob(contents: seq<Content>)
    | LeadsBlob(leads: seq<Lead>)
    | TermsBlob(terms: seq<Term>)
    | TenantsBlob(tenants: seq<Tenant>)
    | UserBlob(user: User)
    | EmptyText
    | Unparsable

  type Storage = map<string, Blob>

  /** The active tenant's in-memory state (the store's signals). */
  datatype TenantData = TenantData(
    brandKit: BrandConfig,
    pageSeo: PageSeo,
    sections: seq<Section>,
    siteConfig: SiteConfig,
    contents: seq<Content>,
    leads: seq<Lead>,
    terms: seq<Term>)

  datatype Store = Store(
    storage: Storage,
    tenants: seq<Tenant>,
    selectedTenantId: string,
    data: TenantData,
    currentUser: Option<User>)

  /** `localStorage.getItem(key)` as a truthiness test sees it: missing and
      empty values are both absent. */
  function Read(storage: Storage, key: string): (r: Option<Blob>)
    ensures r.Some? <==> key in storage && storage[key] != EmptyText
    ensures r.Some? ==> r.value == storage[key]
  {
    if key in storage && storage[key] != EmptyText then Some(storage[key]) else None
  }

  lemma SegmentNamesHaveNoUnderscore(g: Segment)
    ensures !Contains(g.Name(), '_')
    ensures 5 <= |g.Name()|
  {
  }

  /** No two (tenant, segment) pairs share a storage key, so one tenant's
      writes can never land on another tenant's data. */
  lemma KeyInjective(t1: string, g1: Segment, t2: string, g2: Segment)
    requires Key(t1, g1) == Key(t2, g2)
    ensures t1 == t2 && g1 == g2
  {
    SegmentNamesHaveNoUnderscore(g1);
    SegmentNamesHaveNoUnderscore(g2);
    SplitAtLast(StoragePrefix, t1, g1.Name(), t2, g2.Name(), '_');
  }

  /** The four segment keys of one tenant are pairwise distinct. */
  lemma FourKeysDistinct(t: string)
    ensures Key(t, SettingsSeg) != Key(t, ContentsSeg) && Key(t, SettingsSeg) != Key(t, LeadsSeg)
            && Key(t, SettingsSeg) != Key(t, TermsSeg) && Key(t, ContentsSeg) != Key(t, LeadsSeg)
            && Key(t, ContentsSeg) != Key(t, TermsSeg) && Key(t, LeadsSeg) != Key(t, TermsSeg)
  {
    var i := |StoragePrefix| + |t| + 1;
    assert Key(t, SettingsSeg)[i] == 's' && Key(t, ContentsSeg)[i] == 'c';
    assert Key(t, LeadsSeg)[i] == 'l' && Key(t, TermsSeg)[i] == 't';
  }

  /** Tenant data keys never collide with the session key or the tenant-list key. */
  lemma KeyIsNotGlobal(t: string, g: Segment)
    ensures Key(t, g) != SessionKey && Key(t, g) != TenantsKey
  {
    assert Key(t, g)[7] == 'd';
    assert SessionKey[7] == 's' && TenantsKey[7] == 'g';
  }

  predicate IsTenantKey(tenantId: string, k: string) {
    k == Key(tenantId, SettingsSeg) || k == Key(tenantId, ContentsSeg)
    || k == Key(tenantId, LeadsSeg) || k == Key(tenantId, TermsSeg)
  }

  // --- defaults ---

  const HeroImage: string := "https://images.unsplash.com/photo-1497366216548-37526070297c?q=80&w=2301&auto=format&fit=crop"
  const DeepWebImage: string := "https://images.unsplash.com/photo-1550751827-4bd374c3f58b?q=80&w=2670&auto=format&fit=crop"
  const DeepAiImage: string := "https://images.unsplash.com/photo-1635070041078-e363dbe005cb?q=80&w=2670&auto=format&fit=crop"
  const RobotsTxt: string := "User-agent: *\nDisallow:"

  function AgencyBrand(): BrandConfig {
    BrandConfig("#5E6AD2", "#E9E9EB", "Inter", "Inter", "Technical", Some(""), Some(""))
  }

  function ClientBrand(): BrandConfig {
    BrandConfig("#0F172A", "#22C55E", "Inter", "Inter", "Professional", Some(""), Some(""))
  }

  function AgencySiteConfig(): SiteConfig {
    SiteConfig(
      Header("VerbAI", [SiteLink("Metodologia", "/about"), SiteLink("Pre\U{00E7}os", "/pricing")]),
      Footer("\U{00A9} 2024 VerbAI Inc.", []),
      RobotsTxt)
  }

  /** The new-client site configuration; the footer shows the current year. */
  function ClientSiteConfig(year: nat): SiteConfig {
    SiteConfig(Header("My Business", []), Footer("\U{00A9} " + NatToString(year), []), RobotsTxt)
  }

  function AgencySections(): seq<Section> {
    [ Section("hero", Hero, "Hero", map[], true),
      Section("deep-web", DeepDive, "Deep Web",
              map["image" := Str(DeepWebImage)], true),
      Section("deep-ai", DeepDive, "Deep AI",
              map["image" := Str(DeepAiImage)], true),
      Section("features", Features, "Features", map["items" := Arr([])], true),
      Section("cta", Cta, "CTA", map[], true) ]
  }

  function ClientSections(): seq<Section> {
    [ Section("hero", Hero, "Hero",
              map["headline_1" := Str("Welcome"), "headline_2" := Str("Our Website"),
                  "desc" := Str("We provide excellent services."), "ctaText" := Str("Learn More"),
                  "image" := Str(HeroImage)], true),
      Section("features", Features, "Services", map["items" := Arr([])], true),
      Section("cta", Cta, "Contact",
              map["title" := Str("Contact Us"), "text" := Str("Get in touch."), "buttonLabel" := Str("Contact")], true) ]
  }

  /** The store's signals before anything is loaded. */
  function InitialData(): TenantData {
    TenantData(
      BrandConfig("#5E6AD2", "#E9E9EB", "Inter", "Inter", "Professional", Some(""), Some("")),
      PageSeo("Home", "Welcome", "web", None),
      [],
      SiteConfig(Header("Agency", []), Footer("\U{00A9} 2024", []), RobotsTxt),
      [], [], [])
  }

  function AgencyTenant(): Tenant {
    Tenant(AgencyTenantId, "VerbAI Agency", "verbai.com", None, Some(Enterprise), Some(Active))
  }

  // --- persistence ---

  function SettingsOf(d: TenantData): Settings {
    Settings(d.brandKit, d.pageSeo, d.sections, Some(d.siteConfig))
  }

  /** `saveCurrentTenantData`: writes all four segments of the selected tenant. */
  function SaveCurrentTenantData(s: Store): (r: Store)
    ensures r == s.(storage := r.storage)
    ensures var t := s.selectedTenantId;
            && Key(t, SettingsSeg) in r.storage && Key(t, ContentsSeg) in r.storage
            && Key(t, LeadsSeg) in r.storage && Key(t, TermsSeg) in r.storage
            && r.storage[Key(t, SettingsSeg)] == SettingsBlob(SettingsOf(s.data))
            && r.storage[Key(t, ContentsSeg)] == ContentsBlob(s.data.contents)
            && r.storage[Key(t, LeadsSeg)] == LeadsBlob(s.data.leads)
            && r.storage[Key(t, TermsSeg)] == TermsBlob(s.data.terms)
    ensures forall k :: !IsTenantKey(s.selectedTenantId, k) ==>
              (k in r.storage <==> k in s.storage) && (k in s.storage ==> r.storage[k] == s.storage[k])
  {
    var t := s.selectedTenantId;
    var k1, k2, k3, k4 := Key(t, SettingsSeg), Key(t, ContentsSeg), Key(t, LeadsSeg), Key(t, TermsSeg);
    FourKeysDistinct(t);
    s.(storage := s.storage[k1 := SettingsBlob(SettingsOf(s.data))][k2 := ContentsBlob(s.data.contents)]
                           [k3 := LeadsBlob(s.data.leads)][k4 := TermsBlob(s.data.terms)])
  }

  /** Saving the active tenant leaves every other tenant's stored segments, the
      session and the tenant list exactly as they were. */
  lemma SaveIsolatesTenants(s: Store, other: string, g: Segment)
    requires other != s.selectedTenantId
    ensures var k := Key(other, g);
            var r := SaveCurrentTenantData(s);
            (k in r.storage <==> k in s.storage) && (k in s.storage ==> r.storage[k] == s.storage[k])
    ensures SessionKey in SaveCurrentTenantData(s).storage <==> SessionKey in s.storage
    ensures TenantsKey in SaveCurrentTenantData(s).storage <==> TenantsKey in s.storage
  {
    var t := s.selectedTenantId;
    forall h: Segment ensures Key(other, g) != Key(t, h) {
      if Key(other, g) == Key(t, h) { KeyInjective(other, g, t, h); }
    }
    forall h: Segment ensures SessionKey != Key(t, h) && TenantsKey != Key(t, h) {
      KeyIsNotGlobal(t, h);
    }
  }

  /** A mutation followed by its write-through (every store action ends in
      `saveCurrentTenantData`). */
  function Commit(s: Store, d: TenantData): Store {
    SaveCurrentTenantData(s.(data := d))
  }

  // --- loading ---

  /** Outcome of `loadTenantData`: either it completes, or `JSON.parse` throws
      on the value under `key`, leaving the state reached so far. */
  datatype Loaded = Loaded(store: Store) | Threw(store: Store, key: string)

  function InitializeAgencyDefaults(s: Store): Store {
    SaveCurrentTenantData(s.(data := s.data.(brandKit := AgencyBrand(), siteConfig := AgencySiteConfig(),
                                              sections := AgencySections())))
  }

  function InitializeNewClientDefaults(s: Store, year: nat): Store {
    SaveCurrentTenantData(s.(data := s.data.(brandKit := ClientBrand(), siteConfig := ClientSiteConfig(year),
                                              sections := ClientSections())))
  }

  /** Only the in-memory data and the storage change while loading. */
  predicate SameSession(a: Store, b: Store) {
    a.selectedTenantId == b.selectedTenantId && a.tenants == b.tenants && a.currentUser == b.currentUser
  }

  /** Saving twice writes the same values again. */
  lemma SaveIdempotent(s: Store)
    ensures SaveCurrentTenantData(SaveCurrentTenantData(s)) == SaveCurrentTenantData(s)
  {
    var r := SaveCurrentTenantData(s);
    var rr := SaveCurrentTenantData(r);
    assert rr.storage == r.storage;
  }

  /** The settings step of `loadTenantData`: apply stored settings, or
      bootstrap defaults (which persists the whole current state at once). */
  function ApplySettings(s: Store, tenantId: string, year: nat): (r: Loaded)
    ensures SameSession(r.store, s)
    ensures r.store.data.contents == s.data.contents && r.store.data.leads == s.data.leads
            && r.store.data.terms == s.data.terms
    ensures var v := Read(s.storage, Key(tenantId, SettingsSeg));
            && (r.Threw? <==> v.Some? && !v.value.SettingsBlob?)
            && (r.Threw? ==> r.key == Key(tenantId, SettingsSeg) && r.store == s)
            && (v.Some? ==> r.store.storage == s.storage)
            && (v.Some? && v.value.SettingsBlob? ==>
                  && r.store.data.sections == v.value.settings.sections && r.store.data.pageSeo == v.value.settings.pageSeo
                  && r.store.data.brandKit == v.value.settings.brandKit
                  && r.store.data.siteConfig == v.value.settings.siteConfig.GetOr(s.data.siteConfig))
            && (v.None? ==> r.store == SaveCurrentTenantData(r.store))
    ensures Read(s.storage, Key(tenantId, SettingsSeg)).None? ==> r.store.data.pageSeo == s.data.pageSeo
    ensures Read(s.storage, Key(tenantId, SettingsSeg)).None? ==>
              if tenantId == AgencyTenantId then
                && r.store.data.brandKit == AgencyBrand() && r.store.data.siteConfig == AgencySiteConfig()
                && r.store.data.sections == AgencySections()
              else
                && r.store.data.brandKit == ClientBrand() && r.store.data.siteConfig == ClientSiteConfig(year)
                && r.store.data.sections == ClientSections()
  {
    var key := Key(tenantId, SettingsSeg);
    match Read(s.storage, key)
    case None =>
      var r := if tenantId == AgencyTenantId then InitializeAgencyDefaults(s) else InitializeNewClientDefaults(s, year);
      SaveIdempotent(r.(storage := s.storage));
      Loaded(r)
    case Some(SettingsBlob(st)) =>
      Loaded(s.(data := s.data.(brandKit := st.brandKit, pageSeo := st.pageSeo, sections := st.sections,
                                siteConfig := st.siteConfig.GetOr(s.data.siteConfig))))
    case Some(_) => Threw(s, key)
  }

  /** The contents step: stored contents, or `[]` when absent. */
  function LoadContents(s: Store, tenantId: string): (r: Loaded)
    ensures SameSession(r.store, s) && r.store.storage == s.storage
    ensures r.store.data == s.data.(contents := r.store.data.contents)
    ensures var v := Read(s.storage, Key(tenantId, ContentsSeg));
            && (r.Threw? <==> v.Some? && !v.value.ContentsBlob?)
            && (r.Threw? ==> r.key == Key(tenantId, ContentsSeg) && r.store == s)
            && (v.None? ==> r.store.data.contents == [])
            && (v.Some? && v.value.ContentsBlob? ==> r.store.data.contents == v.value.contents)
  {
    var key := Key(tenantId, ContentsSeg);
    match Read(s.storage, key)
    case None => Loaded(s.(data := s.data.(contents := [])))
    case Some(ContentsBlob(c)) => Loaded(s.(data := s.data.(contents := c)))
    case Some(_) => Threw(s, key)
  }

  /** The leads step: stored leads, or `[]` when absent. */
  function LoadLeads(s: Store, tenantId: string): (r: Loaded)
    ensures SameSession(r.store, s) && r.store.storage == s.storage
    ensures r.store.data == s.data.(leads := r.store.data.leads)
    ensures var v := Read(s.storage, Key(tenantId, LeadsSeg));
            && (r.Threw? <==> v.Some? && !v.value.LeadsBlob?)
            && (r.Threw? ==> r.key == Key(tenantId, LeadsSeg) && r.store == s)
            && (v.None? ==> r.store.data.leads == [])
            && (v.Some? && v.value.LeadsBlob? ==> r.store.data.leads == v.value.leads)
  {
    var key := Key(tenantId, LeadsSeg);
    match Read(s.storage, key)
    case None => Loaded(s.(data := s.data.(leads := [])))
    case Some(LeadsBlob(l)) => Loaded(s.(data := s.data.(leads := l)))
    case Some(_) => Threw(s, key)
  }

  /** The terms step: stored terms, or `[]` when absent. */
  function LoadTerms(s: Store, tenantId: string): (r: Loaded)
    ensures SameSession(r.store, s) && r.store.storage == s.storage
    ensures r.store.data == s.data.(terms := r.store.data.terms)
    ensures var v := Read(s.storage, Key(tenantId, TermsSeg));
            && (r.Threw? <==> v.Some? && !v.value.TermsBlob?)
            && (r.Threw? ==> r.key == Key(tenantId, TermsSeg) && r.store == s)
            && (v.None? ==> r.store.data.terms == [])
            && (v.Some? && v.value.TermsBlob? ==> r.store.data.terms == v.value.terms)
  {
    var key := Key(tenantId, TermsSeg);
    match Read(s.storage, key)
    case None => Loaded(s.(data := s.data.(terms := [])))
    case Some(TermsBlob(t)) => Loaded(s.(data := s.data.(terms := t)))
    case Some(_) => Threw(s, key)
  }

  /** `loadTenantData(tenantId)` exactly as written: settings (or bootstrap
      defaults, persisted at once), then contents, leads and terms, an absent
      segment loading as empty. Malformed text is not caught: the load stops
      at the first segment whose value is not of its kind. */
  function LoadTenantData(s: Store, tenantId: string, year: nat): (r: Loaded)
    ensures SameSession(r.store, s)
    ensures r.Threw? ==> IsTenantKey(tenantId, r.key) && Read(r.store.storage, r.key).Some?
    ensures Read(s.storage, Key(tenantId, SettingsSeg)).Some? ==> r.store.storage == s.storage
  {
    var a := ApplySettings(s, tenantId, year);
    if a.Threw? then a
    else
      var b := LoadContents(a.store, tenantId);
      if b.Threw? then b
      else
        var c := LoadLeads(b.store, tenantId);
        if c.Threw? then c else LoadTerms(c.store, tenantId)
  }

  /** Saving the active tenant and loading it back restores exactly the same
      store, storage included. */
  lemma SaveLoadRoundTrip(s: Store, year: nat)
    ensures var saved := SaveCurrentTenantData(s);
            LoadTenantData(saved, s.selectedTenantId, year) == Loaded(saved)
  {
    var saved := SaveCurrentTenantData(s);
    var t := s.selectedTenantId;
    assert ApplySettings(saved, t, year) == Loaded(saved);
    assert LoadContents(saved, t) == Loaded(saved);
    assert LoadLeads(saved, t) == Loaded(saved);
  }

  /** Every action that commits new data is durable: reloading the tenant
      yields the committed data. */
  lemma CommitIsDurable(s: Store, d: TenantData, year: nat)
    ensures LoadTenantData(Commit(s, d), s.selectedTenantId, year) == Loaded(Commit(s, d))
    ensures Commit(s, d).data == d
  {
    SaveLoadRoundTrip(s.(data := d), year);
  }

  /** A completed load of the selected tenant is a fixed point: loading again
      changes nothing, storage included (bootstrap defaults are persisted). */
  lemma LoadIdempotent(s: Store, year: nat)
    requires LoadTenantData(s, s.selectedTenantId, year).Loaded?
    ensures var s1 := LoadTenantData(s, s.selectedTenantId, year).store;
            LoadTenantData(s1, s.selectedTenantId, year) == Loaded(s1)
  {
    var t := s.selectedTenantId;
    if Read(s.storage, Key(t, SettingsSeg)).None? {
      BootstrapInheritsPreviousTenant(s, year);
      var s1 := ApplySettings(s, t, year).store;
      assert s1 == SaveCurrentTenantData(s1);
      SaveLoadRoundTrip(s1, year);
    } else {
      LoadIdempotentStored(s, year);
    }
  }

  /** The fixed point when settings are stored: the storage is untouched, so
      each step reads back what it loaded. */
  lemma LoadIdempotentStored(s: Store, year: nat)
    requires Read(s.storage, Key(s.selectedTenantId, SettingsSeg)).Some?
    requires LoadTenantData(s, s.selectedTenantId, year).Loaded?
    ensures var s1 := LoadTenantData(s, s.selectedTenantId, year).store;
            LoadTenantData(s1, s.selectedTenantId, year) == Loaded(s1)
  {
    var t := s.selectedTenantId;
    var a := ApplySettings(s, t, year).store;
    var b := LoadContents(a, t).store;
    var c := LoadLeads(b, t).store;
    var s1 := LoadTenantData(s, t, year).store;
    assert s1 == LoadTerms(c, t).store;
    assert s1.storage == s.storage;
    assert ApplySettings(s1, t, year) == Loaded(s1);
    assert LoadContents(s1, t) == Loaded(s1);
    assert LoadLeads(s1, t) == Loaded(s1);
    assert LoadTerms(s1, t) == Loaded(s1);
  }

  /** `d` is what `storage` holds for tenant `t`: the stored settings, with the
      site configuration falling back to `prevConfig` when missing, and each
      stored collection, or none when it is absent. */
  predicate ShowsStored(d: TenantData, storage: Storage, t: string, prevConfig: SiteConfig) {
    var st := Read(storage, Key(t, SettingsSeg));
    var cs := Read(storage, Key(t, ContentsSeg));
    var ls := Read(storage, Key(t, LeadsSeg));
    var ts := Read(storage, Key(t, TermsSeg));
    && st.Some? && st.value.SettingsBlob?
    && d.brandKit == st.value.settings.brandKit && d.pageSeo == st.value.settings.pageSeo
    && d.sections == st.value.settings.sections && d.siteConfig == st.value.settings.siteConfig.GetOr(prevConfig)
    && (if cs.None? then d.contents == [] else cs == Some(ContentsBlob(d.contents)))
    && (if ls.None? then d.leads == [] else ls == Some(LeadsBlob(d.leads)))
    && (if ts.None? then d.terms == [] else ts == Some(TermsBlob(d.terms)))
  }

  /** With stored settings a completed load leaves the storage alone and shows
      exactly what is stored for the tenant. */
  lemma LoadedDataIsStored(s: Store, year: nat)
    requires Read(s.storage, Key(s.selectedTenantId, SettingsSeg)).Some?
    ensures var r := LoadTenantData(s, s.selectedTenantId, year);
            r.Loaded? ==> r.store.storage == s.storage
                          && ShowsStored(r.store.data, s.storage, s.selectedTenantId, s.data.siteConfig)
  {
    var t := s.selectedTenantId;
    var a := ApplySettings(s, t, year);
    if a.Loaded? {
      var b := LoadContents(a.store, t);
      if b.Loaded? {
        var c := LoadLeads(b.store, t);
        if c.Loaded? {
          var d := LoadTerms(c.store, t);
          assert LoadTenantData(s, t, year) == d;
          assert c.store.storage == s.storage;
          if d.Loaded? {
            StagesShowStored(s, a.store.data, b.store.data, c.store.data, d.store.data, t);
          }
        }
      }
    }
  }

  /** The four loader stages, each replacing one part, end in the stored state. */
  lemma StagesShowStored(s: Store, a: TenantData, b: TenantData, c: TenantData, d: TenantData, t: string)
    requires var st := Read(s.storage, Key(t, SettingsSeg));
             && st.Some? && st.value.SettingsBlob?
             && a.brandKit == st.value.settings.brandKit && a.pageSeo == st.value.settings.pageSeo
             && a.sections == st.value.settings.sections && a.siteConfig == st.value.settings.siteConfig.GetOr(s.data.siteConfig)
    requires b == a.(contents := b.contents) && c == b.(leads := c.leads) && d == c.(terms := d.terms)
    requires var cs := Read(s.storage, Key(t, ContentsSeg));
             (cs.None? ==> b.contents == []) && (cs.Some? ==> cs.value.ContentsBlob? && b.contents == cs.value.contents)
    requires var ls := Read(s.storage, Key(t, LeadsSeg));
             (ls.None? ==> c.leads == []) && (ls.Some? ==> ls.value.LeadsBlob? && c.leads == ls.value.leads)
    requires var ts := Read(s.storage, Key(t, TermsSeg));
             (ts.None? ==> d.terms == []) && (ts.Some? ==> ts.value.TermsBlob? && d.terms == ts.value.terms)
    ensures ShowsStored(d, s.storage, t, s.data.siteConfig)
  {
  }

  /** Bootstrap as written: a tenant with no stored settings inherits the
      in-memory contents, leads and terms of the previously active tenant,
      because the defaults are persisted before those segments are read. */
  lemma BootstrapInheritsPreviousTenant(s: Store, year: nat)
    requires Read(s.storage, Key(s.selectedTenantId, SettingsSeg)).None?
    ensures LoadTenantData(s, s.selectedTenantId, year).Loaded?
    ensures LoadTenantData(s, s.selectedTenantId, year) == ApplySettings(s, s.selectedTenantId, year)
    ensures var r := LoadTenantData(s, s.selectedTenantId, year).store;
            r.data.contents == s.data.contents && r.data.leads == s.data.leads && r.data.terms == s.data.terms
  {
    var t := s.selectedTenantId;
    var a := ApplySettings(s, t, year);
    assert Read(s.storage, Key(t, SettingsSeg)).None?;
    var m := a.store;
    assert a == Loaded(m) && m == SaveCurrentTenantData(m);
    assert Read(m.storage, Key(t, ContentsSeg)) == Some(ContentsBlob(s.data.contents));
    assert LoadContents(m, t) == Loaded(m);
    assert Read(m.storage, Key(t, LeadsSeg)) == Some(LeadsBlob(s.data.leads));
    assert LoadLeads(m, t) == Loaded(m);
    assert Read(m.storage, Key(t, TermsSeg)) == Some(TermsBlob(s.data.terms));
    assert LoadTerms(m, t) == Loaded(m);
  }

  /** A concrete case: switching from a tenant holding one post to a tenant
      "acme" with nothing stored shows that post under "acme". */
  lemma BootstrapLeakExample(c: Content)
    ensures var s := Store(map[], [AgencyTenant()], "acme",
                           InitialData().(contents := [c]), None);
            LoadTenantData(s, "acme", 2024).store.data.contents == [c]
  {
    var s := Store(map[], [AgencyTenant()], "acme", InitialData().(contents := [c]), None);
    BootstrapInheritsPreviousTenant(s, 2024);
  }

  /** Corrected `loadTenantData`: a tenant bootstrapped from defaults starts
      with empty contents, leads and terms, as a first-time tenant should. The
      page SEO is left as it was: the defaults of neither kind set it, so the
      previous tenant's value is still carried over and persisted. */
  function LoadTenantDataCorrected(s: Store, tenantId: string, year: nat): (r: Loaded)
    ensures r.store.selectedTenantId == s.selectedTenantId && r.store.tenants == s.tenants
    ensures Read(s.storage, Key(tenantId, SettingsSeg)).Some? ==> r == LoadTenantData(s, tenantId, year)
  {
    if Read(s.storage, Key(tenantId, SettingsSeg)).None? then
      LoadTenantData(s.(data := s.data.(contents := [], leads := [], terms := [])), tenantId, year)
    else LoadTenantData(s, tenantId, year)
  }

  /** A tenant with no stored settings comes up with the default sections of its
      kind and empty collections, and those defaults are what is now stored. */
  lemma CorrectedBootstrapIsEmpty(s: Store, year: nat)
    requires Read(s.storage, Key(s.selectedTenantId, SettingsSeg)).None?
    ensures var r := LoadTenantDataCorrected(s, s.selectedTenantId, year);
            && r.Loaded?
            && r.store.data.contents == [] && r.store.data.leads == [] && r.store.data.terms == []
            && r.store.data.sections == (if s.selectedTenantId == AgencyTenantId then AgencySections() else ClientSections())
            && r.store.data.pageSeo == s.data.pageSeo
            && Read(r.store.storage, Key(s.selectedTenantId, ContentsSeg)) == Some(ContentsBlob([]))
            && Read(r.store.storage, Key(s.selectedTenantId, SettingsSeg)) == Some(SettingsBlob(SettingsOf(r.store.data)))
  {
    var t := s.selectedTenantId;
    var s0 := s.(data := s.data.(contents := [], leads := [], terms := []));
    BootstrapInheritsPreviousTenant(s0, year);
    var m := ApplySettings(s0, t, year).store;
    assert LoadTenantDataCorrected(s, t, year) == Loaded(m);
    if t == AgencyTenantId {
      assert m == InitializeAgencyDefaults(s0);
    } else {
      assert m == InitializeNewClientDefaults(s0, year);
    }
  }

  lemma CorrectedLoadRoundTrip(s: Store, year: nat)
    ensures var saved := SaveCurrentTenantData(s);
            LoadTenantDataCorrected(saved, s.selectedTenantId, year) == Loaded(saved)
  {
    SaveLoadRoundTrip(s, year);
  }

  // --- tenants ---

  /** `updateTenant(id)`: select the tenant, then load its data with the loader
      as written. With stored settings the tenant's stored collections are shown
      (an absent one as empty); without, the collections shown before are kept. */
  function UpdateTenant(s: Store, id: string, year: nat): (r: Loaded)
    ensures r.store.selectedTenantId == id && r.store.tenants == s.tenants
    ensures Read(s.storage, Key(id, SettingsSeg)).Some? && r.Loaded? ==>
              && r.store.storage == s.storage
              && ShowsStored(r.store.data, s.storage, id, s.data.siteConfig)
    ensures Read(s.storage, Key(id, SettingsSeg)).None? ==>
              && r.Loaded?
              && r.store.data.contents == s.data.contents && r.store.data.leads == s.data.leads
              && r.store.data.terms == s.data.terms
  {
    var s1 := s.(selectedTenantId := id);
    if Read(s.storage, Key(id, SettingsSeg)).None? then
      BootstrapInheritsPreviousTenant(s1, year);
      LoadTenantData(s1, id, year)
    else
      LoadedDataIsStored(s1, year);
      LoadTenantData(s1, id, year)
  }

  /** `updateTenant` with the corrected loader: a first-time tenant starts empty. */
  function UpdateTenantCorrected(s: Store, id: string, year: nat): (r: Loaded)
    ensures r.store.selectedTenantId == id && r.store.tenants == s.tenants
    ensures Read(s.storage, Key(id, SettingsSeg)).None? ==>
              r.Loaded? && r.store.data.contents == [] && r.store.data.leads == [] && r.store.data.terms == []
    ensures Read(s.storage, Key(id, SettingsSeg)).Some? ==> r == UpdateTenant(s, id, year)
  {
    var s1 := s.(selectedTenantId := id);
    if Read(s.storage, Key(id, SettingsSeg)).None? then
      CorrectedBootstrapIsEmpty(s1, year);
      LoadTenantDataCorrected(s1, id, year)
    else LoadTenantDataCorrected(s1, id, year)
  }

  function NewTenantSettings(t: Tenant): Settings {
    Settings(
      ClientBrand(),
      PageSeo(t.name, "", "", None),
      [Section("hero", Hero, "Hero",
               map["headline_1" := Str("Welcome"), "headline_2" := Str(t.name), "desc" := Str("Your new website."),
                   "ctaText" := Str("Contact"), "image" := Str(HeroImage)], true)],
      Some(SiteConfig(Header(t.name, []), Footer("\U{00A9} 2024", []), RobotsTxt)))
  }

  /** `addTenant`: register the tenant and seed its settings, contents and leads
      (terms are not seeded). The active tenant is not changed. */
  function AddTenant(s: Store, t: Tenant): (r: Store)
    ensures r.tenants == s.tenants + [t]
    ensures r.data == s.data && r.selectedTenantId == s.selectedTenantId
    ensures TenantsKey in r.storage && r.storage[TenantsKey] == TenantsBlob(r.tenants)
    ensures Read(r.storage, Key(t.id, SettingsSeg)) == Some(SettingsBlob(NewTenantSettings(t)))
    ensures Read(r.storage, Key(t.id, ContentsSeg)) == Some(ContentsBlob([]))
    ensures Read(r.storage, Key(t.id, LeadsSeg)) == Some(LeadsBlob([]))
    ensures forall k :: (k != TenantsKey && k != Key(t.id, SettingsSeg) && k != Key(t.id, ContentsSeg)
                         && k != Key(t.id, LeadsSeg)) ==> Read(r.storage, k) == Read(s.storage, k)
  {
    var ts := s.tenants + [t];
    FourKeysDistinct(t.id);
    forall g: Segment ensures Key(t.id, g) != TenantsKey { KeyIsNotGlobal(t.id, g); }
    s.(tenants := ts,
       storage := s.storage[TenantsKey := TenantsBlob(ts)]
                           [Key(t.id, SettingsSeg) := SettingsBlob(NewTenantSettings(t))]
                           [Key(t.id, ContentsSeg) := ContentsBlob([])]
                           [Key(t.id, LeadsSeg) := LeadsBlob([])])
  }

  /** Switching to a freshly added tenant shows its seeded settings and empty
      contents and leads. */
  lemma AddedTenantLoads(s: Store, t: Tenant, year: nat)
    requires Read(s.storage, Key(t.id, TermsSeg)).None?
    ensures var r := UpdateTenant(AddTenant(s, t), t.id, year);
            && r.Loaded?
            && r.store.data.contents == [] && r.store.data.leads == [] && r.store.data.terms == []
            && r.store.data.pageSeo.title == t.name
            && r.store.data.siteConfig.header.logoText == t.name
            && |r.store.data.sections| == 1 && r.store.data.sections[0].content["headline_2"] == Str(t.name)
  {
    var a := AddTenant(s, t).(selectedTenantId := t.id);
    KeyIsNotGlobal(t.id, TermsSeg);
    FourKeysDistinct(t.id);
    assert Read(a.storage, Key(t.id, TermsSeg)) == None;
    SeededTenantLoads(a, t.id, NewTenantSettings(t), year);
    assert UpdateTenant(AddTenant(s, t), t.id, year) == LoadTenantData(a, t.id, year);
  }

  /** A tenant whose settings are stored and whose contents and leads are stored
      empty (terms absent) loads exactly those settings and empty collections. */
  lemma SeededTenantLoads(a: Store, id: string, st: Settings, year: nat)
    requires st.siteConfig.Some?
    requires Read(a.storage, Key(id, SettingsSeg)) == Some(SettingsBlob(st))
    requires Read(a.storage, Key(id, ContentsSeg)) == Some(ContentsBlob([]))
    requires Read(a.storage, Key(id, LeadsSeg)) == Some(LeadsBlob([]))
    requires Read(a.storage, Key(id, TermsSeg)).None?
    ensures LoadTenantData(a, id, year)
            == Loaded(a.(data := a.data.(brandKit := st.brandKit, pageSeo := st.pageSeo, sections := st.sections,
                                         siteConfig := st.siteConfig.value, contents := [], leads := [], terms := [])))
  {
    var m := a.(data := a.data.(brandKit := st.brandKit, pageSeo := st.pageSeo, sections := st.sections,
                                siteConfig := st.siteConfig.value));
    assert ApplySettings(a, id, year) == Loaded(m);
    var m1 := m.(data := m.data.(contents := []));
    assert LoadContents(m, id) == Loaded(m1);
    var m2 := m1.(data := m1.data.(leads := []));
    assert LoadLeads(m1, id) == Loaded(m2);
  }

  /** `loadTenantsList`: restore the stored tenant list, or store the current
      one when there is none; `JSON.parse` throws on anything else. */
  function LoadTenantsList(s: Store): (r: Loaded)
    ensures Read(s.storage, TenantsKey).None? ==> r == Loaded(s.(storage := s.storage[TenantsKey := TenantsBlob(s.tenants)]))
    ensures forall ts :: Read(s.storage, TenantsKey) == Some(TenantsBlob(ts)) ==> r == Loaded(s.(tenants := ts))
    ensures r.Threw? <==> Read(s.storage, TenantsKey).Some? && !Read(s.storage, TenantsKey).value.TenantsBlob?
    ensures r.Threw? ==> r == Threw(s, TenantsKey)
  {
    match Read(s.storage, TenantsKey)
    case None => Loaded(s.(storage := s.storage[TenantsKey := TenantsBlob(s.tenants)]))
    case Some(TenantsBlob(ts)) => Loaded(s.(tenants := ts))
    case Some(_) => Threw(s, TenantsKey)
  }

  /** A registered tenant survives a reload: whatever list a fresh store starts
      with, loading the stored list gives back the one `addTenant` wrote. */
  lemma AddedTenantSurvivesReload(s: Store, t: Tenant, initial: seq<Tenant>)
    ensures var a := AddTenant(s, t);
            LoadTenantsList(a.(tenants := initial)) == Loaded(a)
  {
  }

  // --- session ---

  const SuperAdminEmail: string := "hianto-superadmin@verbai.com"
  const SuperAdminPassword: string := "VerbAI2k26"
  const AdminEmail: string := "admin@verbai.com"
  const AdminPassword: string := "admin"

  /** `attemptLogin`: two fixed credential pairs; on success the user is set and
      the session persisted. Returns whether the login succeeded. */
  function AttemptLogin(s: Store, email: string, password: string): (r: (bool, Store))
    ensures r.0 <==> (email == SuperAdminEmail && password == SuperAdminPassword)
                     || (email == AdminEmail && password == AdminPassword)
    ensures !r.0 ==> r.1 == s
    ensures r.0 ==> && r.1.currentUser.Some? && r.1.currentUser.value.email == email
                    && r.1.currentUser.value.role == (if email == SuperAdminEmail then SuperAdmin else Admin)
                    && r.1.currentUser.value.avatarUrl.None?
                    && r.1 == s.(currentUser := r.1.currentUser,
                                 storage := s.storage[SessionKey := UserBlob(r.1.currentUser.value)])
    ensures r.0 && email == SuperAdminEmail ==>
              r.1.currentUser.value.name == "Hianto Super" && r.1.currentUser.value.initials == "HS"
    ensures r.0 && email == AdminEmail ==>
              r.1.currentUser.value.name == "Admin User" && r.1.currentUser.value.initials == "AU"
  {
    var user: Option<User> :=
      if email == SuperAdminEmail && password == SuperAdminPassword then Some(User("Hianto Super", email, SuperAdmin, "HS", None))
      else if email == AdminEmail && password == AdminPassword then Some(User("Admin User", email, Admin, "AU", None))
      else None;
    if user.Some? then (true, s.(currentUser := user, storage := s.storage[SessionKey := UserBlob(user.value)]))
    else (false, s)
  }

  /** `loadSession`: restore the stored user; unreadable text is ignored. */
  function LoadSession(s: Store): (r: Store)
    ensures r == s.(currentUser := r.currentUser)
    ensures var v := Read(s.storage, SessionKey);
            && (v.Some? && v.value.UserBlob? ==> r.currentUser == Some(v.value.user))
            && (v.None? || !v.value.UserBlob? ==> r == s)
  {
    match Read(s.storage, SessionKey)
    case Some(UserBlob(u)) => s.(currentUser := Some(u))
    case _ => s
  }

  /** A successful login survives a reload: a fresh store that loads the
      session gets the same user back. */
  lemma LoginSurvivesReload(s: Store, email: string, password: string)
    requires AttemptLogin(s, email, password).0
    ensures var r := AttemptLogin(s, email, password).1;
            LoadSession(r.(currentUser := None)).currentUser == r.currentUser
  {
  }

  /** `logout`: clear the user and the stored session. */
  function Logout(s: Store): (r: Store)
    ensures r == s.(currentUser := None, storage := r.storage)
    ensures SessionKey !in r.storage
    ensures forall k :: k != SessionKey ==> (k in r.storage <==> k in s.storage)
    ensures forall k :: k != SessionKey && k in s.storage ==> r.storage[k] == s.storage[k]
  {
    s.(currentUser := None, storage := s.storage - {SessionKey})
  }

  /** After logging out, a reload finds no session. */
  lemma LogoutSurvivesReload(s: Store)
    ensures LoadSession(Logout(s)).currentUser.None?
  {
  }

  datatype UserPatch = UserPatch(name: Option<string>, email: Option<string>, role: Option<Role>,
                                 initials: Option<string>, avatarUrl: Option<string>)

  function MergeUser(u: User, p: UserPatch): User {
    User(p.name.GetOr(u.name), p.email.GetOr(u.email), p.role.GetOr(u.role), p.initials.GetOr(u.initials),
         if p.avatarUrl.Some? then p.avatarUrl else u.avatarUrl)
  }

  /** `updateUser`: merge the given fields into the signed-in user and persist
      the session; with nobody signed in nothing happens. */
  function UpdateUser(s: Store, p: UserPatch): (r: Store)
    ensures s.currentUser.None? ==> r == s
    ensures r == s.(currentUser := r.currentUser, storage := r.storage)
    ensures forall k :: k != SessionKey ==> Read(r.storage, k) == Read(s.storage, k)
    ensures s.currentUser.Some? ==> r.currentUser.Some?
    ensures s.currentUser.Some? ==>
              var u, v := s.currentUser.value, r.currentUser.value;
              && v.name == (if p.name.Some? then p.name.value else u.name)
              && v.email == (if p.email.Some? then p.email.value else u.email)
              && v.role == (if p.role.Some? then p.role.value else u.role)
              && v.initials == (if p.initials.Some? then p.initials.value else u.initials)
              && v.avatarUrl == (if p.avatarUrl.Some? then p.avatarUrl else u.avatarUrl)
              && LoadSession(r.(currentUser := None)).currentUser == r.currentUser
  {
    if s.currentUser.None? then s
    else
      var u := MergeUser(s.currentUser.value, p);
      s.(currentUser := Some(u), storage := s.storage[SessionKey := UserBlob(u)])
  }
}

=== FILE: strings.dfy ===
/** The few JavaScript string operations the core relies on: ASCII lower-casing,
    whitespace as the regular-expression class `\s` and `String.prototype.trim`
    see it, `split` on one character, `join`, and decimal rendering of numbers. */
module Strings {

  /** The characters JavaScript's `\s` and `trim` treat as white space
      (ECMAScript WhiteSpace and LineTerminator). */
  predicate IsSpace(c: char) {
    var n := c as int;
    n == 0x09 || n == 0x0A || n == 0x0B || n == 0x0C || n == 0x0D || n == 0x20
    || n == 0xA0 || n == 0x1680 || (0x2000 <= n <= 0x200A) || n == 0x2028 || n == 0x2029
    || n == 0x202F || n == 0x205F || n == 0x3000 || n == 0xFEFF
  }

  predicate IsUpper(c: char) { 'A' <= c <= 'Z' }

  predicate IsLowerAlnum(c: char) { ('a' <= c <= 'z') || ('0' <= c <= '9') }

  /** The regular-expression class `\w`: `[A-Za-z0-9_]`. */
  predicate IsWordChar(c: char) { IsUpper(c) || IsLowerAlnum(c) || c == '_' }

  function LowerChar(c: char): (r: char)
    ensures IsUpper(c) ==> r as int == c as int + 32
    ensures !IsUpper(c) ==> r == c
  {
    if IsUpper(c) then (c as int + 32) as char else c
  }

  /** `toLowerCase`, restricted to ASCII letters. */
  function Lower(s: string): (r: string)
    ensures |r| == |s|
    ensures forall i :: 0 <= i < |s| ==> r[i] == LowerChar(s[i])
  {
    seq(|s|, i requires 0 <= i < |s| => LowerChar(s[i]))
  }

  predicate HasNoUpper(s: string) {
    forall i :: 0 <= i < |s| ==> !IsUpper(s[i])
  }

  lemma LowerIdempotent(s: string)
    ensures HasNoUpper(Lower(s))
    ensures Lower(Lower(s)) == Lower(s)
  {
  }

  lemma LowerOfLowercase(s: string)
    requires HasNoUpper(s)
    ensures Lower(s) == s
  {
  }

  /** `String.prototype.trimStart` */
  function TrimStart(s: string): (r: string)
    ensures |r| <= |s| && r == s[|s| - |r|..]
    ensures |r| > 0 ==> !IsSpace(r[0])
    ensures forall i :: 0 <= i < |s| - |r| ==> IsSpace(s[i])
    decreases |s|
  {
    if |s| > 0 && IsSpace(s[0]) then TrimStart(s[1..]) else s
  }

  /** `String.prototype.trimEnd` */
  function TrimEnd(s: string): (r: string)
    ensures |r| <= |s| && r == s[..|r|]
    ensures |r| > 0 ==> !IsSpace(r[|r| - 1])
    ensures forall i :: |r| <= i < |s| ==> IsSpace(s[i])
    decreases |s|
  {
    if |s| > 0 && IsSpace(s[|s| - 1]) then TrimEnd(s[..|s| - 1]) else s
  }

  /** `String.prototype.trim`: the input without its leading and trailing white space. */
  function Trim(s: string): (r: string)
    ensures |r| == 0 || (!IsSpace(r[0]) && !IsSpace(r[|r| - 1]))
    ensures exists a, b :: 0 <= a <= b <= |s| && r == s[a..b]
              && (forall i :: 0 <= i < a ==> IsSpace(s[i]))
              && (forall i :: b <= i < |s| ==> IsSpace(s[i]))
  {
    var t := TrimStart(s);
    var r := TrimEnd(t);
    assert r == s[|s| - |t|..|s| - |t| + |r|];
    r
  }

  predicate AllSpace(s: string) {
    forall i :: 0 <= i < |s| ==> IsSpace(s[i])
  }

  /** Trimming yields the empty string exactly for all-white-space input. */
  lemma TrimEmptyIff(s: string)
    ensures Trim(s) == [] <==> AllSpace(s)
  {
    if Trim(s) == [] {
      var a, b :| 0 <= a <= b <= |s| && Trim(s) == s[a..b]
              && (forall i :: 0 <= i < a ==> IsSpace(s[i]))
              && (forall i :: b <= i < |s| ==> IsSpace(s[i]));
      assert a == b;
      forall i | 0 <= i < |s| ensures IsSpace(s[i]) {
        if i >= a { assert i >= b; }
      }
    }
  }

  /** Trimming is idempotent: text that neither starts nor ends with white
      space is its own trim. */
  lemma TrimFixed(s: string)
    requires |s| == 0 || (!IsSpace(s[0]) && !IsSpace(s[|s| - 1]))
    ensures Trim(s) == s
  {
  }

  predicate Contains(s: string, c: char) {
    exists i :: 0 <= i < |s| && s[i] == c
  }

  lemma ContainsAppend(a: string, b: string, c: char)
    ensures Contains(a + b, c) <==> Contains(a, c) || Contains(b, c)
  {
    if Contains(b, c) {
      var i :| 0 <= i < |b| && b[i] == c;
      assert (a + b)[|a| + i] == c;
    }
    if Contains(a, c) {
      var i :| 0 <= i < |a| && a[i] == c;
      assert (a + b)[i] == c;
    }
  }

  /** A text contains `c` when its first character is `c` or the rest contains it. */
  lemma ContainsCons(s: string, c: char)
    requires |s| > 0
    ensures Contains(s, c) <==> s[0] == c || Contains(s[1..], c)
  {
    assert s == [s[0]] + s[1..];
    ContainsAppend([s[0]], s[1..], c);
  }

  /** Index of the last occurrence of `c`, or -1 when there is none. */
  function LastIndex(s: string, c: char): (r: int)
    ensures -1 <= r < |s|
    ensures 0 <= r ==> s[r] == c && !Contains(s[r + 1..], c)
    ensures r == -1 ==> !Contains(s, c)
  {
    if |s| == 0 then -1
    else if s[|s| - 1] == c then |s| - 1
    else
      var init := s[..|s| - 1];
      var r := LastIndex(init, c);
      assert init + [s[|s| - 1]] == s;
      if r >= 0 then
        assert s[r + 1..] == init[r + 1..] + [s[|s| - 1]];
        ContainsAppend(init[r + 1..], [s[|s| - 1]], c);
        r
      else
        ContainsAppend(init, [s[|s| - 1]], c);
        r
  }

  /** A separator followed by a tail free of it is the last separator: the
      split point of `t + c + n` can be recovered from the whole. */
  lemma {:induction false} LastIndexAfter(t: string, c: char, n: string)
    requires !Contains(n, c)
    ensures LastIndex(t + [c] + n, c) == |t|
    decreases |n|
  {
    var s := t + [c] + n;
    if |n| == 0 {
      assert s[|s| - 1] == c;
    } else {
      var m := n[..|n| - 1];
      assert s[..|s| - 1] == t + [c] + m;
      assert s[|s| - 1] == n[|n| - 1];
      assert !Contains(m, c) by {
        forall i | 0 <= i < |m| ensures m[i] != c { assert m[i] == n[i]; }
      }
      LastIndexAfter(t, c, m);
    }
  }

  /** `p + t + c + n` with `n` free of `c` determines `t` and `n`. */
  lemma SplitAtLast(p: string, t1: string, n1: string, t2: string, n2: string, c: char)
    requires p + t1 + [c] + n1 == p + t2 + [c] + n2
    requires !Contains(n1, c) && !Contains(n2, c)
    ensures t1 == t2 && n1 == n2
  {
    var a, b := t1 + [c] + n1, t2 + [c] + n2;
    assert a == (p + t1 + [c] + n1)[|p|..];
    assert b == (p + t2 + [c] + n2)[|p|..];
    LastIndexAfter(t1, c, n1);
    LastIndexAfter(t2, c, n2);
    assert a[..|t1|] == t1 && b[..|t2|] == t2;
    assert a[|t1| + 1..] == n1 && b[|t2| + 1..] == n2;
  }

  /** Index of the first occurrence of `c`, or `|s|` when there is none. */
  function FirstIndex(s: string, c: char): (i: nat)
    ensures i <= |s|
    ensures i < |s| ==> s[i] == c
    ensures forall j :: 0 <= j < i ==> s[j] != c
    decreases |s|
  {
    if |s| == 0 then 0
    else if s[0] == c then 0
    else 1 + FirstIndex(s[1..], c)
  }

  /** `s.split(sep)` for a one-character separator: always at least one part. */
  function Split(s: string, sep: char): (parts: seq<string>)
    ensures |parts| >= 1
    ensures forall k :: 0 <= k < |parts| ==> !Contains(parts[k], sep)
    decreases |s|
  {
    var i := FirstIndex(s, sep);
    if i == |s| then [s] else [s[..i]] + Split(s[i + 1..], sep)
  }

  lemma SplitWithoutSep(s: string, sep: char)
    requires !Contains(s, sep)
    ensures Split(s, sep) == [s]
  {
  }

  /** `parts.join(sep)` */
  function Join(parts: seq<string>, sep: string): string
    decreases |parts|
  {
    if |parts| == 0 then ""
    else if |parts| == 1 then parts[0]
    else parts[0] + sep + Join(parts[1..], sep)
  }

  /** A join holds `c` only if a part or the separator does. */
  lemma {:induction false} JoinAvoids(parts: seq<string>, sep: string, c: char)
    requires forall k :: 0 <= k < |parts| ==> !Contains(parts[k], c)
    requires !Contains(sep, c)
    ensures !Contains(Join(parts, sep), c)
    decreases |parts|
  {
    if |parts| > 1 {
      JoinAvoids(parts[1..], sep, c);
      ContainsAppend(parts[0], sep, c);
      ContainsAppend(parts[0] + sep, Join(parts[1..], sep), c);
    }
  }

  /** Joining a head before at least one more part puts the separator between. */
  lemma JoinCons(p: string, rest: seq<string>, sep: string)
    requires |rest| >= 1
    ensures Join([p] + rest, sep) == p + sep + Join(rest, sep)
  {
    var ps := [p] + rest;
    assert ps[0] == p && ps[1..] == rest;
  }

  /** Joining the parts of a split gives back the original text. */
  lemma {:induction false} JoinSplit(s: string, sep: char)
    ensures Join(Split(s, sep), [sep]) == s
    decreases |s|
  {
    var i := FirstIndex(s, sep);
    if i < |s| {
      var rest := Split(s[i + 1..], sep);
      JoinSplit(s[i + 1..], sep);
      assert Split(s, sep) == [s[..i]] + rest;
      JoinCons(s[..i], rest, [sep]);
      assert s == s[..i] + [sep] + s[i + 1..];
    }
  }

  /** Splitting a join gives back the parts, provided no part holds the separator. */
  lemma {:induction false} SplitJoin(parts: seq<string>, sep: char)
    requires |parts| >= 1
    requires forall k :: 0 <= k < |parts| ==> !Contains(parts[k], sep)
    ensures Split(Join(parts, [sep]), sep) == parts
    decreases |parts|
  {
    var p := parts[0];
    if |parts| == 1 {
      assert Join(parts, [sep]) == p;
      assert FirstIndex(p, sep) == |p|;
    } else {
      var rest := Join(parts[1..], [sep]);
      var s := p + [sep] + rest;
      assert Join(parts, [sep]) == s;
      assert FirstIndex(s, sep) == |p| by {
        assert s[|p|] == sep;
        forall j | 0 <= j < |p| ensures s[j] != sep {
          assert s[j] == p[j];
        }
        FirstIndexIsFirst(s, sep, |p|);
      }
      assert s[..|p|] == p;
      assert s[|p| + 1..] == rest;
      SplitJoin(parts[1..], sep);
      assert parts == [p] + parts[1..];
    }
  }

  lemma FirstIndexIsFirst(s: string, c: char, k: nat)
    requires k < |s| && s[k] == c
    requires forall j :: 0 <= j < k ==> s[j] != c
    ensures FirstIndex(s, c) == k
  {
  }

  // --- decimal numbers ---

  predicate IsDigit(c: char) { '0' <= c <= '9' }

  function DigitChar(d: nat): (c: char)
    requires d < 10
    ensures IsDigit(c)
  {
    ('0' as int + d) as char
  }

  /** The decimal rendering of a natural number, as `String(n)` gives it. */
  function NatToString(n: nat): (s: string)
    ensures |s| >= 1
    ensures forall i :: 0 <= i < |s| ==> IsDigit(s[i])
    decreases n
  {
    if n < 10 then [DigitChar(n)] else NatToString(n / 10) + [DigitChar(n % 10)]
  }

  /** Reads a string of decimal digits back as a number. */
  function ParseNat(s: string): nat
    decreases |s|
  {
    if |s| == 0 then 0
    else
      var d := s[|s| - 1] as int - '0' as int;
      10 * ParseNat(s[..|s| - 1]) + (if 0 <= d then d else 0)
  }

  lemma {:induction false} ParseNatToString(n: nat)
    ensures ParseNat(NatToString(n)) == n
    decreases n
  {
    if n >= 10 {
      ParseNatToString(n / 10);
      var s := NatToString(n);
      assert s[..|s| - 1] == NatToString(n / 10);
    }
  }

  /** Distinct numbers render differently. */
  lemma NatToStringInjective(m: nat, n: nat)
    requires NatToString(m) == NatToString(n)
    ensures m == n
  {
    ParseNatToString(m);
    ParseNatToString(n);
  }
}

=== FILE: wrappers.dfy ===
/** Optional values and results, used wherever the source has `undefined`,
    `null` or an exception path. */
module Wrappers {

  datatype Option<+T> = None | Some(value: T) {

    /** The wrapped value, or `default` when there is none (JavaScript's `x ?? d`). */
    function GetOr(default: T): T {
      match this
      case Some(v) => v
      case None => default
    }
  }

  datatype Result<+T, +E> = Ok(value: T) | Err(error: E)
}
